=== FILE: README.md ===
# Pharmacy bills, patient accounts and consultations — a Dafny model

This project models the server core of a rural-health backend written in
JavaScript (Express and Mongoose), with the properties that core promises
proved in Dafny.

- **Bill ingestion** (`routes/billRoutes.js`). A pharmacy uploads a photo of a
  supplier bill. The handler does the following in order:
  - It reads the OCR text and detects the issuing pharmacy's name.
  - It rejects bills whose name does not match the logged-in pharmacy.
  - It creates a bill in status "Processing".
  - It takes the medicine items from the AI reply or from a fallback line
    parser, and reconciles them against the pharmacy's inventory, upserting
    by case-insensitive name.
  - It completes the bill.

  Deleting a bill removes the bill and every medicine record it created.
- **Record shapes** (`models/Medicine.js`, `models/Bill.js`,
  `models/Consultation.js`). Each schema is a creation function. The function
  checks required fields and enums and fills in defaults.
- **Patient accounts** (`controllers/authController.js` and its unmounted
  copy `controllers/userController.js`). These cover email registration, the
  duplicate-email check, and Google sign-in, which links a Google id only
  once. They also cover the mock one-time-password table: upsert per phone, a
  5-minute expiry, checks in a fixed order, and single use.
- **Consultations** (`routes/doctorAuth.js`, `routes/consultationRoutes.js`).
  These cover doctor registration, booking, the doctor's request listing, and
  accept/decline with video-room assignment. They also cover the patient
  listing and starting a video session.

## Layout

Each handler follows the same pattern:
- A pure function on a state value is the specification. It returns the new
  state, the HTTP status and the reply body.
- Lemmas state what the handler promises.
- A method on a class with the store's fields performs the update in place.
  Its `ensures` ties the new fields to the specification function.

| file | contents |
|---|---|
| `wrappers.dfy`, `values.dfy`, `js_text.dfy`, `lookup.dfy` | Option; ids, times, decimals, dates; the JavaScript string operations used (trim, split on line breaks, ASCII `toLowerCase`, `includes`, decimal digits); first-match and filter over sequences |
| `candidate.dfy` | an item as the parsers hand it over (every field optional) |
| `medicine_model.dfy`, `bill_model.dfy`, `consultation_model.dfy` | the three schemas |
| `pharmacy_detection.dfy` | `normalizeName`, the fallback pharmacy name, the AI name post-processing, the authenticity gate |
| `fallback_parser.dfy` | the line regex as a scanner, the per-line loop and the de-duplication loop |
| `ai_output.dfy` | bracket slicing of the AI reply, the JSON step as a parameter |
| `regex_escape.dfy` | `escapeRegExp` and the anchored, case-insensitive lookup it builds |
| `reconciliation.dfy` | the upsert loop as a fold, and delete-by-source-bill |
| `bill_routes.dfy` | the upload and delete handlers; class `BillService` |
| `accounts.dfy` | the user collection, its unique indexes, the OTP table; class `AccountStore` |
| `auth_controller.dfy`, `user_controller.dfy` | the two controllers' request validation on top of `accounts.dfy` |
| `clinic.dfy` | doctors and consultations; class `ClinicStore` |
| `doctor_auth.dfy`, `consultation_routes.dfy` | the doctor and consultation routes |

## Model

| member | source | states |
|---|---|---|
| PharmacyDetection.Normalize | routes/billRoutes.js:93-97 | the normalised name is no longer than the input and holds only lower-case ASCII letters and digits |
| PharmacyDetection.NormalizeChar | routes/billRoutes.js:93-97 | a single ASCII letter or digit is kept lower-cased, and every other character is removed; with `NormalizeAppend` this fixes the normal form of every string |
| PharmacyDetection.NormalizeTrim | routes/billRoutes.js:93-97 | surrounding whitespace never reaches the normal form |
| PharmacyDetection.NormalizeName | routes/billRoutes.js:93-97 | a missing name normalises to "" and any result holds only `[a-z0-9]` |
| PharmacyDetection.NormalizeFixesLowerAlnum | routes/billRoutes.js:93-97 | a string made only of `[a-z0-9]` is its own normal form |
| PharmacyDetection.NormalizeIdempotent | routes/billRoutes.js:93-97 | normalising twice is the same as normalising once |
| PharmacyDetection.NormalizeIgnoresCase | routes/billRoutes.js:93-97 | lower-casing first does not change the normal form |
| PharmacyDetection.Rejects | routes/billRoutes.js:208-223 | a rejected upload always has a detected name, a caller name that normalises to something, and two different normal forms |
| PharmacyDetection.GatePassesWithoutEvidence | routes/billRoutes.js:212-218 | no detected name, or a detected or own name with no letters or digits, never rejects a bill |
| PharmacyDetection.ApolloAccepted | routes/billRoutes.js:212-218 | "apollo pharmacy" detected for "Apollo Pharmacy Pvt Ltd" passes, because one normal form contains the other |
| PharmacyDetection.ForeignBillRejected | routes/billRoutes.js:212-218 | "XYZ Mart" detected for "Apollo" is rejected |
| PharmacyDetection.DetectWithAI | routes/billRoutes.js:46-76 | no name without a key, without a reply, or when the trimmed reply is empty or "unknown" in any case; otherwise the trimmed reply lower-cased, which is non-empty and not "unknown" |
| PharmacyDetection.DetectedNormalizesLikeReply | routes/billRoutes.js:67-70 | the detected name has the same normal form as the raw reply, so the gate judges the AI's answer as written |
| PharmacyDetection.ExtractPharmacyNameFallback | routes/billRoutes.js:78-82 | null exactly when there is no non-blank line; otherwise the first up to three trimmed lines joined by single spaces and lower-cased, starting with the first line |
| PharmacyDetection.DetectPharmacyName | routes/billRoutes.js:84-90 | the AI name when there is one, the fallback otherwise; null only when both are null |
| JsText.SplitLinesJoin | routes/billRoutes.js:79 | splitting at line feeds loses nothing: without carriage returns, joining the pieces with "\n" gives the text back |
| JsText.TrimmedNonBlank | routes/billRoutes.js:79 | no more lines than pieces, and every kept line is non-empty and trimmed |
| JsText.TrimmedNonBlankCovers | routes/billRoutes.js:79 | every piece that is not blank is kept, trimmed |
| JsText.TrimmedNonBlankAppend | routes/billRoutes.js:79 | the trim-and-filter works piece by piece and in order: one piece gives its trimmed text or nothing, and concatenation is kept |
| JsText.TrimmedNonBlankEmpty | routes/billRoutes.js:79 | nothing is kept exactly when every piece is blank |
| JsText.SplitLinesBlank | routes/billRoutes.js:79 | a text is all whitespace exactly when every piece between its line breaks is blank |
| JsText.NonBlankLines | routes/billRoutes.js:79 | every kept line is non-empty and trimmed, and every line of the split that is not blank is kept, trimmed |
| JsText.NonBlankLinesEmpty | routes/billRoutes.js:79 | there is no non-blank line exactly when the text is all whitespace |
| FallbackParser.FirstLetter | routes/billRoutes.js:103-107 | the leftmost match starts at the first ASCII letter, and there is none exactly when the line has no letter |
| FallbackParser.NameRunEnd | routes/billRoutes.js:103-104 | the greedy name class `[A-Za-z0-9\-\s\/]*` stops at the first character outside it |
| FallbackParser.ScanPrice | routes/billRoutes.js:103-104 | a price is read exactly when "₹", at most one whitespace and a digit follow the name run |
| FallbackParser.ParseLine | routes/billRoutes.js:106-121 | no item exactly for a line without an ASCII letter; otherwise the name is the trimmed maximal name-class run starting at the first letter (well-formed), generic name "", category "Unknown", form "", quantity 0, and the price scanned right after that run |
| FallbackParser.PriceOfNumber | routes/billRoutes.js:103-112 | "₹", at most one whitespace, digits, optionally "." and digits, then text that does not continue the number: the price is the decimal value of those digits |
| FallbackParser.ParacetamolLine | routes/billRoutes.js:103-121 | "Paracetamol 500mg x10 ₹20" gives name "Paracetamol 500mg x10", quantity 0 and price 20 |
| FallbackParser.ParsedItems | routes/billRoutes.js:106-122 | at most one item per line, each in the fallback shape |
| FallbackParser.ParsedItemsAppend | routes/billRoutes.js:106-122 | lines are parsed one at a time and in order: one line gives its `ParseLine` item or nothing, and concatenation of lines is kept |
| FallbackParser.ParsedItemsAt | routes/billRoutes.js:106-122 | the items are those of the lines before line k, then line k's own, then those of the lines after it |
| FallbackParser.ParsedItemsCovers | routes/billRoutes.js:106-122 | every line that matches contributes its `ParseLine` item |
| FallbackParser.LetterlessLinesSkipped | routes/billRoutes.js:106-108 | a line without an ASCII letter adds no item |
| FallbackParser.DedupFrom | routes/billRoutes.js:124-134 | the de-duplication loop from a given seen-set keeps at most its input |
| FallbackParser.DedupIsSubsequence | routes/billRoutes.js:124-134 | the de-duplicated list is a subsequence of the parsed items, order kept |
| FallbackParser.DedupFromMembers | routes/billRoutes.js:124-134 | every kept item is one of the input items |
| FallbackParser.DedupDistinct | routes/billRoutes.js:124-134 | no two kept items have names equal ignoring case |
| FallbackParser.DedupCovers | routes/billRoutes.js:124-134 | every name of the input is represented in the output |
| FallbackParser.DedupKeepsFirst | routes/billRoutes.js:124-134 | the kept item for a name is the first item with that name |
| FallbackParser.FallbackItemsShape | routes/billRoutes.js:113-120 | every item the fallback parser returns has a non-empty name, "" generic name and form, "Unknown" category and quantity 0 |
| FallbackParser.ParseLines | routes/billRoutes.js:106-122 | the per-line loop collects exactly the specified items |
| FallbackParser.DedupByName | routes/billRoutes.js:124-134 | the Set-based loop computes the first-occurrence de-duplication |
| FallbackParser.FallbackParseMedicines | routes/billRoutes.js:100-135 | the parser returns the de-duplicated items of the trimmed non-blank lines |
| AiOutput.SliceJson | routes/billRoutes.js:171-176 | the whole reply when it lacks "[" or "]"; "" exactly when no "[" precedes a "]"; otherwise a text that starts with "[" and ends with "]" |
| AiOutput.SliceStripsChatter | routes/billRoutes.js:171-176 | text before the first "[" and after the last "]" is cut off, leaving the bracketed payload |
| AiOutput.SliceIsWidest | routes/billRoutes.js:171-176 | the slice lies in the reply with no "[" before it and no "]" after it |
| AiOutput.ParseMedicinesWithAI | routes/billRoutes.js:138-184 | no list without a key, without a reply or with a blank reply; otherwise exactly what the JSON step makes of the bracket slice of the trimmed reply |
| AiOutput.AiReadsWrappedArray | routes/billRoutes.js:168-179 | a reply with chatter around a bracketed array is parsed from that array alone |
| RegexEscape.EscapeRegExp | routes/billRoutes.js:186-188 | escaping at most doubles the length |
| RegexEscape.ReadLiteral | routes/billRoutes.js:186-188 | a pattern read as literal atoms yields no more characters than it has |
| RegexEscape.EscapeRoundTrip | routes/billRoutes.js:186-188 | reading the escaped pattern back as literal atoms gives the original name |
| RegexEscape.MatchesAnchoredCI | routes/billRoutes.js:259-262 | a match of the anchored, case-insensitive literal pattern uses up at most one character per pattern character, and the empty pattern matches only the empty name |
| RegexEscape.EscapedPatternMatchesIgnoringCase | routes/billRoutes.js:259-262 | the lookup pattern `^escaped$`, flag `i`, matches a stored name exactly when the two are equal ignoring case |
| RegexEscape.DotIsEscaped | routes/billRoutes.js:186-188 | "a.b" does not find "axb": "." is matched literally |
| MedicineModel.CreateMedicine | models/Medicine.js:4-16 | creation succeeds exactly when the name is a non-empty string; given fields are kept; an omitted generic name or form becomes "", category "Unknown", quantity 0 and location ""; price and expiry stay as given; timestamps set |
| MedicineModel.DefaultsWhenOmitted | models/Medicine.js:6-15 | omitted fields default to "", "Unknown", "", 0 and ""; price, expiry, pharmacy id and source bill stay unset |
| BillModel.ParseBillStatus | models/Bill.js:10-14 | a string is accepted exactly when it names one of the four statuses |
| BillModel.StatusNameRoundTrip | models/Bill.js:10-14 | every status name parses back to that status |
| BillModel.CreateBill | models/Bill.js:4-20 | creation needs a pharmacy id and a valid status or none; the status defaults to "Uploaded"; the medicine list is kept as given |
| ConsultationModel.ParseStatus | models/Consultation.js:19-23 | a string is accepted exactly when it names one of the four consultation statuses |
| ConsultationModel.ParseSender | models/Consultation.js:32 | a sender is "user" or "doctor" and nothing else |
| ConsultationModel.CreateMessage | models/Consultation.js:30-36 | a message needs a valid sender and a non-empty text; the timestamp defaults to now |
| ConsultationModel.CreateMessages | models/Consultation.js:30-36 | the message list is accepted exactly when every message is, and keeps their order |
| ConsultationModel.CreateConsultation | models/Consultation.js:3-42 | creation needs patient and doctor and valid status and messages; symptoms default to "", status to pending; appointment date and time and the video room are kept; every message is the validated input message at the same position |
| Reconciliation.FindExisting | routes/billRoutes.js:259-262 | the first record of the caller's pharmacy whose name equals the item's ignoring case, and none exactly when there is no such record |
| Reconciliation.ApplyUpdate | routes/billRoutes.js:264-273 | only quantity, price, expiry date and updatedAt change; each is overwritten only when the item supplies it |
| Reconciliation.NewRecord | routes/billRoutes.js:275-287 | a new record takes the trimmed name, the caller's pharmacy and address, this bill as source, quantity 0 and category "Unknown" by default |
| Reconciliation.NamedCount | routes/billRoutes.js:255-257 | the number of items with a non-empty trimmed name is at most the number of items |
| Reconciliation.Step | routes/billRoutes.js:255-289 | one pass of the loop body: skip a nameless item, otherwise update the caller's matching record or append a new one, and collect its id (properties in the Step lemmas below) |
| Reconciliation.Reconcile | routes/billRoutes.js:254-290 | the loop over the items in order, one `Step` each (properties in the Reconcile lemmas below) |
| Reconciliation.StepGrows | routes/billRoutes.js:255-289 | one item updates in place or appends one record from this batch, and appends one id unless its name is empty |
| Reconciliation.StepValid | routes/billRoutes.js:255-289 | one item keeps record ids distinct and below the counter |
| Reconciliation.ReconcileGrows | routes/billRoutes.js:254-290 | the loop only updates old records, appends records from this batch, and collects one id per named item |
| Reconciliation.ReconcileValid | routes/billRoutes.js:254-290 | the loop keeps record ids distinct and below the counter |
| Reconciliation.ReconcileOldUpdated | routes/billRoutes.js:264-273 | every record that existed before the loop is still in place, at most updated |
| Reconciliation.ReconcileNewFromBatch | routes/billRoutes.js:274-289 | every record the loop adds belongs to the caller, comes from this bill and has a fresh id |
| Reconciliation.ReconcileKeepsUnique | routes/billRoutes.js:254-290 | a run never leaves two records of the pharmacy whose names are equal ignoring case |
| Reconciliation.ReconcileCovers | routes/billRoutes.js:254-290 | after the loop every named item has a record of the pharmacy with that name |
| Reconciliation.KnownItemsCreateNothing | routes/billRoutes.js:264-273 | when every item already has a record, the loop creates none |
| Reconciliation.RerunCreatesNothing | routes/billRoutes.js:254-290 | running the same items again for the same pharmacy creates no record |
| Reconciliation.ProvenanceSurvivesRerun | routes/billRoutes.js:264-273 | records a bill created keep that bill as their source through later uploads |
| Reconciliation.CreatedCarryBill | routes/billRoutes.js:285 | every record a run creates names this bill as its source |
| Reconciliation.ReconcileIdCount | routes/billRoutes.js:254-290 | the loop collects exactly one id per named item |
| Reconciliation.ReconcileCounterGrows | routes/billRoutes.js:254-290 | the id counter never goes back |
| Reconciliation.StepIdsResolve | routes/billRoutes.js:256-289 | one item keeps every collected id naming a record of the caller, its own id included |
| Reconciliation.ReconcileIdsResolve | routes/billRoutes.js:273-288 | every collected id names a record of the caller |
| Reconciliation.WithoutBill | routes/billRoutes.js:319 | no remaining record has the deleted bill as its source |
| Reconciliation.WithoutBillMembers | routes/billRoutes.js:319 | a record remains exactly when it was there and came from another bill or none |
| Reconciliation.DeleteRemovesCreatedOnly | routes/billRoutes.js:319 | deleting a bill's records after its run leaves exactly the records that existed before the run, updated ones included |
| BillRoutes.ChosenItems | routes/billRoutes.js:236-240 | the AI list when the key is set and the list is not null, the fallback parser's items otherwise |
| BillRoutes.EmptyAiListCounts | routes/billRoutes.js:240 | an empty AI array is used as is; the fallback parser does not run |
| BillRoutes.NoKeyMeansFallback | routes/billRoutes.js:237-240 | without a key the fallback parser's items are used |
| BillRoutes.ProcessingBillCreated | routes/billRoutes.js:226-233 | the bill the handler creates is valid for the schema and starts in "Processing" with no medicines |
| BillRoutes.ChooseItems | routes/billRoutes.js:236-240 | the method selects the items as specified |
| BillRoutes.Processed | routes/billRoutes.js:254-290 | the items the loop got through: all of them, or those before the one whose write threw |
| BillRoutes.LoopRun | routes/billRoutes.js:226-290 | the item loop of an upload: the new bill takes the id counter, the loop starts on the records with the next id (properties in the LoopRun lemmas below) |
| BillRoutes.LoopRunValid | routes/billRoutes.js:254-290 | the loop keeps the store valid and hands out ids past the bill's |
| BillRoutes.LoopRunCount | routes/billRoutes.js:254-290 | the loop collects one id per named item it got through |
| BillRoutes.LoopRunIds | routes/billRoutes.js:273-288 | every id the loop collects names a record of the caller |
| BillRoutes.LoopRunKeeps | routes/billRoutes.js:254-290 | older records stay in place, at most updated; every new record comes from the new bill |
| BillRoutes.UploadEvents | routes/billRoutes.js:242-296 | the socket events an upload emits (properties in `UploadNotifies`) |
| BillRoutes.UploadNotifies | routes/billRoutes.js:242-296 | no event without a socket server; otherwise "bill-processed" first, and "medicines-updated" exactly for the empty-list upload |
| BillRoutes.AfterGate | routes/billRoutes.js:226-299 | the upload after the gate given its loop outcome: 200 with no items, 500 leaving the bill "Processing" when a write throws, 201 with the completed bill otherwise (properties in the Upload lemmas below, events and records in `UploadAnswersStoredBill`) |
| BillRoutes.Accepted | routes/billRoutes.js:226-299 | the answer is 200, 201 or 500; 200 exactly for an empty list; no bill exactly on 500; the new bill is stored under the counter's id and owned by the caller |
| BillRoutes.UploadPreservesValid | routes/billRoutes.js:226-299 | an upload keeps ids unique, below the counter and consistent with the bill keys |
| BillRoutes.UploadKeepsBills | routes/billRoutes.js:226-233 | an upload adds exactly one bill, owned by the caller, and leaves the other bills alone |
| BillRoutes.UploadAnswersStoredBill | routes/billRoutes.js:242-305 | 200 with no items, 201 with items, 500 when a write throws; on 500 the bill stays "Processing" and no event is sent; otherwise the stored bill is "Completed" and lists the collected ids; with a socket server a 200 appends "bill-processed" then "medicines-updated" and keeps the records, a 201 appends only "bill-processed" and stores the loop's records |
| BillRoutes.CompletedBillListsItems | routes/billRoutes.js:292-299 | a completed bill lists one medicine id per named item, each naming one of the caller's records |
| BillRoutes.AfterDelete | routes/billRoutes.js:310-340 | 404 exactly for a missing bill; 500 exactly for an existing bill and no caller; 403 exactly for another pharmacy's bill; these leave everything unchanged; on 200 only that bill leaves the bill table, the counter stays, the records are those without that bill as source (which records survive: `WithoutBillMembers`), and with a socket server "bill-deleted" then "medicines-updated" are appended |
| BillRoutes.DeleteKeepsValid | routes/billRoutes.js:310-335 | a delete succeeds exactly for an existing bill of the caller; otherwise nothing changes; on success no bill or record refers to it |
| BillRoutes.DeleteUndoesUpload | routes/billRoutes.js:310-335 | deleting a bill just uploaded restores the bill table and the record count; records it updated survive, at most updated |
| BillRoutes.RunItems | routes/billRoutes.js:254-290 | the item loop reports a fault exactly when one occurs and computes the specified outcome |
| BillRoutes.ApplyItem | routes/billRoutes.js:256-289 | one iteration of the loop computes the specified step |
| BillRoutes.HandleAfterGate | routes/billRoutes.js:226-299 | the post-gate part of the upload computes the specified reply and tables |
| BillRoutes.BillService.constructor | routes/billRoutes.js:191-307 | an empty store with no events and no removed files |
| BillRoutes.BillService.ProcessBill | routes/billRoutes.js:226-299 | the fields become the specified tables and the reply is the specified one |
| BillRoutes.BillService.ReviewBill | routes/billRoutes.js:208-299 | a bill whose detected name disagrees with the caller's only removes its file and answers 400; otherwise the specified upload with the chosen items |
| BillRoutes.BillService.UploadBill | routes/billRoutes.js:191-307 | 400 without a file, 401 without a caller, 500 when OCR fails; a rejected bill only removes its file; otherwise the specified upload |
| BillRoutes.BillService.DeleteBill | routes/billRoutes.js:310-340 | the specified delete, and the bill's file is removed exactly when the delete succeeds and the bill has a file name |
| Accounts.CreateUser | models/User.js:5-22 | creation succeeds exactly when the name is non-empty and no unique index clashes; role defaults to "patient" |
| Accounts.FindFirst | controllers/authController.js:18 | the first user with the key value, and none exactly when nobody has it |
| Accounts.MockCode | controllers/authController.js:106 | the code has six decimal digits and its value is 100000 plus the draw |
| Accounts.MockCodeInjective | controllers/authController.js:106 | different draws give different codes |
| Accounts.IssueOtp | controllers/authController.js:106-112 | the phone's entry becomes the code with expiry now + 300000 ms; other entries and the users are unchanged |
| Accounts.PhoneUser | controllers/authController.js:162 | the new user has that phone and full name "User <phone>", and no email, password or Google id |
| Accounts.PhoneUserCreated | controllers/authController.js:162 | a phone nobody has can always be given to a new "User <phone>" |
| Accounts.CheckOtp | controllers/authController.js:156-164 | 400 without an entry, then 400 when expired, then 401 on a wrong code, with nothing changed; 200 exactly otherwise, and then the entry is removed and the users, the id counter and the returned user are those of the find-or-create login (`LoginByPhone`: a new "User <phone>" under the next id when nobody has the phone) |
| Accounts.LoginByPhone | controllers/authController.js:161-162 | an existing user with the phone is returned unchanged; otherwise "User <phone>" is appended with the next id |
| Accounts.IssuedCodeVerifies | controllers/authController.js:106-164 | a code sent at t verifies at any time up to and including t + 300000 ms |
| Accounts.ExpiredCodeRefused | controllers/authController.js:158 | after the expiry the same code is refused with 400 and the entry stays |
| Accounts.LatestCodeWins | controllers/authController.js:108-112 | a second send replaces the code, so the first code gives 401 |
| Accounts.CodeIsSingleUse | controllers/authController.js:164 | after a successful check any further check for the phone gives 400 |
| Accounts.KnownPhoneReusesUser | controllers/authController.js:161-162 | a phone that belongs to a user logs that user in and creates nobody |
| Accounts.AppendKeepsValid | models/User.js:7-14 | appending a named user with fresh key values keeps ids increasing and the three unique indexes |
| Accounts.CheckOtpKeepsValid | controllers/authController.js:156-164 | checking a code keeps the user collection valid |
| Accounts.Register | controllers/authController.js:18-21 | 400 when the email is taken, 500 when creation throws, 201 exactly otherwise; on 201 the new user is the one `CreateUser` makes from the fields under the next id (every field fixed by its contract), it is appended, and the counter goes up by one |
| Accounts.SendOtpRequest | controllers/authController.js:86-112 | 400 without a phone; otherwise 200 and the code is issued |
| Accounts.VerifyOtpRequest | controllers/authController.js:127-164 | 400 without phone or code, otherwise the ordered checks; only 200, 400 or 401, and a refusal changes nothing |
| Accounts.SendThenVerify | controllers/authController.js:106-164 | a sent code verifies before expiry, and a second use of it gives 400 |
| Accounts.RegisterKeepsValid | controllers/authController.js:18-21 | registration keeps the user collection valid |
| Accounts.GoogleSignIn | controllers/authController.js:63-69 | 200 with a user whose email is the payload's, or 500 with nothing changed; a stored Google id is never overwritten; a known email creates nobody (the create and link paths in detail: `GoogleCreatesUnknown`, `GoogleLinkFailsOnClash`) |
| Accounts.GoogleCreatesUnknown | controllers/authController.js:63-65 | for an unknown email, 200 exactly when the token has a name and nobody holds its Google id; then the new user with that name, email and Google id is appended under the next id |
| Accounts.GoogleLinkFailsOnClash | controllers/authController.js:66-69 | for a known user without a Google id, 500 exactly when another user holds the token's Google id; otherwise only that user gets the Google id |
| Accounts.GoogleLinksOnlyOnce | controllers/authController.js:63-69 | the user with the email is returned; the Google id is set only when none was stored |
| Accounts.GoogleSignInKeepsValid | controllers/authController.js:63-69 | sign-in keeps ids and the unique indexes |
| Accounts.AccountStore.constructor | models/User.js:5-22 | an empty user collection and OTP table |
| Accounts.AccountStore.IssueMockCode | controllers/authController.js:106-112 | the OTP table is upserted as specified |
| Accounts.AccountStore.CheckMockCode | controllers/authController.js:156-164 | the specified check, applied to the fields |
| Accounts.AccountStore.RegisterUser | controllers/authController.js:18-21 | the specified registration, applied to the fields |
| Accounts.AccountStore.SignInWithGoogle | controllers/authController.js:63-69 | the specified sign-in, applied to the fields |
| AuthController.RegisterRequest | controllers/authController.js:11-31 | 400 when name, email or password is missing or the email is taken; 500 when the phone is taken; 201 exactly when the phone is also free, with a "patient" user of that name and email; past the field check the shared registration runs with name, email, password and phone, so the stored record is `Register`'s |
| AuthController.DuplicateEmailRefused | controllers/authController.js:18-19 | an existing email gives 400 and creates no second user |
| AuthController.GoogleRequest | controllers/authController.js:53-80 | a token that fails verification gives 500; otherwise Google sign-in |
| AuthController.RegisterUser | controllers/authController.js:11-31 | the store changes as the register request specifies |
| AuthController.GoogleSignInUser | controllers/authController.js:53-80 | the store changes as Google sign-in specifies |
| AuthController.SendOtpUser | controllers/authController.js:83-120 | the store changes as sending a code specifies |
| AuthController.VerifyOtpUser | controllers/authController.js:124-174 | the store changes as verifying a code specifies |
| UserController.RegisterRequest | controllers/userController.js:12-42 | 400 without email or password or when the email is already taken; a new email without a name gives 500; 201 exactly for a new email with a name and a free phone, and then the user is appended keeping email, role (default "patient"), language and village; past the field check the shared registration runs |
| UserController.NamelessRegistration | controllers/userController.js:16-31 | the same nameless body gets 500 here and 400 from the mounted controller |
| UserController.GoogleRequest | controllers/userController.js:65-98 | 400 without an id token, 500 when it fails verification, otherwise Google sign-in |
| UserController.RegisterUser | controllers/userController.js:12-42 | the store changes as the register request specifies |
| UserController.GoogleSignInHandler | controllers/userController.js:65-98 | the store changes as Google sign-in specifies |
| UserController.SendOtp | controllers/userController.js:101-126 | the store changes as sending a code specifies |
| UserController.VerifyOtp | controllers/userController.js:129-164 | the store changes as verifying a code specifies |
| Clinic.CreateDoctor | models/Doctor.js:5-14 | creation needs a non-empty name and a free email; every field is the given one, experience defaults to 0, no Google id, both timestamps are now |
| Clinic.ConsultationAt | routes/consultationRoutes.js:96 | the first consultation with the id, and none exactly when there is none |
| Clinic.ReplaceKeepsValid | routes/doctorAuth.js:160 | saving a consultation in place keeps the store valid |
| Clinic.AppendConsultationKeepsValid | routes/consultationRoutes.js:20-27 | a consultation with the next id keeps the store valid |
| Clinic.AppendDoctorKeepsValid | routes/doctorAuth.js:41-49 | a doctor with the next id and a free email keeps emails unique |
| Clinic.ClinicStore.constructor | models/Consultation.js:3-42 | no doctors and no consultations |
| DoctorAuth.Register | routes/doctorAuth.js:22-61 | 400 with nothing created when the email belongs to a doctor; 500 exactly for a free email without a name; 201 exactly otherwise, with the doctor `CreateDoctor` makes from the body under the next id appended |
| DoctorAuth.RegisterKeepsValid | routes/doctorAuth.js:35-49 | registration keeps doctor emails unique |
| DoctorAuth.PatientName | routes/doctorAuth.js:126 | the name of the user with the patient's id, and none when there is no such user |
| DoctorAuth.Project | routes/doctorAuth.js:124-130 | one view per consultation, same order, with its id, patient name, symptoms, status and creation time; fails when a patient is missing |
| DoctorAuth.Requests | routes/doctorAuth.js:119-137 | 200 with the projection of the doctor's consultations, or 500; the store is unchanged |
| DoctorAuth.ListedAreTheDoctors | routes/doctorAuth.js:122 | every listed request is one of the doctor's consultations |
| DoctorAuth.DoctorsAreListed | routes/doctorAuth.js:122 | every consultation of the doctor is listed |
| DoctorAuth.RequestsKeepOrder | routes/doctorAuth.js:122 | the listing keeps the stored order |
| DoctorAuth.Transition | routes/doctorAuth.js:151-159 | accept sets "accepted" and gives a room only when there is none; decline sets "declined" and keeps the room; any other action changes nothing |
| DoctorAuth.ReacceptKeepsRoom | routes/doctorAuth.js:154-156 | accepting again keeps the first room id |
| DoctorAuth.AnyStatusCanBeAccepted | routes/doctorAuth.js:151-152 | declined and completed consultations can still be accepted |
| DoctorAuth.FindRequest | routes/doctorAuth.js:144-147 | a consultation matching both id and doctor, and none exactly when no such consultation exists |
| DoctorAuth.Respond | routes/doctorAuth.js:141-168 | 404 with nothing changed exactly when no consultation has that id and doctor; otherwise 200 with the transition saved in place |
| DoctorAuth.OnlyOwnRequestsChange | routes/doctorAuth.js:144-150 | another doctor's consultation gives 404 and nothing changes |
| DoctorAuth.RespondKeepsValid | routes/doctorAuth.js:141-168 | responding keeps the store valid |
| DoctorAuth.RegisterDoctor | routes/doctorAuth.js:22-61 | the store changes as registration specifies |
| DoctorAuth.RespondToRequest | routes/doctorAuth.js:141-168 | the consultation's status and room are assigned as the transition specifies |
| ConsultationRoutes.Booking | routes/consultationRoutes.js:20-27 | the fields ask for the caller as patient and the given doctor, a status that parses as pending, an empty message list that always validates, the given date and time and no room |
| ConsultationRoutes.Book | routes/consultationRoutes.js:14-34 | 404 with nothing created without an existing doctor; otherwise 201 with a pending consultation of the caller, symptoms defaulting to "", no messages and no room |
| ConsultationRoutes.PatientConsultations | routes/consultationRoutes.js:37-48 | only the caller's consultations, in stored order |
| ConsultationRoutes.PatientSeesAllTheirs | routes/consultationRoutes.js:39 | every consultation of the caller is listed |
| ConsultationRoutes.RoomName | routes/consultationRoutes.js:103 | the generated room id starts with "room-" |
| ConsultationRoutes.RoomNamesDiffer | routes/consultationRoutes.js:103 | different consultations get different generated room ids |
| ConsultationRoutes.StartVideo | routes/consultationRoutes.js:94-111 | 404 exactly for an unknown id; 403 with nothing changed exactly for another doctor's consultation; otherwise the existing room or "room-<id>", stored and returned |
| ConsultationRoutes.StartVideoIdempotent | routes/consultationRoutes.js:103-106 | a second start returns the same room and changes nothing |
| ConsultationRoutes.AcceptedRoomIsUsed | routes/doctorAuth.js:154-156 | after accepting, starting the video returns the room assigned on acceptance |
| ConsultationRoutes.BookKeepsValid | routes/consultationRoutes.js:20-27 | booking keeps the store valid |
| ConsultationRoutes.StartVideoKeepsValid | routes/consultationRoutes.js:103-105 | starting a video keeps the store valid |
| ConsultationRoutes.BookConsultation | routes/consultationRoutes.js:14-34 | the store changes as booking specifies |
| ConsultationRoutes.StartVideoSession | routes/consultationRoutes.js:94-111 | the consultation's room is assigned as specified |

## Left out

- OCR (Tesseract) is not modelled. The upload takes the OCR text, or its failure, as a parameter.
- The OpenAI calls are not modelled. The model takes their reply text (or none) and whether the key is set as parameters.
- `JSON.parse` and `Array.isArray` are one function parameter. It maps a text to a list of items or to nothing; a throw counts as nothing.
- Multer storage and file names are not modelled. `fs.unlinkSync` is recorded in a ghost set of removed file names. An unlink failure on delete is ignored, as in the code.
- Socket.io `emit` is an append to an event log. Whether an `io` server is attached is a flag of the store.
- Password hashing (bcrypt) is not modelled; passwords are stored as given. Token signing (JWT) and login routes are not part of this model.
- Twilio branches are not modelled; only the mock provider is.
- Google token verification is a parameter: the verified payload, or none when verification throws.
- `Math.random` is a draw below 900000. `Date.now` is a time parameter. `uuidv4` is a parameter. Mongo ids are natural numbers from a counter.
- Case folding is ASCII only. Both `toLowerCase` and the `i` regex flag are modelled this way; non-ASCII letters keep their case.
- Concurrent requests are not modelled. Each handler runs alone.
- A request field that is not a string (a number where a code or name is expected) is not modelled. Body fields are optional strings.
- Item quantities from the AI path are `Option<int>`: any JavaScript number is assumed to be an integer. Prices are decimals. Dates are opaque text.
- One might expect quantity 10 from "Paracetamol 500mg x10 ₹20"; the code's greedy name group takes "x10" into the name, so the quantity is always 0. The model follows the code.
- Only writes inside the item loop can throw in the model (a fault index). Faults of `Bill.create` and `bill.save` are not modelled.
- BillRoutes.BillService.ProcessBill: the item loop runs on values (`RunItems`), and the class stores the result. The records are not updated in place one by one.
- `updatedAt` of users and consultations on `save` is not modelled. Medicine records get it through the update.
- TrimmedNonBlank: its own contract states count and shape only. Completeness is stated by `TrimmedNonBlankCovers` and order by `TrimmedNonBlankAppend`, because stating them on the function makes its own proof too expensive.
- NonBlankLines: its own contract states soundness and completeness only. The order of the kept lines is stated by `TrimmedNonBlankAppend`, to keep the function's own proof small.
- ParsedItems: its own contract states count and shape only. Completeness and order are stated by `ParsedItemsCovers`, `ParsedItemsAt` and `ParsedItemsAppend`, because stating them on the function makes its own proof too expensive.
- DoctorAuth.Register: the body's email is a string. A body without an email is not modelled.
- Accounts.GoogleSignIn: the payload email is a string. A payload without an email is not modelled.
- Doctor and patient fields populated into listings are not modelled. Listings return the stored consultations.
- ConsultationRoutes.RoomName: the room name renders the numeric id in decimal, where the code renders a Mongo ObjectId.
- `appointment_date` casting is not modelled. Dates are carried as given.
- Ids are natural numbers, so a malformed id, which makes Mongoose throw a cast error (500), is not modelled.

=== FILE: accounts.dfy ===
/**
 * The user collection and the mock one-time-password table behind the user
 * controllers (controllers/authController.js and its copy
 * controllers/userController.js). Both controllers share the lookups, the
 * user schema with its unique sparse indexes, the mock code issue, the code
 * check and the Google account linking; they differ only in how they
 * validate the request first, which their own modules model.
 */
module Accounts {
  import opened Wrappers
  import opened Values
  import opened JsText

  /** Five minutes, in milliseconds: how long a mock code stays valid. */
  const OtpLifetime: int := 5 * 60 * 1000

  /** A document of models/User.js. Password hashing is not modelled: `password` is what was given. */
  datatype User = User(
    id: Id,
    fullName: string,
    email: Option<string>,
    password: Option<string>,
    googleId: Option<string>,
    phone: Option<string>,
    role: string,
    preferredLanguage: Option<string>,
    village: Option<string>,
    medicalHistory: seq<string>,
    allergies: seq<string>)

  /** The object handed to `User.create`; `None` is a field left undefined. */
  datatype UserFields = UserFields(
    fullName: Option<string>,
    email: Option<string>,
    password: Option<string>,
    googleId: Option<string>,
    phone: Option<string>,
    role: Option<string>,
    preferredLanguage: Option<string>,
    village: Option<string>)

  /** The three fields with a unique sparse index. */
  datatype Key = Email | Phone | GoogleId

  function KeyOf(u: User, k: Key): Option<string> {
    match k
    case Email => u.email
    case Phone => u.phone
    case GoogleId => u.googleId
  }

  /** Some stored user has `v` under key `k`. */
  predicate Taken(users: seq<User>, k: Key, v: string) {
    exists j :: 0 <= j < |users| && KeyOf(users[j], k) == Some(v)
  }

  /** Some stored user other than the one at `i` has `v` under key `k`. */
  predicate TakenByOther(users: seq<User>, k: Key, v: string, i: nat) {
    exists j :: 0 <= j < |users| && j != i && KeyOf(users[j], k) == Some(v)
  }

  /** A unique sparse index holds: no value of key `k` is stored twice. */
  predicate UniqueKey(users: seq<User>, k: Key) {
    forall i, j :: 0 <= i < j < |users| && KeyOf(users[i], k).Some? ==> KeyOf(users[i], k) != KeyOf(users[j], k)
  }

  /** Inserting `f` would violate one of the unique indexes. */
  predicate Conflicts(users: seq<User>, f: UserFields) {
    || (f.email.Some? && Taken(users, Email, f.email.value))
    || (f.googleId.Some? && Taken(users, GoogleId, f.googleId.value))
    || (f.phone.Some? && Taken(users, Phone, f.phone.value))
  }

  /**
   * `User.create(fields)`: the required `full_name` must be a non-empty
   * string and no unique index may be violated; otherwise the call throws.
   * The role defaults to "patient", the two lists to empty.
   */
  function CreateUser(id: Id, f: UserFields, users: seq<User>): (r: Option<User>)
    ensures r.Some? <==> Truthy(f.fullName) && !Conflicts(users, f)
    ensures r.Some? ==>
      && r.value.id == id && r.value.fullName == f.fullName.value
      && r.value.email == f.email && r.value.password == f.password
      && r.value.googleId == f.googleId && r.value.phone == f.phone
      && (f.role.Some? ==> r.value.role == f.role.value)
      && (f.role.None? ==> r.value.role == "patient")
      && r.value.preferredLanguage == f.preferredLanguage && r.value.village == f.village
      && r.value.medicalHistory == [] && r.value.allergies == []
  {
    if !Truthy(f.fullName) || Conflicts(users, f) then None
    else Some(User(id, f.fullName.value, f.email, f.password, f.googleId, f.phone,
                   f.role.GetOr("patient"), f.preferredLanguage, f.village, [], []))
  }

  /** `User.findOne({ <k>: v })`: the first stored user with `v` under key `k`. */
  function FindFirst(users: seq<User>, k: Key, v: string): (r: Option<nat>)
    ensures r.None? <==> !Taken(users, k, v)
    ensures r.Some? ==> r.value < |users| && KeyOf(users[r.value], k) == Some(v)
    ensures r.Some? ==> forall j :: 0 <= j < r.value ==> KeyOf(users[j], k) != Some(v)
  {
    if users == [] then None
    else if KeyOf(users[0], k) == Some(v) then Some(0)
    else
      var rest := FindFirst(users[1..], k, v);
      if rest.None? then
        assert !Taken(users, k, v) by {
          forall j | 1 <= j < |users| ensures KeyOf(users[j], k) != Some(v) {
            assert users[j] == users[1..][j - 1];
          }
        }
        None
      else
        assert users[rest.value + 1] == users[1..][rest.value];
        assert forall j :: 1 <= j < rest.value + 1 ==> users[j] == users[1..][j - 1];
        Some(rest.value + 1)
  }

  /** An entry of the `Otp` collection, keyed by phone in `Accounts.otps`. */
  datatype OtpEntry = OtpEntry(code: string, expiresAt: Time)

  /** The user collection, the mock code table and the counter for fresh ids. */
  datatype Accounts = Accounts(users: seq<User>, otps: map<string, OtpEntry>, nextId: Id)

  /** The store as the schema keeps it: ids increase and are below the counter, the unique indexes hold, names are set. */
  predicate AccountsValid(a: Accounts) {
    && (forall i, j :: 0 <= i < j < |a.users| ==> a.users[i].id < a.users[j].id)
    && (forall i :: 0 <= i < |a.users| ==> a.users[i].id < a.nextId)
    && (forall i :: 0 <= i < |a.users| ==> a.users[i].fullName != "")
    && UniqueKey(a.users, Email) && UniqueKey(a.users, Phone) && UniqueKey(a.users, GoogleId)
  }

  /** A handler's effect: the new store, the HTTP status and the user in the reply. */
  datatype AccountsResult = AccountsResult(accounts: Accounts, status: nat, user: Option<User>)

  /** A failed request: the store is untouched and no user is returned. */
  function Refused(a: Accounts, status: nat): AccountsResult {
    AccountsResult(a, status, None)
  }

  /**
   * `Math.floor(100000 + Math.random() * 900000).toString()`, where `draw`
   * is `Math.floor(Math.random() * 900000)`: always six decimal digits.
   */
  function MockCode(draw: nat): (code: string)
    requires draw < 900000
    ensures |code| == 6 && AllDigits(code) && DigitsValue(code) == 100000 + draw
  {
    assert Pow10(5) == 100000 && Pow10(6) == 1000000 by {
      assert Pow10(1) == 10 && Pow10(2) == 100 && Pow10(3) == 1000 && Pow10(4) == 10000;
    }
    DecimalStringLength(100000 + draw, 5);
    DecimalStringRoundTrip(100000 + draw);
    DecimalString(100000 + draw)
  }

  /** Different draws give different codes. */
  lemma MockCodeInjective(d1: nat, d2: nat)
    requires d1 < 900000 && d2 < 900000 && d1 != d2
    ensures MockCode(d1) != MockCode(d2)
  {
  }

  /**
   * The mock branch of sending a code: `Otp.findOneAndUpdate({ phone },
   * { code, expiresAt }, { upsert: true })` with a fresh code valid for five
   * minutes. Any earlier code for the phone is replaced; nothing else changes.
   */
  function IssueOtp(a: Accounts, phone: string, draw: nat, now: Time): (r: Accounts)
    requires draw < 900000
    ensures r.users == a.users && r.nextId == a.nextId
    ensures phone in r.otps && r.otps[phone].code == MockCode(draw) && r.otps[phone].expiresAt == now + OtpLifetime
    ensures forall p :: p != phone ==> (p in r.otps <==> p in a.otps)
    ensures forall p :: p != phone && p in a.otps ==> r.otps[p] == a.otps[p]
  {
    a.(otps := a.otps[phone := OtpEntry(MockCode(draw), now + OtpLifetime)])
  }

  /** The user a successful phone login creates: `User.create({ full_name: `User ${phone}`, phone })`. */
  function PhoneUser(id: Id, phone: string): (r: UserFields)
    ensures r.phone == Some(phone) && r.fullName == Some("User " + phone)
    ensures r.email.None? && r.password.None? && r.googleId.None?
  {
    UserFields(Some("User " + phone), None, None, None, Some(phone), None, None, None)
  }

  /** A phone nobody has yet can always be given to a new user. */
  lemma PhoneUserCreated(id: Id, phone: string, users: seq<User>)
    requires !Taken(users, Phone, phone)
    ensures CreateUser(id, PhoneUser(id, phone), users).Some?
    ensures CreateUser(id, PhoneUser(id, phone), users).value.fullName == "User " + phone
  {
    assert ("User " + phone)[0] == 'U';
  }

  /**
   * The mock branch of checking a code, in the source's order: no entry for
   * the phone gives 400, an entry whose expiry lies strictly before `now`
   * gives 400, a different code gives 401; each leaves the store as it was.
   * Otherwise the user with that phone is found or created and the entry is
   * deleted.
   */
  function CheckOtp(a: Accounts, phone: string, code: string, now: Time): (r: AccountsResult)
    ensures phone !in a.otps ==> r == Refused(a, 400)
    ensures phone in a.otps && a.otps[phone].expiresAt < now ==> r == Refused(a, 400)
    ensures phone in a.otps && now <= a.otps[phone].expiresAt && a.otps[phone].code != code ==> r == Refused(a, 401)
    ensures r.status == 200 <==> phone in a.otps && now <= a.otps[phone].expiresAt && a.otps[phone].code == code
    ensures r.status == 200 ==> r.accounts.otps == a.otps - {phone}
    ensures r.status == 200 ==> r.user.Some? && r.user.value.phone == Some(phone)
    ensures r.status == 200 ==>
      var signedIn := LoginByPhone(a, phone);
      && r.user == signedIn.user
      && r.accounts.users == signedIn.accounts.users && r.accounts.nextId == signedIn.accounts.nextId
  {
    if phone !in a.otps then Refused(a, 400)
    else
      var entry := a.otps[phone];
      if entry.expiresAt < now then Refused(a, 400)
      else if entry.code != code then Refused(a, 401)
      else
        var signedIn := LoginByPhone(a, phone);
        AccountsResult(signedIn.accounts.(otps := a.otps - {phone}), 200, signedIn.user)
  }

  /** `User.findOne({ phone })`, and `User.create(...)` when there is none. */
  function LoginByPhone(a: Accounts, phone: string): (r: AccountsResult)
    ensures r.user.Some? && r.user.value.phone == Some(phone) && r.accounts.otps == a.otps
    ensures Taken(a.users, Phone, phone) ==> r.accounts == a && r.user.value in a.users
    ensures !Taken(a.users, Phone, phone) ==>
      && r.accounts.users == a.users + [r.user.value] && r.accounts.nextId == a.nextId + 1
      && r.user.value.id == a.nextId && r.user.value.fullName == "User " + phone
  {
    match FindFirst(a.users, Phone, phone)
    case Some(i) => AccountsResult(a, 200, Some(a.users[i]))
    case None =>
      PhoneUserCreated(a.nextId, phone, a.users);
      var u := CreateUser(a.nextId, PhoneUser(a.nextId, phone), a.users).value;
      AccountsResult(a.(users := a.users + [u], nextId := a.nextId + 1), 200, Some(u))
  }

  /** Round trip: a code just issued for a phone is accepted at any time up to and including its expiry. */
  lemma IssuedCodeVerifies(a: Accounts, phone: string, draw: nat, sentAt: Time, now: Time)
    requires draw < 900000 && now <= sentAt + OtpLifetime
    ensures CheckOtp(IssueOtp(a, phone, draw, sentAt), phone, MockCode(draw), now).status == 200
  {
  }

  /** After the expiry the same code is refused with 400 and the entry stays. */
  lemma ExpiredCodeRefused(a: Accounts, phone: string, draw: nat, sentAt: Time, now: Time)
    requires draw < 900000 && now > sentAt + OtpLifetime
    ensures var b := IssueOtp(a, phone, draw, sentAt);
      CheckOtp(b, phone, MockCode(draw), now) == Refused(b, 400)
  {
  }

  /** Issuing a second code for a phone makes the first one wrong (401). */
  lemma LatestCodeWins(a: Accounts, phone: string, first: nat, second: nat, t1: Time, t2: Time, now: Time)
    requires first < 900000 && second < 900000 && first != second && now <= t2 + OtpLifetime
    ensures CheckOtp(IssueOtp(IssueOtp(a, phone, first, t1), phone, second, t2), phone, MockCode(first), now).status == 401
  {
    MockCodeInjective(first, second);
  }

  /** A code works once: after a successful check, every further check for that phone finds no entry. */
  lemma CodeIsSingleUse(a: Accounts, phone: string, code: string, now: Time, code': string, later: Time)
    requires CheckOtp(a, phone, code, now).status == 200
    ensures var b := CheckOtp(a, phone, code, now).accounts;
      CheckOtp(b, phone, code', later) == Refused(b, 400)
  {
  }

  /** A phone that already belongs to a user signs that user in; no second user is created. */
  lemma KnownPhoneReusesUser(a: Accounts, phone: string, code: string, now: Time)
    requires AccountsValid(a)
    requires CheckOtp(a, phone, code, now).status == 200
    requires exists i :: 0 <= i < |a.users| && a.users[i].phone == Some(phone)
    ensures var r := CheckOtp(a, phone, code, now);
      r.accounts.users == a.users && r.user.value in a.users
  {
    var i :| 0 <= i < |a.users| && a.users[i].phone == Some(phone);
    assert KeyOf(a.users[i], Phone) == Some(phone);
  }

  /** Appending a user with a fresh id and no clashing key keeps the store valid. */
  lemma AppendKeepsValid(a: Accounts, u: User)
    requires AccountsValid(a) && u.id == a.nextId && u.fullName != ""
    requires u.email.Some? ==> !Taken(a.users, Email, u.email.value)
    requires u.phone.Some? ==> !Taken(a.users, Phone, u.phone.value)
    requires u.googleId.Some? ==> !Taken(a.users, GoogleId, u.googleId.value)
    ensures AccountsValid(a.(users := a.users + [u], nextId := a.nextId + 1))
  {
    var users := a.users + [u];
    forall k: Key ensures UniqueKey(users, k) {
      forall i, j | 0 <= i < j < |users| && KeyOf(users[i], k).Some?
        ensures KeyOf(users[i], k) != KeyOf(users[j], k)
      {
        if j == |a.users| {
          assert KeyOf(users[j], k) == KeyOf(u, k);
          assert users[i] == a.users[i];
          if KeyOf(u, k).Some? {
            assert !Taken(a.users, k, KeyOf(u, k).value);
          }
        } else {
          assert users[i] == a.users[i] && users[j] == a.users[j];
        }
      }
    }
  }

  /** A successful code check keeps the store valid. */
  lemma CheckOtpKeepsValid(a: Accounts, phone: string, code: string, now: Time)
    requires AccountsValid(a)
    ensures AccountsValid(CheckOtp(a, phone, code, now).accounts)
  {
    if phone in a.otps && now <= a.otps[phone].expiresAt && a.otps[phone].code == code && !Taken(a.users, Phone, phone) {
      var r := LoginByPhone(a, phone);
      AppendKeepsValid(a, r.user.value);
    }
  }

  /**
   * The registration steps both controllers share once the request passed
   * their own validation: a user with that email already gives 400; a user
   * the schema refuses (missing name, clashing phone) makes `create` throw,
   * which the handler answers with 500; otherwise the user is appended (201).
   */
  function Register(a: Accounts, f: UserFields): (r: AccountsResult)
    requires f.email.Some? && f.googleId.None?
    ensures Taken(a.users, Email, f.email.value) ==> r == Refused(a, 400)
    ensures !Taken(a.users, Email, f.email.value) && CreateUser(a.nextId, f, a.users).None? ==> r == Refused(a, 500)
    ensures r.status in {201, 400, 500}
    ensures r.status != 201 ==> r == Refused(a, r.status)
    ensures r.status == 201 <==> !Taken(a.users, Email, f.email.value) && Truthy(f.fullName)
                                 && !(f.phone.Some? && Taken(a.users, Phone, f.phone.value))
    ensures r.status == 201 ==> r.user.Some? && r.accounts.users == a.users + [r.user.value]
                                && r.user.value.email == f.email && r.accounts.otps == a.otps
    ensures r.status == 201 ==> Some(r.user.value) == CreateUser(a.nextId, f, a.users) && r.accounts.nextId == a.nextId + 1
  {
    if FindFirst(a.users, Email, f.email.value).Some? then Refused(a, 400)
    else match CreateUser(a.nextId, f, a.users)
      case None => Refused(a, 500)
      case Some(u) => AccountsResult(a.(users := a.users + [u], nextId := a.nextId + 1), 201, Some(u))
  }

  /**
   * A send-code request in mock mode: 400 without a phone, otherwise the
   * code is issued and the reply is 200.
   */
  function SendOtpRequest(a: Accounts, phone: Option<string>, draw: nat, now: Time): (r: AccountsResult)
    requires draw < 900000
    ensures !Truthy(phone) ==> r == Refused(a, 400)
    ensures Truthy(phone) ==> r.status == 200 && r.user.None? && r.accounts == IssueOtp(a, phone.value, draw, now)
  {
    if !Truthy(phone) then Refused(a, 400)
    else AccountsResult(IssueOtp(a, phone.value, draw, now), 200, None)
  }

  /** A verify-code request in mock mode: 400 when phone or code is missing, otherwise the code check. */
  function VerifyOtpRequest(a: Accounts, phone: Option<string>, code: Option<string>, now: Time): (r: AccountsResult)
    ensures !Truthy(phone) || !Truthy(code) ==> r == Refused(a, 400)
    ensures Truthy(phone) && Truthy(code) ==> r == CheckOtp(a, phone.value, code.value, now)
    ensures r.status in {200, 400, 401}
    ensures r.status != 200 ==> r == Refused(a, r.status)
  {
    if !Truthy(phone) || !Truthy(code) then Refused(a, 400)
    else CheckOtp(a, phone.value, code.value, now)
  }

  /** Round trip through the two requests: the code sent to a phone verifies until it expires, and only once. */
  lemma SendThenVerify(a: Accounts, phone: string, draw: nat, sentAt: Time, now: Time, later: Time)
    requires phone != "" && draw < 900000 && now <= sentAt + OtpLifetime
    ensures var sent := SendOtpRequest(a, Some(phone), draw, sentAt).accounts;
      var checked := VerifyOtpRequest(sent, Some(phone), Some(MockCode(draw)), now);
      && checked.status == 200
      && VerifyOtpRequest(checked.accounts, Some(phone), Some(MockCode(draw)), later).status == 400
  {
    IssuedCodeVerifies(a, phone, draw, sentAt, now);
    var sent := SendOtpRequest(a, Some(phone), draw, sentAt).accounts;
    CodeIsSingleUse(sent, phone, MockCode(draw), now, MockCode(draw), later);
  }

  /** Registration never stores a second user with the same email, nor breaks another index. */
  lemma RegisterKeepsValid(a: Accounts, f: UserFields)
    requires AccountsValid(a) && f.email.Some? && f.googleId.None?
    ensures AccountsValid(Register(a, f).accounts)
  {
    var r := Register(a, f);
    if r.status == 201 {
      AppendKeepsValid(a, r.user.value);
    }
  }

  /** What Google's verified id token says about the account. */
  datatype GooglePayload = GooglePayload(email: string, sub: string, name: Option<string>)

  /**
   * Google sign-in once the token is verified: an unknown email gets a new
   * user carrying the Google id; a known user without a Google id gets this
   * one linked; a known user with one is signed in as is, even when it
   * differs. A create or save that violates the schema throws (500).
   */
  function GoogleSignIn(a: Accounts, p: GooglePayload): (r: AccountsResult)
    ensures r.status in {200, 500}
    ensures r.status == 500 ==> r == Refused(a, 500)
    ensures r.status == 200 ==> r.user.Some? && r.user.value.email == Some(p.email) && r.user.value in r.accounts.users
    ensures r.accounts.otps == a.otps
    ensures |r.accounts.users| >= |a.users|
    ensures forall k :: 0 <= k < |a.users| && Truthy(a.users[k].googleId) ==> r.accounts.users[k] == a.users[k]
    ensures r.status == 200 && Taken(a.users, Email, p.email) ==> r.accounts.users[..|a.users|] == r.accounts.users
  {
    match FindFirst(a.users, Email, p.email)
    case None =>
      var f := UserFields(p.name, Some(p.email), None, Some(p.sub), None, None, None, None);
      (match CreateUser(a.nextId, f, a.users)
       case None => Refused(a, 500)
       case Some(u) => AccountsResult(a.(users := a.users + [u], nextId := a.nextId + 1), 200, Some(u)))
    case Some(i) =>
      var u := a.users[i];
      if Truthy(u.googleId) then AccountsResult(a, 200, Some(u))
      else if TakenByOther(a.users, GoogleId, p.sub, i) then Refused(a, 500)
      else
        var linked := u.(googleId := Some(p.sub));
        var users := a.users[i := linked];
        assert users[i] == linked;
        AccountsResult(a.(users := users), 200, Some(linked))
  }

  /**
   * An unknown email creates a user: it succeeds exactly when the token
   * carries a name and nobody holds its Google id yet, and then the new
   * user, carrying that name, email and Google id, is appended under the
   * next id.
   */
  lemma GoogleCreatesUnknown(a: Accounts, p: GooglePayload)
    requires !Taken(a.users, Email, p.email)
    ensures var r := GoogleSignIn(a, p);
      && (r.status == 200 <==> Truthy(p.name) && !Taken(a.users, GoogleId, p.sub))
      && (r.status == 200 ==>
            && r.accounts.users == a.users + [r.user.value] && r.accounts.nextId == a.nextId + 1
            && r.user.value.id == a.nextId && r.user.value.googleId == Some(p.sub)
            && Some(r.user.value.fullName) == p.name && r.user.value.email == Some(p.email))
  {
    var f := UserFields(p.name, Some(p.email), None, Some(p.sub), None, None, None, None);
    assert FindFirst(a.users, Email, p.email).None?;
    assert Conflicts(a.users, f) <==> Taken(a.users, GoogleId, p.sub);
  }

  /**
   * A known user without a Google id gets it linked; the save throws (500)
   * exactly when another user already holds that Google id.
   */
  lemma GoogleLinkFailsOnClash(a: Accounts, p: GooglePayload, i: nat)
    requires FindFirst(a.users, Email, p.email) == Some(i) && !Truthy(a.users[i].googleId)
    ensures var r := GoogleSignIn(a, p);
      && (r.status == 500 <==> TakenByOther(a.users, GoogleId, p.sub, i))
      && (r.status == 200 ==> r.accounts.users == a.users[i := a.users[i].(googleId := Some(p.sub))]
                              && r.accounts.nextId == a.nextId)
  {
  }

  /** A stored Google id is never replaced; a missing one is set to the token's. */
  lemma GoogleLinksOnlyOnce(a: Accounts, p: GooglePayload, i: nat)
    requires AccountsValid(a) && i < |a.users| && a.users[i].email == Some(p.email)
    requires GoogleSignIn(a, p).status == 200
    ensures var r := GoogleSignIn(a, p);
      && r.user == Some(r.accounts.users[i])
      && (Truthy(a.users[i].googleId) ==> r.accounts == a)
      && (!Truthy(a.users[i].googleId) ==> r.accounts.users[i] == a.users[i].(googleId := Some(p.sub)))
  {
    assert KeyOf(a.users[i], Email) == Some(p.email);
  }

  /** Changing users without touching key `k` keeps that index unique. */
  lemma SameKeysUnique(users: seq<User>, users': seq<User>, k: Key)
    requires |users| == |users'| && UniqueKey(users, k)
    requires forall j :: 0 <= j < |users| ==> KeyOf(users'[j], k) == KeyOf(users[j], k)
    ensures UniqueKey(users', k)
  {
    forall x, y | 0 <= x < y < |users'| && KeyOf(users'[x], k).Some?
      ensures KeyOf(users'[x], k) != KeyOf(users'[y], k)
    {
      assert KeyOf(users[x], k) != KeyOf(users[y], k);
    }
  }

  /** Linking a Google id nobody else has keeps the Google id index unique. */
  lemma LinkKeepsUnique(users: seq<User>, i: nat, g: string)
    requires i < |users| && UniqueKey(users, GoogleId) && !TakenByOther(users, GoogleId, g, i)
    ensures UniqueKey(users[i := users[i].(googleId := Some(g))], GoogleId)
  {
    var users' := users[i := users[i].(googleId := Some(g))];
    forall x, y | 0 <= x < y < |users'| && KeyOf(users'[x], GoogleId).Some?
      ensures KeyOf(users'[x], GoogleId) != KeyOf(users'[y], GoogleId)
    {
      if x == i {
        assert KeyOf(users[y], GoogleId) == KeyOf(users'[y], GoogleId);
      } else if y == i {
        assert KeyOf(users[x], GoogleId) == KeyOf(users'[x], GoogleId);
      } else {
        assert KeyOf(users[x], GoogleId) != KeyOf(users[y], GoogleId);
      }
    }
  }

  /** Google sign-in keeps the store valid. */
  lemma GoogleSignInKeepsValid(a: Accounts, p: GooglePayload)
    requires AccountsValid(a)
    ensures AccountsValid(GoogleSignIn(a, p).accounts)
  {
    var r := GoogleSignIn(a, p);
    match FindFirst(a.users, Email, p.email)
    case None =>
      if r.status == 200 {
        GoogleCreatesUnknown(a, p);
        AppendKeepsValid(a, r.user.value);
      }
    case Some(i) =>
      if !Truthy(a.users[i].googleId) && !TakenByOther(a.users, GoogleId, p.sub, i) {
        assert r.accounts == a.(users := a.users[i := a.users[i].(googleId := Some(p.sub))]);
        LinkKeepsValid(a, i, p.sub);
      }
  }

  /** Setting the Google id of user `i` to one nobody else holds keeps the store valid. */
  lemma LinkKeepsValid(a: Accounts, i: nat, g: string)
    requires AccountsValid(a) && i < |a.users| && !TakenByOther(a.users, GoogleId, g, i)
    ensures AccountsValid(a.(users := a.users[i := a.users[i].(googleId := Some(g))]))
  {
    var users := a.users[i := a.users[i].(googleId := Some(g))];
    LinkKeepsUnique(a.users, i, g);
    SameKeysUnique(a.users, users, Email);
    SameKeysUnique(a.users, users, Phone);
  }

  /**
   * The user collection and the mock code table as one object. Each method
   * changes the fields the way the function of the same step says.
   */
  class AccountStore {
    var users: seq<User>
    var otps: map<string, OtpEntry>
    var nextId: Id

    function State(): Accounts
      reads this
    {
      Accounts(users, otps, nextId)
    }

    predicate Valid()
      reads this
    {
      AccountsValid(State())
    }

    constructor()
      ensures Valid() && State() == Accounts([], map[], 0)
    {
      users := [];
      otps := map[];
      nextId := 0;
    }

    /** The upsert of a fresh mock code for `phone`. */
    method IssueMockCode(phone: string, draw: nat, now: Time)
      requires Valid() && draw < 900000
      modifies this`otps
      ensures Valid() && State() == IssueOtp(old(State()), phone, draw, now)
    {
      otps := otps[phone := OtpEntry(MockCode(draw), now + OtpLifetime)];
    }

    /** The mock code check: lookup, expiry, comparison, find-or-create, delete. */
    method CheckMockCode(phone: string, code: string, now: Time) returns (status: nat, user: Option<User>)
      requires Valid()
      modifies this
      ensures Valid() && AccountsResult(State(), status, user) == CheckOtp(old(State()), phone, code, now)
    {
      CheckOtpKeepsValid(State(), phone, code, now);
      if phone !in otps {
        return 400, None;
      }
      var entry := otps[phone];
      if entry.expiresAt < now {
        return 400, None;
      }
      if entry.code != code {
        return 401, None;
      }
      var found := FindFirst(users, Phone, phone);
      var u: User;
      if found.Some? {
        u := users[found.value];
      } else {
        PhoneUserCreated(nextId, phone, users);
        u := CreateUser(nextId, PhoneUser(nextId, phone), users).value;
        users := users + [u];
        nextId := nextId + 1;
      }
      otps := otps - {phone};
      status, user := 200, Some(u);
    }

    /** The duplicate-email check and `User.create` of a registration. */
    method RegisterUser(f: UserFields) returns (status: nat, user: Option<User>)
      requires Valid() && f.email.Some? && f.googleId.None?
      modifies this
      ensures Valid() && AccountsResult(State(), status, user) == Register(old(State()), f)
    {
      RegisterKeepsValid(State(), f);
      if FindFirst(users, Email, f.email.value).Some? {
        return 400, None;
      }
      var created := CreateUser(nextId, f, users);
      if created.None? {
        return 500, None;
      }
      users := users + [created.value];
      nextId := nextId + 1;
      status, user := 201, created;
    }

    /** Find by email, then create, link or leave the user. */
    method SignInWithGoogle(p: GooglePayload) returns (status: nat, user: Option<User>)
      requires Valid()
      modifies this
      ensures Valid() && AccountsResult(State(), status, user) == GoogleSignIn(old(State()), p)
    {
      GoogleSignInKeepsValid(State(), p);
      var found := FindFirst(users, Email, p.email);
      if found.None? {
        var created := CreateUser(nextId, UserFields(p.name, Some(p.email), None, Some(p.sub), None, None, None, None), users);
        if created.None? {
          return 500, None;
        }
        users := users + [created.value];
        nextId := nextId + 1;
        return 200, created;
      }
      var i := found.value;
      var u := users[i];
      if Truthy(u.googleId) {
        return 200, Some(u);
      }
      if TakenByOther(users, GoogleId, p.sub, i) {
        return 500, None;
      }
      u := u.(googleId := Some(p.sub));
      users := users[i := u];
      status, user := 200, Some(u);
    }
  }
}

=== FILE: ai_output.dfy ===
/**
 * The part of `parseMedicinesWithOpenAI` that does not talk to the model:
 * the reply is trimmed, cut from its first `[` through its last `]`, and
 * handed to `JSON.parse`. The model's reply and `JSON.parse` are outside this
 * model; `JSON.parse` followed by `Array.isArray` is a parameter `parse`
 * returning `None` when it throws or yields something other than an array.
 */
module AiOutput {
  import opened Wrappers
  import opened JsText
  import opened Candidates

  /** Some `]` of `s` comes after some `[`. */
  predicate BracketPairExists(s: string) {
    exists i, j :: 0 <= i < j < |s| && s[i] == '[' && s[j] == ']'
  }

  /**
   * The text given to `JSON.parse`: from the first `[` through the last `]`
   * when the reply has both, `""` when that `]` comes before that `[`
   * (`slice` with an end before its start), the whole reply otherwise.
   */
  function SliceJson(output: string): (r: string)
    ensures '[' !in output || ']' !in output ==> r == output
    ensures '[' in output && ']' in output ==> (r == [] <==> !BracketPairExists(output))
    ensures '[' in output && ']' in output && r != [] ==> r[0] == '[' && r[|r| - 1] == ']' && |r| <= |output|
  {
    var first := IndexOfChar(output, '[');
    var last := LastIndexOfChar(output, ']');
    if first.None? || last.None? then output
    else
      var f, l := first.value, last.value;
      if l < f then
        assert !BracketPairExists(output) by {
          forall i, j | 0 <= i < j < |output| && output[i] == '[' ensures output[j] != ']' {
            if j > l {
              assert output[l + 1..][j - l - 1] == output[j];
            }
          }
        }
        ""
      else
        assert BracketPairExists(output) by {
          assert output[f] == '[' && output[l] == ']' && f != l;
        }
        output[f..l + 1]
  }

  lemma FirstOpenAfter(pre: string, rest: string)
    requires rest != [] && rest[0] == '[' && '[' !in pre
    ensures IndexOfChar(pre + rest, '[') == Some(|pre|)
  {
    var s := pre + rest;
    assert s[|pre|] == '[';
    assert forall i :: 0 <= i < |pre| ==> s[i] == pre[i];
  }

  lemma LastCloseBefore(rest: string, post: string)
    requires rest != [] && rest[|rest| - 1] == ']' && ']' !in post
    ensures LastIndexOfChar(rest + post, ']') == Some(|rest| - 1)
  {
    var s := rest + post;
    var l := |rest| - 1;
    assert s[l] == ']';
    assert forall i :: l < i < |s| ==> s[i] == post[i - l - 1];
  }

  /** Chatter around a JSON array is cut away: a reply made of text without `[`, the array, and text without `]` yields the array. */
  lemma SliceStripsChatter(pre: string, payload: string, post: string)
    requires payload != [] && payload[0] == '[' && payload[|payload| - 1] == ']'
    requires '[' !in pre && ']' !in post
    ensures SliceJson(pre + payload + post) == payload
  {
    var s := pre + payload + post;
    assert s == pre + (payload + post) && s == (pre + payload) + post;
    FirstOpenAfter(pre, payload + post);
    LastCloseBefore(pre + payload, post);
    assert s[|pre|..|pre| + |payload|] == payload;
  }

  /** Conversely, a non-empty slice is the reply with a `[`-free head and a `]`-free tail cut away. */
  lemma SliceIsWidest(output: string)
    requires '[' in output && ']' in output && SliceJson(output) != []
    ensures exists f :: (0 <= f <= |output| - |SliceJson(output)|
      && output[..f] + SliceJson(output) + output[f + |SliceJson(output)|..] == output
      && '[' !in output[..f] && ']' !in output[f + |SliceJson(output)|..])
  {
    var f := IndexOfChar(output, '[').value;
    var l := LastIndexOfChar(output, ']').value;
    var r := SliceJson(output);
    assert r == output[f..l + 1] && f + |r| == l + 1;
    ThreeParts(output, f, l + 1);
    assert 0 <= f <= |output| - |r| && output[..f] + r + output[f + |r|..] == output;
  }

  // A string is its head, its middle and its tail.
  lemma ThreeParts(s: string, i: nat, j: nat)
    requires i <= j <= |s|
    ensures s[..i] + s[i..j] + s[j..] == s
  {
  }

  /**
   * `parseMedicinesWithOpenAI(text)` after the model call: `content` is the
   * model's reply (`None` when there is none or the call threw). No key, no
   * reply or a blank reply give `null`; otherwise the sliced reply goes to
   * `parse`.
   */
  function ParseMedicinesWithAI(keySet: bool, content: Option<string>,
                                parse: string -> Option<seq<Candidate>>): (r: Option<seq<Candidate>>)
    ensures !keySet || content.None? || Trim(content.value) == "" ==> r.None?
    ensures keySet && content.Some? && Trim(content.value) != "" ==> r == parse(SliceJson(Trim(content.value)))
  {
    if !keySet || content.None? then None
    else
      var output := Trim(content.value);
      if output == "" then None else parse(SliceJson(output))
  }

  /** A reply whose trimmed text is an array wrapped in chatter is parsed as exactly that array. */
  lemma AiReadsWrappedArray(content: string, pre: string, payload: string, post: string,
                            parse: string -> Option<seq<Candidate>>)
    requires Trim(content) == pre + payload + post
    requires payload != [] && payload[0] == '[' && payload[|payload| - 1] == ']'
    requires '[' !in pre && ']' !in post
    ensures ParseMedicinesWithAI(true, Some(content), parse) == parse(payload)
  {
    SliceStripsChatter(pre, payload, post);
  }
}

=== FILE: auth_controller.dfy ===
/**
 * controllers/authController.js, the user controller the user routes mount:
 * registration, Google sign-in and the mock one-time-password pair, each as
 * the request's effect on the account store (a function) and as the handler
 * that changes an `AccountStore` (a method). Only the mock code provider is
 * modelled.
 */
module AuthController {
  import opened Wrappers
  import opened JsText
  import opened Values
  import opened Accounts

  /**
   * `registerUser`: 400 unless name, email and password are all non-empty;
   * then the duplicate-email check and `User.create` with those fields and
   * the phone, every other field left to its default.
   */
  function RegisterRequest(a: Accounts, fullName: Option<string>, email: Option<string>,
                           password: Option<string>, phone: Option<string>): (r: AccountsResult)
    ensures !Truthy(fullName) || !Truthy(email) || !Truthy(password) ==> r == Refused(a, 400)
    ensures r.status in {201, 400, 500}
    ensures r.status != 201 ==> r == Refused(a, r.status)
    ensures r.status == 201 <==>
      && Truthy(fullName) && Truthy(email) && Truthy(password)
      && !Taken(a.users, Email, email.value) && !(phone.Some? && Taken(a.users, Phone, phone.value))
    ensures r.status == 201 ==>
      && r.user.Some? && r.user.value.role == "patient"
      && r.user.value.fullName == fullName.value && r.user.value.email == email
    ensures (&& Truthy(fullName) && Truthy(email) && Truthy(password) && !Taken(a.users, Email, email.value)
             && phone.Some? && Taken(a.users, Phone, phone.value)) ==> r == Refused(a, 500)
    ensures Truthy(fullName) && Truthy(email) && Truthy(password) ==>
      r == Register(a, UserFields(fullName, email, password, None, phone, None, None, None))
  {
    if !Truthy(email) || !Truthy(password) || !Truthy(fullName) then Refused(a, 400)
    else Register(a, UserFields(fullName, email, password, None, phone, None, None, None))
  }

  /** No second user with an email already stored is ever registered: the request is refused with 400. */
  lemma DuplicateEmailRefused(a: Accounts, fullName: Option<string>, email: string,
                              password: Option<string>, phone: Option<string>)
    requires exists i :: 0 <= i < |a.users| && a.users[i].email == Some(email)
    ensures RegisterRequest(a, fullName, Some(email), password, phone) == Refused(a, 400)
  {
    var i :| 0 <= i < |a.users| && a.users[i].email == Some(email);
    assert KeyOf(a.users[i], Email) == Some(email);
  }

  /**
   * `googleSignInUser`: the token check is not modelled; `ticket` is its
   * payload, `None` when `verifyIdToken` throws (a missing token included),
   * which the handler answers with 500.
   */
  function GoogleRequest(a: Accounts, ticket: Option<GooglePayload>): (r: AccountsResult)
    ensures ticket.None? ==> r == Refused(a, 500)
    ensures ticket.Some? ==> r == GoogleSignIn(a, ticket.value)
  {
    if ticket.None? then Refused(a, 500) else GoogleSignIn(a, ticket.value)
  }

  method RegisterUser(store: AccountStore, fullName: Option<string>, email: Option<string>,
                      password: Option<string>, phone: Option<string>) returns (status: nat, user: Option<User>)
    requires store.Valid()
    modifies store
    ensures store.Valid()
    ensures AccountsResult(store.State(), status, user) == RegisterRequest(old(store.State()), fullName, email, password, phone)
  {
    if !Truthy(email) || !Truthy(password) || !Truthy(fullName) {
      return 400, None;
    }
    status, user := store.RegisterUser(UserFields(fullName, email, password, None, phone, None, None, None));
  }

  method GoogleSignInUser(store: AccountStore, ticket: Option<GooglePayload>) returns (status: nat, user: Option<User>)
    requires store.Valid()
    modifies store
    ensures store.Valid()
    ensures AccountsResult(store.State(), status, user) == GoogleRequest(old(store.State()), ticket)
  {
    if ticket.None? {
      return 500, None;
    }
    status, user := store.SignInWithGoogle(ticket.value);
  }

  /** `sendOtpUser` with the mock provider; `draw` stands for the random draw. */
  method SendOtpUser(store: AccountStore, phone: Option<string>, draw: nat, now: Time) returns (status: nat)
    requires store.Valid() && draw < 900000
    modifies store
    ensures store.Valid()
    ensures AccountsResult(store.State(), status, None) == SendOtpRequest(old(store.State()), phone, draw, now)
  {
    if !Truthy(phone) {
      return 400;
    }
    store.IssueMockCode(phone.value, draw, now);
    status := 200;
  }

  /** `verifyOtpUser` with the mock provider. */
  method VerifyOtpUser(store: AccountStore, phone: Option<string>, code: Option<string>, now: Time)
    returns (status: nat, user: Option<User>)
    requires store.Valid()
    modifies store
    ensures store.Valid()
    ensures AccountsResult(store.State(), status, user) == VerifyOtpRequest(old(store.State()), phone, code, now)
  {
    if !Truthy(phone) || !Truthy(code) {
      return 400, None;
    }
    status, user := store.CheckMockCode(phone.value, code.value, now);
  }
}

=== FILE: bill_model.dfy ===
/** The bill record of models/Bill.js: the required owner, the status enum and its default. */
module BillModel {
  import opened Wrappers
  import opened Values

  datatype BillStatus = Uploaded | Processing | Completed | Error

  /** The string Mongo stores for each status. */
  function StatusName(s: BillStatus): string {
    match s
    case Uploaded => "Uploaded"
    case Processing => "Processing"
    case Completed => "Completed"
    case Error => "Error"
  }

  /** The enum validator: a string is a status exactly when it is one of the four names. */
  function ParseBillStatus(s: string): (r: Option<BillStatus>)
    ensures r.Some? ==> StatusName(r.value) == s
    ensures r.None? ==> forall b: BillStatus :: StatusName(b) != s
  {
    if s == "Uploaded" then Some(Uploaded)
    else if s == "Processing" then Some(Processing)
    else if s == "Completed" then Some(Completed)
    else if s == "Error" then Some(Error)
    else None
  }

  lemma StatusNameRoundTrip(b: BillStatus)
    ensures ParseBillStatus(StatusName(b)) == Some(b)
  {
  }

  datatype Bill = Bill(
    id: Id,
    pharmacyId: Id,
    fileName: Option<string>,
    originalName: Option<string>,
    fileUrl: Option<string>,
    status: BillStatus,
    medicines: seq<Id>,    // ordered references to Medicine records, repeats allowed
    createdAt: Time,
    updatedAt: Time)

  /** The object handed to `Bill.create`; `None` is a field left undefined. */
  datatype BillFields = BillFields(
    pharmacyId: Option<Id>,
    fileName: Option<string>,
    originalName: Option<string>,
    fileUrl: Option<string>,
    status: Option<string>,
    medicines: seq<Id>)

  /**
   * `Bill.create(fields)`: fails (`None`) when the owning pharmacy is missing
   * or the status is not one of the enum's names; an omitted status is
   * `Uploaded`.
   */
  function CreateBill(id: Id, f: BillFields, now: Time): (r: Option<Bill>)
    ensures r.Some? <==> f.pharmacyId.Some? && (f.status.None? || ParseBillStatus(f.status.value).Some?)
    ensures r.Some? ==>
      && r.value.id == id && r.value.pharmacyId == f.pharmacyId.value
      && r.value.medicines == f.medicines
      && r.value.fileName == f.fileName && r.value.originalName == f.originalName
      && r.value.fileUrl == f.fileUrl
      && (f.status.None? ==> r.value.status == Uploaded)
      && (f.status.Some? ==> StatusName(r.value.status) == f.status.value)
      && r.value.createdAt == now && r.value.updatedAt == now
  {
    if f.pharmacyId.None? then None
    else
      var status := if f.status.None? then Some(Uploaded) else ParseBillStatus(f.status.value);
      if status.None? then None
      else Some(Bill(id, f.pharmacyId.value, f.fileName, f.originalName, f.fileUrl,
                     status.value, f.medicines, now, now))
  }
}

=== FILE: bill_routes.dfy ===
/**
 * The upload-bill and delete-bill handlers over an in-memory store: the
 * medicine collection, the bill collection, one counter for fresh ids, and
 * the log of socket events. OCR text, the model's replies and `JSON.parse`
 * come in as parameters; a store write that throws inside the item loop is
 * the parameter `faultAt`.
 */
module BillRoutes {
  import opened Wrappers
  import opened Values
  import opened JsText
  import opened Candidates
  import opened MedicineModel
  import opened BillModel
  import opened PharmacyDetection
  import opened FallbackParser
  import opened AiOutput
  import opened Reconciliation

  /** `req.file` as multer leaves it. */
  datatype UploadedFile = UploadedFile(filename: string, originalname: string)

  /** What `io.emit` sends. */
  datatype Event =
    | BillProcessed(bill: Bill, pharmacyId: Id)
    | MedicinesUpdated(pharmacyId: Id)
    | BillDeleted(billId: Id, pharmacyId: Id)

  /**
   * The list the loop runs over: the AI list when there is one (an empty
   * array counts, since `[]` is truthy), the fallback parser's otherwise.
   */
  function ChosenItems(keySet: bool, itemsReply: Option<string>,
                       parse: string -> Option<seq<Candidate>>, text: string): (r: seq<Candidate>)
    ensures ParseMedicinesWithAI(keySet, itemsReply, parse).Some? ==> r == ParseMedicinesWithAI(keySet, itemsReply, parse).value
    ensures ParseMedicinesWithAI(keySet, itemsReply, parse).None? ==> r == Dedup(ParsedItems(NonBlankLines(text)))
  {
    var ai := if keySet then ParseMedicinesWithAI(keySet, itemsReply, parse) else None;
    if ai.Some? then ai.value else Dedup(ParsedItems(NonBlankLines(text)))
  }

  /** An AI reply that parses to an empty array wins over the fallback parser: nothing is processed. */
  lemma EmptyAiListCounts(itemsReply: Option<string>, parse: string -> Option<seq<Candidate>>, text: string)
    requires ParseMedicinesWithAI(true, itemsReply, parse) == Some([])
    ensures ChosenItems(true, itemsReply, parse, text) == []
  {
  }

  /** Without an API key the fallback parser decides. */
  lemma NoKeyMeansFallback(itemsReply: Option<string>, parse: string -> Option<seq<Candidate>>, text: string)
    ensures ChosenItems(false, itemsReply, parse, text) == Dedup(ParsedItems(NonBlankLines(text)))
  {
  }

  /** The bill `Bill.create` stores once the upload passed the gate. */
  function ProcessingBill(id: Id, owner: Owner, file: UploadedFile, now: Time): Bill {
    Bill(id, owner.id, Some(file.filename), Some(file.originalname), Some("/uploads/" + file.filename),
         Processing, [], now, now)
  }

  /** That bill is what `Bill.create` makes of the handler's fields, with status "Processing". */
  lemma ProcessingBillCreated(id: Id, owner: Owner, file: UploadedFile, now: Time, status: string)
    requires status == "Processing"
    ensures CreateBill(id, BillFields(Some(owner.id), Some(file.filename), Some(file.originalname),
                                      Some("/uploads/" + file.filename), Some(status), []), now)
            == Some(ProcessingBill(id, owner, file, now))
  {
    assert ParseBillStatus(status) == Some(Processing);
  }

  /** Records whose `sourceBill` points at a bill: the bill ids are below the counter. */
  predicate SourcesBelow(meds: seq<Medicine>, bound: Id) {
    forall k :: 0 <= k < |meds| && meds[k].sourceBill.Some? ==> meds[k].sourceBill.value < bound
  }

  lemma ReconcileSourcesBelow(o: Outcome, b: Batch, items: seq<Candidate>)
    requires SourcesBelow(o.store.meds, o.store.nextId) && b.billId < o.store.nextId
    ensures SourcesBelow(Reconcile(o, b, items).store.meds, Reconcile(o, b, items).store.nextId)
  {
    ReconcileOldUpdated(o, b, items);
    ReconcileNewFromBatch(o, b, items);
    var r := Reconcile(o, b, items).store;
    forall k | 0 <= k < |r.meds| && r.meds[k].sourceBill.Some? ensures r.meds[k].sourceBill.value < r.nextId {
      if k < |o.store.meds| {
        assert UpdatedFrom(o.store.meds[k], r.meds[k]);
      } else {
        assert FromBatch(r.meds[k], b);
      }
    }
  }

  lemma {:induction false} WithoutBillValid(meds: seq<Medicine>, n: Id, billId: Id)
    requires ValidStore(Store(meds, n)) && SourcesBelow(meds, n)
    ensures ValidStore(Store(WithoutBill(meds, billId), n)) && SourcesBelow(WithoutBill(meds, billId), n)
  {
    if meds != [] {
      var init := meds[..|meds| - 1];
      var last := meds[|meds| - 1];
      assert forall k :: 0 <= k < |init| ==> init[k] == meds[k];
      WithoutBillValid(init, n, billId);
      WithoutBillMembers(init, billId);
      var rest := WithoutBill(init, billId);
      if last.sourceBill != Some(billId) {
        var r := rest + [last];
        forall j | 0 <= j < |rest| ensures rest[j].id != last.id {
          assert rest[j] in init;
          var i :| 0 <= i < |init| && init[i] == rest[j];
        }
        assert WithoutBill(meds, billId) == r;
      }
    }
  }

  /** The items of the bill: the model's list when it parsed, the fallback parser's otherwise. */
  method ChooseItems(keySet: bool, itemsReply: Option<string>,
                     parse: string -> Option<seq<Candidate>>, text: string) returns (items: seq<Candidate>)
    ensures items == ChosenItems(keySet, itemsReply, parse, text)
  {
    var ai: Option<seq<Candidate>> := None;
    if keySet {
      ai := ParseMedicinesWithAI(keySet, itemsReply, parse);
    }
    if ai.Some? {
      items := ai.value;
    } else {
      items := FallbackParseMedicines(text);
    }
  }

  /** A store write throws inside the item loop. */
  predicate Faults(items: seq<Candidate>, faultAt: Option<nat>) {
    faultAt.Some? && faultAt.value < |items|
  }

  /** The items the loop got through: all of them, or those before the one whose write threw. */
  function Processed(items: seq<Candidate>, faultAt: Option<nat>): (done: seq<Candidate>)
    ensures Faults(items, faultAt) ==> |done| == faultAt.value < |items| && done == items[..faultAt.value]
    ensures !Faults(items, faultAt) ==> done == items
  {
    if Faults(items, faultAt) then items[..faultAt.value] else items
  }

  /** The collections the handlers read and write, and the socket events sent so far. */
  datatype Tables = Tables(medicines: seq<Medicine>, bills: map<Id, Bill>, nextId: Id, events: seq<Event>)

  /** What a handler leaves behind: the new tables, the HTTP status and the bill it answers with. */
  datatype Handled = Handled(tables: Tables, status: nat, bill: Option<Bill>)

  /** Medicine ids are fresh and distinct, bills are keyed by their own id, and every id is below the counter. */
  predicate TablesValid(t: Tables) {
    && ValidStore(Store(t.medicines, t.nextId))
    && SourcesBelow(t.medicines, t.nextId)
    && (forall id :: id in t.bills ==> t.bills[id].id == id && id < t.nextId)
  }

  /** The socket events of a finished upload. */
  function UploadEvents(notifier: bool, done: Bill, owner: Owner, withUpdate: bool): seq<Event> {
    if !notifier then []
    else if withUpdate then [BillProcessed(done, owner.id), MedicinesUpdated(owner.id)]
    else [BillProcessed(done, owner.id)]
  }

  /** Events go out only with a socket server; "bill-processed" comes first, and "medicines-updated" only for an empty list. */
  lemma UploadNotifies(notifier: bool, done: Bill, owner: Owner, withUpdate: bool)
    ensures var r := UploadEvents(notifier, done, owner, withUpdate);
      && (r == [] <==> !notifier)
      && (r != [] ==> r[0] == BillProcessed(done, owner.id))
      && (MedicinesUpdated(owner.id) in r <==> notifier && withUpdate)
  {
  }

  /** The outcome of the item loop of an upload to `t`: the bill takes the counter, the records take the next ids. */
  function LoopRun(t: Tables, owner: Owner, done: seq<Candidate>, now: Time): Outcome {
    Reconcile(Outcome(Store(t.medicines, t.nextId + 1), []), Batch(owner, t.nextId, now), done)
  }

  /** The item loop keeps the store valid and hands out ids past the new bill's. */
  lemma LoopRunValid(t: Tables, owner: Owner, done: seq<Candidate>, now: Time, run: Outcome)
    requires TablesValid(t) && run == LoopRun(t, owner, done, now)
    ensures ValidStore(run.store) && SourcesBelow(run.store.meds, run.store.nextId) && t.nextId < run.store.nextId
  {
    var start := Outcome(Store(t.medicines, t.nextId + 1), []);
    var batch := Batch(owner, t.nextId, now);
    assert run == Reconcile(start, batch, done);
    ReconcileValid(start, batch, done);
    ReconcileSourcesBelow(start, batch, done);
    ReconcileCounterGrows(start, batch, done);
  }

  /** The item loop collects one id per named item it got through. */
  lemma LoopRunCount(t: Tables, owner: Owner, done: seq<Candidate>, now: Time, run: Outcome)
    requires run == LoopRun(t, owner, done, now)
    ensures |run.ids| == NamedCount(done)
  {
    var start := Outcome(Store(t.medicines, t.nextId + 1), []);
    var batch := Batch(owner, t.nextId, now);
    assert run == Reconcile(start, batch, done);
    ReconcileIdCount(start, batch, done);
  }

  /** Every id the item loop collects names a record of the caller. */
  lemma LoopRunIds(t: Tables, owner: Owner, done: seq<Candidate>, now: Time, run: Outcome)
    requires run == LoopRun(t, owner, done, now)
    ensures IdsResolve(run.store.meds, run.ids, owner.id)
  {
    var start := Outcome(Store(t.medicines, t.nextId + 1), []);
    var batch := Batch(owner, t.nextId, now);
    assert run == Reconcile(start, batch, done);
    ReconcileIdsResolve(start, batch, done);
  }

  /** The item loop leaves every older record at its place, at most updated, and every new record comes from the new bill. */
  lemma LoopRunKeeps(t: Tables, owner: Owner, done: seq<Candidate>, now: Time, run: Outcome)
    requires run == LoopRun(t, owner, done, now)
    ensures OldUpdated(t.medicines, run.store.meds)
    ensures forall k :: |t.medicines| <= k < |run.store.meds| ==> run.store.meds[k].sourceBill == Some(t.nextId)
  {
    var start := Outcome(Store(t.medicines, t.nextId + 1), []);
    var batch := Batch(owner, t.nextId, now);
    assert run == Reconcile(start, batch, done);
    ReconcileOldUpdated(start, batch, done);
    CreatedCarryBill(start, batch, done, run);
  }

  /** The upload handler after the gate, with the outcome of its own item loop. */
  function Accepted(t: Tables, notifier: bool, owner: Owner, file: UploadedFile,
                    items: seq<Candidate>, faultAt: Option<nat>, now: Time): (r: Handled)
    ensures r.status in {200, 201, 500}
    ensures r.status == 200 <==> items == []
    ensures r.bill.None? <==> r.status == 500
    ensures t.nextId in r.tables.bills && r.tables.bills[t.nextId].pharmacyId == owner.id
  {
    AfterGate(t, notifier, owner, file, items, faultAt, now, LoopRun(t, owner, Processed(items, faultAt), now))
  }

  /**
   * The upload handler after the gate, given the outcome `run` of its item
   * loop: the bill is stored as "Processing" under a fresh id; an empty list
   * completes it at once (200); otherwise the bill is completed with the ids
   * the loop collected (201), unless a write threw, which leaves the bill
   * "Processing" and answers 500.
   */
  function AfterGate(t: Tables, notifier: bool, owner: Owner, file: UploadedFile,
                     items: seq<Candidate>, faultAt: Option<nat>, now: Time, run: Outcome): Handled
  {
    var id := t.nextId;
    var processing := ProcessingBill(id, owner, file, now);
    if items == [] then
      var done := processing.(status := Completed);
      Handled(Tables(t.medicines, t.bills[id := done], id + 1, t.events + UploadEvents(notifier, done, owner, true)),
              200, Some(done))
    else if Faults(items, faultAt) then
      Handled(Tables(run.store.meds, t.bills[id := processing], run.store.nextId, t.events), 500, None)
    else
      var done := processing.(status := Completed, medicines := run.ids);
      Handled(Tables(run.store.meds, t.bills[id := done], run.store.nextId, t.events + UploadEvents(notifier, done, owner, false)),
              201, Some(done))
  }

  /** A loop that keeps the store valid and moves the counter past the new bill makes a valid upload. */
  lemma UploadKeepsValid(t: Tables, notifier: bool, owner: Owner, file: UploadedFile,
                         items: seq<Candidate>, faultAt: Option<nat>, now: Time, run: Outcome)
    requires TablesValid(t)
    requires ValidStore(run.store) && SourcesBelow(run.store.meds, run.store.nextId) && t.nextId < run.store.nextId
    ensures TablesValid(AfterGate(t, notifier, owner, file, items, faultAt, now, run).tables)
  {
  }

  /** An upload after the gate keeps the tables valid. */
  lemma UploadPreservesValid(t: Tables, notifier: bool, owner: Owner, file: UploadedFile,
                             items: seq<Candidate>, faultAt: Option<nat>, now: Time)
    requires TablesValid(t)
    ensures TablesValid(AfterGate(t, notifier, owner, file, items, faultAt, now, LoopRun(t, owner, Processed(items, faultAt), now)).tables)
  {
    var run := LoopRun(t, owner, Processed(items, faultAt), now);
    LoopRunValid(t, owner, Processed(items, faultAt), now, run);
    UploadKeepsValid(t, notifier, owner, file, items, faultAt, now, run);
  }

  /**
   * Every bill stored before is still there unchanged; the new bill sits
   * under the old counter, belongs to the caller, and the counter moved past it.
   */
  lemma UploadKeepsBills(t: Tables, notifier: bool, owner: Owner, file: UploadedFile,
                         items: seq<Candidate>, faultAt: Option<nat>, now: Time, run: Outcome)
    requires TablesValid(t) && t.nextId < run.store.nextId
    ensures var h := AfterGate(t, notifier, owner, file, items, faultAt, now, run);
      && t.nextId !in t.bills && t.nextId in h.tables.bills && t.nextId < h.tables.nextId
      && h.tables.bills.Keys == t.bills.Keys + {t.nextId}
      && (forall id :: id in t.bills ==> h.tables.bills[id] == t.bills[id])
      && h.tables.bills[t.nextId].pharmacyId == owner.id
  {
  }

  /**
   * The answer matches the stored bill: 200 and 201 return the bill stored
   * as Completed, listing no medicines (200) or the ids the loop collected
   * (201); 500 leaves it Processing and sends no event. With a socket server
   * a 200 sends "bill-processed" then "medicines-updated", a 201 only
   * "bill-processed".
   */
  lemma UploadAnswersStoredBill(t: Tables, notifier: bool, owner: Owner, file: UploadedFile,
                                items: seq<Candidate>, faultAt: Option<nat>, now: Time, run: Outcome)
    ensures var h := AfterGate(t, notifier, owner, file, items, faultAt, now, run);
      && h.status in {200, 201, 500}
      && (h.status == 500 <==> items != [] && Faults(items, faultAt))
      && (h.status == 200 <==> items == [])
      && (h.status == 500 ==> h.bill.None? && h.tables.events == t.events
                              && h.tables.bills[t.nextId] == ProcessingBill(t.nextId, owner, file, now))
      && (h.status != 500 ==> h.bill.Some? && h.tables.bills[t.nextId] == h.bill.value
                              && h.bill.value.status == Completed
                              && h.bill.value.medicines == (if items == [] then [] else run.ids))
      && (h.status == 200 ==> h.tables.medicines == t.medicines
                              && h.tables.events == t.events + (if notifier then [BillProcessed(h.bill.value, owner.id), MedicinesUpdated(owner.id)] else []))
      && (h.status == 201 ==> h.tables.medicines == run.store.meds
                              && h.tables.events == t.events + (if notifier then [BillProcessed(h.bill.value, owner.id)] else []))
  {
  }

  /**
   * A completed upload answers with one id per named item, each naming one
   * of the caller's records in the new store.
   */
  lemma CompletedBillListsItems(t: Tables, notifier: bool, owner: Owner, file: UploadedFile,
                                items: seq<Candidate>, faultAt: Option<nat>, now: Time, run: Outcome)
    requires TablesValid(t) && run == LoopRun(t, owner, Processed(items, faultAt), now)
    ensures var h := AfterGate(t, notifier, owner, file, items, faultAt, now, run);
      h.status == 201 ==>
        && |h.bill.value.medicines| == NamedCount(items)
        && IdsResolve(h.tables.medicines, h.bill.value.medicines, owner.id)
  {
    LoopRunCount(t, owner, Processed(items, faultAt), now, run);
    LoopRunIds(t, owner, Processed(items, faultAt), now, run);
  }

  /**
   * The delete handler: a missing bill is 404; a missing caller makes the
   * owner comparison throw (500); another pharmacy's bill is 403. Otherwise
   * the medicines whose `sourceBill` is the bill go, then the bill itself.
   */
  function AfterDelete(t: Tables, notifier: bool, billId: Id, caller: Option<Owner>): (r: Handled)
    ensures r.status in {200, 403, 404, 500} && r.bill.None?
    ensures r.status == 404 <==> billId !in t.bills
    ensures r.status == 500 <==> billId in t.bills && caller.None?
    ensures r.status == 403 <==> billId in t.bills && caller.Some? && t.bills[billId].pharmacyId != caller.value.id
    ensures r.status != 200 ==> r.tables == t
    ensures r.status == 200 ==> r.tables.bills == t.bills - {billId} && r.tables.nextId == t.nextId
    ensures r.status == 200 ==>
      && r.tables.medicines == WithoutBill(t.medicines, billId)
      && r.tables.events == t.events + (if notifier then [BillDeleted(billId, t.bills[billId].pharmacyId),
                                                          MedicinesUpdated(t.bills[billId].pharmacyId)] else [])
  {
    if billId !in t.bills then Handled(t, 404, None)
    else
      var b := t.bills[billId];
      if caller.None? then Handled(t, 500, None)
      else if b.pharmacyId != caller.value.id then Handled(t, 403, None)
      else
        var events := if notifier then [BillDeleted(billId, b.pharmacyId), MedicinesUpdated(b.pharmacyId)] else [];
        Handled(Tables(WithoutBill(t.medicines, billId), t.bills - {billId}, t.nextId, t.events + events), 200, None)
  }

  /** A delete keeps the tables valid; when it succeeds, no record and no bill refers to the bill any more. */
  lemma DeleteKeepsValid(t: Tables, notifier: bool, billId: Id, caller: Option<Owner>)
    requires TablesValid(t)
    ensures var h := AfterDelete(t, notifier, billId, caller);
      && TablesValid(h.tables)
      && (h.status == 200 <==> billId in t.bills && caller.Some? && t.bills[billId].pharmacyId == caller.value.id)
      && (h.status != 200 ==> h.tables == t)
      && (h.status == 200 ==> billId !in h.tables.bills
                              && forall k :: 0 <= k < |h.tables.medicines| ==> h.tables.medicines[k].sourceBill != Some(billId))
  {
    WithoutBillValid(t.medicines, t.nextId, billId);
  }

  /**
   * Deleting the bill an upload stored undoes the upload's new records and
   * keeps the records it updated: the medicines are the old ones, each at its
   * place with at most quantity, price, expiry date and update time changed.
   */
  lemma DeleteUndoesUpload(t: Tables, notifier: bool, owner: Owner, file: UploadedFile,
                           items: seq<Candidate>, faultAt: Option<nat>, now: Time, run: Outcome)
    requires TablesValid(t) && run == LoopRun(t, owner, Processed(items, faultAt), now)
    ensures var h := AfterGate(t, notifier, owner, file, items, faultAt, now, run);
      var d := AfterDelete(h.tables, notifier, t.nextId, Some(owner));
      && d.status == 200
      && d.tables.bills == t.bills
      && |d.tables.medicines| == |t.medicines|
      && forall k :: 0 <= k < |t.medicines| ==> UpdatedFrom(t.medicines[k], d.tables.medicines[k])
  {
    LoopRunValid(t, owner, Processed(items, faultAt), now, run);
    LoopRunKeeps(t, owner, Processed(items, faultAt), now, run);
    DeleteUndoesRun(t, notifier, owner, file, items, faultAt, now, run);
  }

  /** The same, for any loop outcome that updates old records in place and tags new ones with the bill. */
  lemma DeleteUndoesRun(t: Tables, notifier: bool, owner: Owner, file: UploadedFile,
                        items: seq<Candidate>, faultAt: Option<nat>, now: Time, run: Outcome)
    requires TablesValid(t) && t.nextId < run.store.nextId
    requires OldUpdated(t.medicines, run.store.meds)
    requires forall k :: |t.medicines| <= k < |run.store.meds| ==> run.store.meds[k].sourceBill == Some(t.nextId)
    ensures var h := AfterGate(t, notifier, owner, file, items, faultAt, now, run);
      var d := AfterDelete(h.tables, notifier, t.nextId, Some(owner));
      && d.status == 200
      && d.tables.bills == t.bills
      && |d.tables.medicines| == |t.medicines|
      && forall k :: 0 <= k < |t.medicines| ==> UpdatedFrom(t.medicines[k], d.tables.medicines[k])
  {
    UploadKeepsBills(t, notifier, owner, file, items, faultAt, now, run);
    var h := AfterGate(t, notifier, owner, file, items, faultAt, now, run);
    var n := |t.medicines|;
    assert forall k :: 0 <= k < n ==> t.medicines[k].sourceBill != Some(t.nextId);
    if items != [] {
      forall k | 0 <= k < n ensures run.store.meds[k].sourceBill != Some(t.nextId) {
        assert UpdatedFrom(t.medicines[k], run.store.meds[k]);
      }
      WithoutBillSplit(run.store.meds, n, t.nextId);
    } else {
      WithoutBillSplit(t.medicines, n, t.nextId);
      assert t.medicines[..n] == t.medicines;
    }
    assert h.tables.bills - {t.nextId} == t.bills;
  }

  // Saving a bill again replaces what was stored under its id.
  lemma Overwrite(m: map<Id, Bill>, k: Id, first: Bill, second: Bill)
    ensures m[k := first][k := second] == m[k := second]
  {
  }

  /**
   * One pass of the item loop: skip a nameless item, update the pharmacy's
   * record with the same name ignoring case, or create a new record.
   */
  method ApplyItem(st: Store, ids: seq<Id>, c: Candidate, b: Batch) returns (st': Store, ids': seq<Id>)
    ensures Outcome(st', ids') == Step(Outcome(st, ids), b, c)
  {
    var medicines, nextId := st.meds, st.nextId;
    ids' := ids;
    var name := ItemName(c);
    if name != "" {
      var existing := FindExisting(medicines, b.owner.id, name);
      if existing.Some? {
        var updated := ApplyUpdate(medicines[existing.value], c, b.now);
        medicines := medicines[existing.value := updated];
        ids' := ids + [updated.id];
      } else {
        var med := NewRecord(c, b, nextId);
        medicines := medicines + [med];
        nextId := nextId + 1;
        ids' := ids + [med.id];
      }
    }
    st' := Store(medicines, nextId);
  }

  /**
   * The item loop of the upload handler: runs `items` for batch `b` on the
   * medicine store, stopping before item `faultAt` when a write throws there.
   */
  method RunItems(st: Store, b: Batch, items: seq<Candidate>, faultAt: Option<nat>) returns (r: Outcome, faulted: bool)
    ensures faulted == Faults(items, faultAt)
    ensures r == Reconcile(Outcome(st, []), b, Processed(items, faultAt))
  {
    var store := st;
    var createdIds := [];
    var stop := if Faults(items, faultAt) then faultAt.value else |items|;
    for i := 0 to stop
      invariant Outcome(store, createdIds) == Reconcile(Outcome(st, []), b, items[..i])
    {
      assert items[..i + 1][..i] == items[..i];
      store, createdIds := ApplyItem(store, createdIds, items[i], b);
    }
    faulted := stop < |items|;
    assert items[..stop] == Processed(items, faultAt);
    r := Outcome(store, createdIds);
  }

  /** The upload handler once the bill passed the gate, on the tables `t`. */
  method HandleAfterGate(t: Tables, notifier: bool, owner: Owner, file: UploadedFile,
                         items: seq<Candidate>, faultAt: Option<nat>, now: Time) returns (h: Handled)
    ensures h == AfterGate(t, notifier, owner, file, items, faultAt, now, LoopRun(t, owner, Processed(items, faultAt), now))
  {
    var medicines, bills, nextId, events := t.medicines, t.bills, t.nextId, t.events;
    var id := nextId;
    nextId := nextId + 1;
    var processing := ProcessingBill(id, owner, file, now);
    bills := bills[id := processing];

    if items == [] {
      var done := processing.(status := Completed);
      Overwrite(t.bills, id, processing, done);
      bills := bills[id := done];
      events := events + UploadEvents(notifier, done, owner, true);
      return Handled(Tables(medicines, bills, nextId, events), 200, Some(done));
    }

    var run, faulted := RunItems(Store(medicines, nextId), Batch(owner, id, now), items, faultAt);
    assert run == LoopRun(t, owner, Processed(items, faultAt), now);
    medicines, nextId := run.store.meds, run.store.nextId;
    if faulted {
      return Handled(Tables(medicines, bills, nextId, events), 500, None);
    }

    var done := processing.(status := Completed, medicines := run.ids);
    Overwrite(t.bills, id, processing, done);
    bills := bills[id := done];
    events := events + UploadEvents(notifier, done, owner, false);
    return Handled(Tables(medicines, bills, nextId, events), 201, Some(done));
  }

  class BillService {
    var medicines: seq<Medicine>
    var bills: map<Id, Bill>
    var nextId: Id
    var events: seq<Event>
    /** Whether the app has a socket server (`req.app.get("io")`). */
    const notifier: bool
    /** Names of the files removed from the uploads directory. */
    ghost var unlinked: set<string>

    function State(): Tables
      reads this
    {
      Tables(medicines, bills, nextId, events)
    }

    predicate Valid()
      reads this
    {
      TablesValid(State())
    }

    constructor(notifier: bool)
      ensures Valid() && this.notifier == notifier
      ensures State() == Tables([], map[], 0, []) && unlinked == {}
    {
      medicines := [];
      bills := map[];
      nextId := 0;
      events := [];
      this.notifier := notifier;
      unlinked := {};
    }

    /** The upload handler once the bill passed the gate: the tables become what `AfterGate` says. */
    method ProcessBill(owner: Owner, file: UploadedFile, items: seq<Candidate>, faultAt: Option<nat>, now: Time)
      returns (status: nat, bill: Option<Bill>)
      requires Valid()
      modifies this`medicines, this`nextId, this`bills, this`events
      ensures Valid()
      ensures Handled(State(), status, bill) == Accepted(old(State()), notifier, owner, file, items, faultAt, now)
    {
      var t := State();
      UploadPreservesValid(t, notifier, owner, file, items, faultAt, now);
      var h := HandleAfterGate(t, notifier, owner, file, items, faultAt, now);
      medicines, bills, nextId, events := h.tables.medicines, h.tables.bills, h.tables.nextId, h.tables.events;
      status, bill := h.status, h.bill;
    }

    /** The upload handler once the file, the caller and the OCR text are there and the bill's pharmacy name is `detected`: the gate, then the items. */
    method ReviewBill(owner: Owner, file: UploadedFile, text: string, detected: Option<string>,
                      keySet: bool, itemsReply: Option<string>,
                      parse: string -> Option<seq<Candidate>>, faultAt: Option<nat>, now: Time)
      returns (status: nat, bill: Option<Bill>)
      requires Valid()
      modifies this
      ensures Valid()
      ensures Rejects(detected, owner.name) ==>
        && status == 400 && bill.None? && State() == old(State())
        && unlinked == old(unlinked) + {file.filename}
      ensures !Rejects(detected, owner.name) ==>
        && Handled(State(), status, bill)
           == Accepted(old(State()), notifier, owner, file, ChosenItems(keySet, itemsReply, parse, text), faultAt, now)
        && unlinked == old(unlinked)
    {
      if Rejects(detected, owner.name) {
        unlinked := unlinked + {file.filename};
        status, bill := 400, None;
      } else {
        var items := ChooseItems(keySet, itemsReply, parse, text);
        status, bill := ProcessBill(owner, file, items, faultAt, now);
      }
    }

    /** `POST /upload-bill` */
    method UploadBill(file: Option<UploadedFile>, caller: Option<Owner>, ocr: Option<string>,
                      keySet: bool, nameReply: Option<string>, itemsReply: Option<string>,
                      parse: string -> Option<seq<Candidate>>, faultAt: Option<nat>, now: Time)
      returns (status: nat, bill: Option<Bill>)
      requires Valid()
      modifies this
      ensures Valid()
      ensures file.None? ==> status == 400 && bill.None? && unchanged(this)
      ensures file.Some? && caller.None? ==> status == 401 && bill.None? && unchanged(this)
      ensures file.Some? && caller.Some? && ocr.None? ==> status == 500 && bill.None? && unchanged(this)
      ensures file.Some? && caller.Some? && ocr.Some? &&
              Rejects(DetectPharmacyName(keySet, nameReply, ocr.value), caller.value.name) ==>
        && status == 400 && bill.None? && State() == old(State())
        && unlinked == old(unlinked) + {file.value.filename}
      ensures file.Some? && caller.Some? && ocr.Some? &&
              !Rejects(DetectPharmacyName(keySet, nameReply, ocr.value), caller.value.name) ==>
        && Handled(State(), status, bill)
           == Accepted(old(State()), notifier, caller.value, file.value,
                       ChosenItems(keySet, itemsReply, parse, ocr.value), faultAt, now)
        && unlinked == old(unlinked)
    {
      if file.None? {
        status, bill := 400, None;
      } else if caller.None? {
        status, bill := 401, None;
      } else if ocr.None? {
        status, bill := 500, None;
      } else {
        var detected := DetectPharmacyName(keySet, nameReply, ocr.value);
        status, bill := ReviewBill(caller.value, file.value, ocr.value, detected, keySet, itemsReply, parse, faultAt, now);
      }
    }

    /** `DELETE /:id`; the upload's file goes from the uploads directory when the bill names one. */
    method DeleteBill(billId: Id, caller: Option<Owner>) returns (status: nat)
      requires Valid()
      modifies this
      ensures Valid()
      ensures Handled(State(), status, None) == AfterDelete(old(State()), notifier, billId, caller)
      ensures unlinked == old(unlinked) + (if status == 200 && Truthy(old(bills)[billId].fileName)
                                           then {old(bills)[billId].fileName.value} else {})
    {
      DeleteKeepsValid(State(), notifier, billId, caller);
      if billId !in bills {
        return 404;
      }
      var b := bills[billId];
      if caller.None? {
        // `req.pharmacy._id` on a missing caller throws; the catch answers 500
        return 500;
      }
      if b.pharmacyId != caller.value.id {
        return 403;
      }
      medicines := WithoutBill(medicines, billId);
      if Truthy(b.fileName) {
        unlinked := unlinked + {b.fileName.value};
      }
      bills := bills - {billId};
      if notifier {
        events := events + [BillDeleted(billId, b.pharmacyId), MedicinesUpdated(b.pharmacyId)];
      }
      return 200;
    }
  }
}

=== FILE: candidate.dfy ===
/**
 * A candidate line item: what either extractor hands to the reconciliation
 * loop. Each field is `None` when the item leaves it undefined; `quantity`
 * and `price` are `Some` exactly when `typeof ... === "number"` holds.
 */
module Candidates {
  import opened Wrappers
  import opened Values

  datatype Candidate = Candidate(
    name: Option<string>,
    genericName: Option<string>,
    category: Option<string>,
    form: Option<string>,
    quantity: Option<int>,
    price: Option<Decimal>,
    expiryDate: Option<string>)
}

=== FILE: clinic.dfy ===
/**
 * The doctor collection (models/Doctor.js) and the consultation collection
 * the doctor and consultation routes work on, with one counter for fresh
 * ids. Password hashing is not modelled: `password` is what was given.
 */
module Clinic {
  import opened Wrappers
  import opened Values
  import opened JsText
  import opened Lookup
  import opened ConsultationModel

  datatype Doctor = Doctor(
    id: Id,
    name: string,
    email: Option<string>,
    password: Option<string>,
    specialization: Option<string>,
    phone: Option<string>,
    hospital: Option<string>,
    experience: int,
    googleId: Option<string>,
    createdAt: Time,
    updatedAt: Time)

  /** The object handed to `Doctor.create`; `None` is a field left undefined. */
  datatype DoctorFields = DoctorFields(
    name: Option<string>,
    email: Option<string>,
    password: Option<string>,
    specialization: Option<string>,
    phone: Option<string>,
    hospital: Option<string>,
    experience: Option<int>)

  /** Some stored doctor has this email. */
  predicate EmailTaken(doctors: seq<Doctor>, email: string) {
    exists j :: 0 <= j < |doctors| && doctors[j].email == Some(email)
  }

  /**
   * `Doctor.create(fields)`: the required name must be a non-empty string
   * and the unique sparse email index must not be violated; experience
   * defaults to 0.
   */
  function CreateDoctor(id: Id, f: DoctorFields, doctors: seq<Doctor>, now: Time): (r: Option<Doctor>)
    ensures r.Some? <==> Truthy(f.name) && !(f.email.Some? && EmailTaken(doctors, f.email.value))
    ensures r.Some? ==>
      && r.value.id == id && r.value.name == f.name.value && r.value.email == f.email && r.value.password == f.password
      && r.value.specialization == f.specialization && r.value.phone == f.phone && r.value.hospital == f.hospital
      && (f.experience.None? ==> r.value.experience == 0)
      && (f.experience.Some? ==> r.value.experience == f.experience.value)
      && r.value.googleId.None? && r.value.createdAt == now && r.value.updatedAt == now
  {
    if !Truthy(f.name) || (f.email.Some? && EmailTaken(doctors, f.email.value)) then None
    else Some(Doctor(id, f.name.value, f.email, f.password, f.specialization, f.phone, f.hospital,
                     f.experience.GetOr(0), None, now, now))
  }

  /** The two collections and the id counter. */
  datatype Clinic = Clinic(doctors: seq<Doctor>, consultations: seq<Consultation>, nextId: Id)

  /** Ids are increasing and below the counter in both collections; no email belongs to two doctors. */
  predicate ClinicValid(c: Clinic) {
    && (forall i, j :: 0 <= i < j < |c.doctors| ==> c.doctors[i].id < c.doctors[j].id)
    && (forall i :: 0 <= i < |c.doctors| ==> c.doctors[i].id < c.nextId)
    && (forall i, j :: 0 <= i < j < |c.doctors| && c.doctors[i].email.Some? ==> c.doctors[i].email != c.doctors[j].email)
    && (forall i, j :: 0 <= i < j < |c.consultations| ==> c.consultations[i].id < c.consultations[j].id)
    && (forall i :: 0 <= i < |c.consultations| ==> c.consultations[i].id < c.nextId)
  }

  /** A handler's effect: the new store, the HTTP status and the reply body. */
  datatype ClinicReply<T> = ClinicReply(clinic: Clinic, status: nat, body: Option<T>)

  /** `Doctor.findById(id)` is some document. */
  predicate DoctorExists(c: Clinic, id: Id) {
    FirstIndex(c.doctors, (d: Doctor) => d.id == id).Some?
  }

  /** `Consultation.findById(id)`: its position in the collection. */
  function ConsultationAt(c: Clinic, id: Id): (r: Option<nat>)
    ensures r.Some? ==> r.value < |c.consultations| && c.consultations[r.value].id == id
    ensures r.Some? ==> forall k :: 0 <= k < r.value ==> c.consultations[k].id != id
    ensures r.None? ==> forall k :: 0 <= k < |c.consultations| ==> c.consultations[k].id != id
  {
    FirstIndex(c.consultations, (x: Consultation) => x.id == id)
  }

  /** Replacing a consultation by one with the same id keeps the store valid. */
  lemma ReplaceKeepsValid(c: Clinic, k: nat, x: Consultation)
    requires ClinicValid(c) && k < |c.consultations| && x.id == c.consultations[k].id
    ensures ClinicValid(c.(consultations := c.consultations[k := x]))
  {
  }

  /** Appending a consultation with the counter's id keeps the store valid. */
  lemma AppendConsultationKeepsValid(c: Clinic, x: Consultation)
    requires ClinicValid(c) && x.id == c.nextId
    ensures ClinicValid(c.(consultations := c.consultations + [x], nextId := c.nextId + 1))
  {
  }

  /** Appending a doctor with the counter's id and an unused email keeps the store valid. */
  lemma AppendDoctorKeepsValid(c: Clinic, d: Doctor)
    requires ClinicValid(c) && d.id == c.nextId
    requires d.email.Some? ==> !EmailTaken(c.doctors, d.email.value)
    ensures ClinicValid(c.(doctors := c.doctors + [d], nextId := c.nextId + 1))
  {
    var ds := c.doctors + [d];
    forall i, j | 0 <= i < j < |ds| && ds[i].email.Some? ensures ds[i].email != ds[j].email {
      if j == |c.doctors| {
        assert ds[i] == c.doctors[i];
      }
    }
  }

  /** The two collections as one object the handlers change in place. */
  class ClinicStore {
    var doctors: seq<Doctor>
    var consultations: seq<Consultation>
    var nextId: Id

    function State(): Clinic
      reads this
    {
      Clinic(doctors, consultations, nextId)
    }

    predicate Valid()
      reads this
    {
      ClinicValid(State())
    }

    constructor()
      ensures Valid() && State() == Clinic([], [], 0)
    {
      doctors := [];
      consultations := [];
      nextId := 0;
    }
  }
}

=== FILE: consultation_model.dfy ===
/**
 * The consultation record of models/Consultation.js: the two required
 * parties, the status enum with its default, the message sub-document and
 * the optional video room id.
 */
module ConsultationModel {
  import opened Wrappers
  import opened Values
  import opened JsText

  datatype ConsultationStatus = Pending | Accepted | Declined | Completed

  function StatusName(s: ConsultationStatus): string {
    match s
    case Pending => "pending"
    case Accepted => "accepted"
    case Declined => "declined"
    case Completed => "completed"
  }

  /** The enum validator of `status`. */
  function ParseStatus(s: string): (r: Option<ConsultationStatus>)
    ensures r.Some? ==> StatusName(r.value) == s
    ensures r.None? ==> forall c: ConsultationStatus :: StatusName(c) != s
  {
    if s == "pending" then Some(Pending)
    else if s == "accepted" then Some(Accepted)
    else if s == "declined" then Some(Declined)
    else if s == "completed" then Some(Completed)
    else None
  }

  datatype Sender = FromUser | FromDoctor

  /** The enum validator of a message's `sender`. */
  function ParseSender(s: string): (r: Option<Sender>)
    ensures r.Some? <==> s == "user" || s == "doctor"
  {
    if s == "user" then Some(FromUser) else if s == "doctor" then Some(FromDoctor) else None
  }

  datatype Message = Message(sender: Sender, text: string, timestamp: Time)

  datatype Consultation = Consultation(
    id: Id,
    patient: Id,                 // reference to a User
    doctor: Id,                  // reference to a Doctor
    symptoms: string,
    status: ConsultationStatus,
    appointmentDate: Option<DateValue>,
    appointmentTime: Option<string>,
    messages: seq<Message>,
    videoRoomId: Option<string>,
    createdAt: Time,
    updatedAt: Time)

  /** A message sub-document as given; `None` is a field left undefined. */
  datatype MessageFields = MessageFields(sender: Option<string>, message: Option<string>, timestamp: Option<Time>)

  /** One message: sender must be "user" or "doctor", the text is required, the timestamp defaults to now. */
  function CreateMessage(f: MessageFields, now: Time): (r: Option<Message>)
    ensures r.Some? <==> f.sender.Some? && ParseSender(f.sender.value).Some? && Truthy(f.message)
    ensures r.Some? ==> r.value.text == f.message.value && r.value.text != ""
    ensures r.Some? ==> r.value.timestamp == f.timestamp.GetOr(now)
  {
    if f.sender.None? || !Truthy(f.message) then None
    else match ParseSender(f.sender.value)
      case None => None
      case Some(s) => Some(Message(s, f.message.value, f.timestamp.GetOr(now)))
  }

  /** The message array validates when every element does; order is kept. */
  function CreateMessages(fs: seq<MessageFields>, now: Time): (r: Option<seq<Message>>)
    ensures r.Some? <==> forall k :: 0 <= k < |fs| ==> CreateMessage(fs[k], now).Some?
    ensures r.Some? ==> |r.value| == |fs| && forall k :: 0 <= k < |fs| ==> Some(r.value[k]) == CreateMessage(fs[k], now)
  {
    if fs == [] then Some([])
    else
      var head := CreateMessage(fs[0], now);
      var tail := CreateMessages(fs[1..], now);
      if head.Some? && tail.Some? then Some([head.value] + tail.value)
      else
        assert head.None? || exists k :: 1 <= k < |fs| && CreateMessage(fs[k], now).None? by {
          if head.Some? {
            var k :| 0 <= k < |fs[1..]| && CreateMessage(fs[1..][k], now).None?;
            assert CreateMessage(fs[k + 1], now).None?;
          }
        }
        None
  }

  /** The object handed to `Consultation.create`; `None` is a field left undefined. */
  datatype ConsultationFields = ConsultationFields(
    patient: Option<Id>,
    doctor: Option<Id>,
    symptoms: Option<string>,
    status: Option<string>,
    appointmentDate: Option<DateValue>,
    appointmentTime: Option<string>,
    messages: seq<MessageFields>,
    videoRoomId: Option<string>)

  /**
   * `Consultation.create(fields)`: fails when a party is missing, the status
   * is not an enum name or a message is malformed; otherwise symptoms
   * default to "" and status to pending, and the video room stays unset
   * unless given.
   */
  function CreateConsultation(id: Id, f: ConsultationFields, now: Time): (r: Option<Consultation>)
    ensures r.Some? <==>
      && f.patient.Some? && f.doctor.Some?
      && (f.status.None? || ParseStatus(f.status.value).Some?)
      && CreateMessages(f.messages, now).Some?
    ensures r.Some? ==>
      && r.value.id == id && r.value.patient == f.patient.value && r.value.doctor == f.doctor.value
      && r.value.symptoms == f.symptoms.GetOr("")
      && (f.status.None? ==> r.value.status == Pending)
      && (f.status.Some? ==> StatusName(r.value.status) == f.status.value)
      && r.value.videoRoomId == f.videoRoomId
      && r.value.appointmentDate == f.appointmentDate && r.value.appointmentTime == f.appointmentTime
      && r.value.messages == CreateMessages(f.messages, now).value
      && |r.value.messages| == |f.messages|
      && r.value.createdAt == now && r.value.updatedAt == now
    ensures r.Some? ==> forall k :: 0 <= k < |f.messages| ==> Some(r.value.messages[k]) == CreateMessage(f.messages[k], now)
  {
    if f.patient.None? || f.doctor.None? then None
    else
      var status := if f.status.None? then Some(Pending) else ParseStatus(f.status.value);
      var messages := CreateMessages(f.messages, now);
      if status.None? || messages.None? then None
      else Some(Consultation(id, f.patient.value, f.doctor.value, f.symptoms.GetOr(""), status.value,
                             f.appointmentDate, f.appointmentTime, messages.value, f.videoRoomId, now, now))
  }
}

=== FILE: consultation_routes.dfy ===
/**
 * routes/consultationRoutes.js: a patient books a consultation, lists their
 * own, and a doctor reserves the video room of one of theirs.
 */
module ConsultationRoutes {
  import opened Wrappers
  import opened Values
  import opened JsText
  import opened Lookup
  import opened ConsultationModel
  import opened Clinic
  import DoctorAuth

  /** The consultation `POST /` asks `Consultation.create` for. */
  function Booking(caller: Id, doctor: Id, symptoms: Option<string>,
                   date: Option<DateValue>, time: Option<string>): (r: ConsultationFields)
    ensures r.patient == Some(caller) && r.doctor == Some(doctor)
    ensures r.status.Some? && ParseStatus(r.status.value) == Some(Pending)
    ensures forall now :: CreateMessages(r.messages, now) == Some([])
    ensures r.appointmentDate == date && r.appointmentTime == time && r.videoRoomId.None?
  {
    ConsultationFields(Some(caller), Some(doctor), Some(OrElse(symptoms, "")), Some("pending"), date, time, [], None)
  }

  /**
   * `POST /`: 404 and nothing created when no doctor has the given id (or
   * none is given); otherwise a pending consultation of the caller with that
   * doctor, symptoms defaulting to "" and no messages or room yet (201).
   */
  function Book(c: Clinic, caller: Id, doctor: Option<Id>, symptoms: Option<string>,
                date: Option<DateValue>, time: Option<string>, now: Time): (r: ClinicReply<Consultation>)
    ensures r.status in {201, 404}
    ensures r.status == 404 <==> doctor.None? || !DoctorExists(c, doctor.value)
    ensures r.status == 404 ==> r == ClinicReply(c, 404, None)
    ensures r.status == 201 ==>
      && r.body.Some?
      && var x := r.body.value;
      && x.id == c.nextId && x.patient == caller && x.doctor == doctor.value
      && x.status == Pending && x.symptoms == OrElse(symptoms, "")
      && x.messages == [] && x.videoRoomId.None?
      && x.appointmentDate == date && x.appointmentTime == time
      && r.clinic == c.(consultations := c.consultations + [x], nextId := c.nextId + 1)
  {
    if doctor.None? || !DoctorExists(c, doctor.value) then ClinicReply(c, 404, None)
    else
      assert ParseStatus("pending") == Some(Pending);
      assert CreateMessages([], now) == Some([]);
      var x := CreateConsultation(c.nextId, Booking(caller, doctor.value, symptoms, date, time), now).value;
      ClinicReply(c.(consultations := c.consultations + [x], nextId := c.nextId + 1), 201, Some(x))
  }

  /** `GET /`: the caller's consultations, in store order (the doctor's fields it joins in are not modelled). */
  function PatientConsultations(c: Clinic, caller: Id): (r: seq<Consultation>)
    ensures forall k :: 0 <= k < |r| ==> r[k].patient == caller
    ensures Subsequence(r, c.consultations)
  {
    FilterKeepsOrder(c.consultations, (x: Consultation) => x.patient == caller);
    Filter(c.consultations, (x: Consultation) => x.patient == caller)
  }

  /** No consultation of the caller is left out of their listing. */
  lemma PatientSeesAllTheirs(c: Clinic, caller: Id, j: nat)
    requires j < |c.consultations| && c.consultations[j].patient == caller
    ensures c.consultations[j] in PatientConsultations(c, caller)
  {
    FilterComplete(c.consultations, (x: Consultation) => x.patient == caller);
  }

  /** The room named after a consultation: `room-` and its id. */
  function RoomName(id: Id): (r: string)
    ensures |r| > 5 && r[..5] == "room-"
  {
    "room-" + DecimalString(id)
  }

  /** Different consultations get different generated rooms. */
  lemma RoomNamesDiffer(i: Id, j: Id)
    requires i != j
    ensures RoomName(i) != RoomName(j)
  {
    DecimalStringRoundTrip(i);
    DecimalStringRoundTrip(j);
    assert RoomName(i)[5..] == DecimalString(i);
    assert RoomName(j)[5..] == DecimalString(j);
  }

  /**
   * `POST /:id/start-video`: 404 when there is no such consultation, 403
   * with nothing changed when it is another doctor's; otherwise the room is
   * the stored one when set, else the generated one, and it is stored and
   * returned.
   */
  function StartVideo(c: Clinic, id: Id, doctor: Id): (r: ClinicReply<string>)
    ensures r.status in {200, 403, 404}
    ensures ConsultationAt(c, id).None? <==> r.status == 404
    ensures r.status != 200 ==> r.clinic == c && r.body.None?
    ensures r.status == 200 ==>
      var k := ConsultationAt(c, id).value;
      var x := c.consultations[k];
      && x.doctor == doctor
      && r.body == Some(if Truthy(x.videoRoomId) then x.videoRoomId.value else RoomName(id))
      && r.clinic == c.(consultations := c.consultations[k := x.(videoRoomId := r.body)])
    ensures r.status == 403 <==>
      ConsultationAt(c, id).Some? && c.consultations[ConsultationAt(c, id).value].doctor != doctor
  {
    match ConsultationAt(c, id)
    case None => ClinicReply(c, 404, None)
    case Some(k) =>
      var x := c.consultations[k];
      if x.doctor != doctor then ClinicReply(c, 403, None)
      else
        var room := OrElse(x.videoRoomId, RoomName(id));
        ClinicReply(c.(consultations := c.consultations[k := x.(videoRoomId := Some(room))]), 200, Some(room))
  }

  // The first position holding an id does not move when an element keeps its id.
  lemma ConsultationAtStable(c: Clinic, k: nat, y: Consultation)
    requires k < |c.consultations| && y.id == c.consultations[k].id
    requires ConsultationAt(c, y.id) == Some(k)
    ensures ConsultationAt(c.(consultations := c.consultations[k := y]), y.id) == Some(k)
  {
    var c' := c.(consultations := c.consultations[k := y]);
    assert forall j :: 0 <= j < k ==> c'.consultations[j] == c.consultations[j];
    assert c'.consultations[k].id == y.id;
  }

  /** Starting the video twice changes nothing the second time and returns the same room. */
  lemma StartVideoIdempotent(c: Clinic, id: Id, doctor: Id)
    requires StartVideo(c, id, doctor).status == 200
    ensures var first := StartVideo(c, id, doctor);
      StartVideo(first.clinic, id, doctor) == first
  {
    var k := ConsultationAt(c, id).value;
    var first := StartVideo(c, id, doctor);
    var x := c.consultations[k];
    var room := first.body.value;
    assert room != "" by {
      if !Truthy(x.videoRoomId) {
        assert |RoomName(id)| > 5;
      }
    }
    ConsultationAtStable(c, k, x.(videoRoomId := Some(room)));
    var c' := first.clinic;
    assert c'.consultations[k := c'.consultations[k]] == c'.consultations;
  }

  /** A room reserved by accepting the request is the one the video start returns. */
  lemma AcceptedRoomIsUsed(c: Clinic, id: Id, doctor: Id, uuid: string)
    requires ClinicValid(c) && uuid != ""
    requires DoctorAuth.Respond(c, id, doctor, Some("accept"), uuid).status == 200
    ensures var accepted := DoctorAuth.Respond(c, id, doctor, Some("accept"), uuid);
      var room := accepted.body.value.videoRoomId;
      StartVideo(accepted.clinic, id, doctor).body == room
  {
    var k := DoctorAuth.FindRequest(c, id, doctor).value;
    var accepted := DoctorAuth.Respond(c, id, doctor, Some("accept"), uuid);
    var y := accepted.body.value;
    assert ConsultationAt(c, id) == Some(k);
    ConsultationAtStable(c, k, y);
  }

  /** A booking keeps the store valid. */
  lemma BookKeepsValid(c: Clinic, caller: Id, doctor: Option<Id>, symptoms: Option<string>,
                       date: Option<DateValue>, time: Option<string>, now: Time)
    requires ClinicValid(c)
    ensures ClinicValid(Book(c, caller, doctor, symptoms, date, time, now).clinic)
  {
    var r := Book(c, caller, doctor, symptoms, date, time, now);
    if r.status == 201 {
      AppendConsultationKeepsValid(c, r.body.value);
    }
  }

  /** The video start keeps the store valid. */
  lemma StartVideoKeepsValid(c: Clinic, id: Id, doctor: Id)
    requires ClinicValid(c)
    ensures ClinicValid(StartVideo(c, id, doctor).clinic)
  {
    var r := StartVideo(c, id, doctor);
    if r.status == 200 {
      var k := ConsultationAt(c, id).value;
      ReplaceKeepsValid(c, k, c.consultations[k].(videoRoomId := r.body));
    }
  }

  method BookConsultation(store: ClinicStore, caller: Id, doctor: Option<Id>, symptoms: Option<string>,
                          date: Option<DateValue>, time: Option<string>, now: Time)
    returns (status: nat, consultation: Option<Consultation>)
    requires store.Valid()
    modifies store
    ensures store.Valid()
    ensures ClinicReply(store.State(), status, consultation) == Book(old(store.State()), caller, doctor, symptoms, date, time, now)
  {
    ghost var c := store.State();
    BookKeepsValid(c, caller, doctor, symptoms, date, time, now);
    if doctor.None? || !DoctorExists(store.State(), doctor.value) {
      return 404, None;
    }
    assert ParseStatus("pending") == Some(Pending);
    assert CreateMessages([], now) == Some([]);
    var x := CreateConsultation(store.nextId, Booking(caller, doctor.value, symptoms, date, time), now).value;
    store.consultations := store.consultations + [x];
    store.nextId := store.nextId + 1;
    status, consultation := 201, Some(x);
    assert ClinicReply(store.State(), status, consultation) == Book(c, caller, doctor, symptoms, date, time, now);
  }

  /** The start-video handler: the found consultation's room is assigned, then saved. */
  method StartVideoSession(store: ClinicStore, id: Id, doctor: Id) returns (status: nat, roomId: Option<string>)
    requires store.Valid()
    modifies store
    ensures store.Valid()
    ensures ClinicReply(store.State(), status, roomId) == StartVideo(old(store.State()), id, doctor)
  {
    StartVideoKeepsValid(store.State(), id, doctor);
    var found := ConsultationAt(store.State(), id);
    if found.None? {
      return 404, None;
    }
    var k := found.value;
    var x := store.consultations[k];
    if x.doctor != doctor {
      return 403, None;
    }
    var room := OrElse(x.videoRoomId, RoomName(id));
    x := x.(videoRoomId := Some(room));
    store.consultations := store.consultations[k := x];
    status, roomId := 200, Some(room);
  }
}

=== FILE: doctor_auth.dfy ===
/**
 * routes/doctorAuth.js: doctor registration, the listing of a doctor's
 * consultation requests, and the accept/decline transition that also
 * reserves a video room. The room id `uuidv4()` would draw is a parameter.
 */
module DoctorAuth {
  import opened Wrappers
  import opened Values
  import opened JsText
  import opened Lookup
  import opened ConsultationModel
  import opened Clinic
  import Accounts

  /** The fields `register` reads from the request body. */
  datatype DoctorBody = DoctorBody(
    name: Option<string>,
    email: string,
    password: Option<string>,
    specialization: Option<string>,
    phone: Option<string>,
    hospital: Option<string>,
    experience: Option<int>)

  function Fields(b: DoctorBody): DoctorFields {
    DoctorFields(b.name, Some(b.email), b.password, b.specialization, b.phone, b.hospital, b.experience)
  }

  /**
   * `register`: an email some doctor already has gives 400 and creates
   * nothing; a body the schema refuses (no name) makes `create` throw (500);
   * otherwise the doctor is appended (201).
   */
  function Register(c: Clinic, b: DoctorBody, now: Time): (r: ClinicReply<Doctor>)
    ensures EmailTaken(c.doctors, b.email) ==> r == ClinicReply(c, 400, None)
    ensures r.status in {201, 400, 500}
    ensures r.status != 201 ==> r.clinic == c && r.body.None?
    ensures r.status == 201 <==> !EmailTaken(c.doctors, b.email) && Truthy(b.name)
    ensures r.status == 500 <==> !EmailTaken(c.doctors, b.email) && !Truthy(b.name)
    ensures r.status == 201 ==> r.body == CreateDoctor(c.nextId, Fields(b), c.doctors, now)
    ensures r.status == 201 ==>
      && r.body.Some? && r.body.value.email == Some(b.email) && r.body.value.id == c.nextId
      && r.clinic == c.(doctors := c.doctors + [r.body.value], nextId := c.nextId + 1)
  {
    if FirstIndex(c.doctors, (d: Doctor) => d.email == Some(b.email)).Some? then ClinicReply(c, 400, None)
    else match CreateDoctor(c.nextId, Fields(b), c.doctors, now)
      case None => ClinicReply(c, 500, None)
      case Some(d) => ClinicReply(c.(doctors := c.doctors + [d], nextId := c.nextId + 1), 201, Some(d))
  }

  /** Registration keeps every doctor's email distinct. */
  lemma RegisterKeepsValid(c: Clinic, b: DoctorBody, now: Time)
    requires ClinicValid(c)
    ensures ClinicValid(Register(c, b, now).clinic)
  {
    var r := Register(c, b, now);
    if r.status == 201 {
      AppendDoctorKeepsValid(c, r.body.value);
    }
  }

  /** One entry of the `/requests` reply. */
  datatype RequestView = RequestView(id: Id, patientName: string, symptoms: string, status: string, createdAt: Time)

  /** `populate('patient', 'full_name')`: the name of the user with that id, `None` when there is none. */
  function PatientName(users: seq<Accounts.User>, patient: Id): (r: Option<string>)
    ensures r.Some? <==> exists j :: 0 <= j < |users| && users[j].id == patient
    ensures r.Some? ==> exists j :: 0 <= j < |users| && users[j].id == patient && users[j].fullName == r.value
  {
    match FirstIndex(users, (u: Accounts.User) => u.id == patient)
    case None => None
    case Some(j) => Some(users[j].fullName)
  }

  /**
   * The `map` over the found consultations: one entry per consultation, in
   * the same order. Reading `full_name` of a patient that is gone throws, so
   * one missing patient makes the whole listing fail (`None`).
   */
  function Project(cs: seq<Consultation>, users: seq<Accounts.User>): (r: Option<seq<RequestView>>)
    ensures r.Some? <==> forall k :: 0 <= k < |cs| ==> PatientName(users, cs[k].patient).Some?
    ensures r.Some? ==> |r.value| == |cs|
    ensures r.Some? ==> forall k :: 0 <= k < |cs| ==>
      r.value[k] == RequestView(cs[k].id, PatientName(users, cs[k].patient).value, cs[k].symptoms,
                                StatusName(cs[k].status), cs[k].createdAt)
  {
    if cs == [] then Some([])
    else
      var head := PatientName(users, cs[0].patient);
      var rest := Project(cs[1..], users);
      assert forall k :: 1 <= k < |cs| ==> cs[k] == cs[1..][k - 1];
      if head.None? || rest.None? then None
      else Some([RequestView(cs[0].id, head.value, cs[0].symptoms, StatusName(cs[0].status), cs[0].createdAt)] + rest.value)
  }

  /** `GET /requests`: the doctor's consultations, projected; 500 when a patient is missing. */
  function Requests(c: Clinic, doctor: Id, users: seq<Accounts.User>): (r: ClinicReply<seq<RequestView>>)
    ensures r.clinic == c && r.status in {200, 500}
    ensures r.status == 200 ==> r.body.Some? && r.body == Project(Filter(c.consultations, (x: Consultation) => x.doctor == doctor), users)
    ensures r.status == 500 ==> r.body.None?
  {
    match Project(Filter(c.consultations, (x: Consultation) => x.doctor == doctor), users)
    case None => ClinicReply(c, 500, None)
    case Some(views) => ClinicReply(c, 200, Some(views))
  }

  /** Each entry of the listing is one of the doctor's consultations. */
  lemma ListedAreTheDoctors(c: Clinic, doctor: Id, users: seq<Accounts.User>)
    requires Requests(c, doctor, users).status == 200
    ensures var views := Requests(c, doctor, users).body.value;
      forall k :: 0 <= k < |views| ==>
        exists j :: 0 <= j < |c.consultations| && c.consultations[j].doctor == doctor && c.consultations[j].id == views[k].id
  {
    var mine := Filter(c.consultations, (x: Consultation) => x.doctor == doctor);
    var views := Requests(c, doctor, users).body.value;
    FilterSound(c.consultations, (x: Consultation) => x.doctor == doctor);
    forall k | 0 <= k < |views|
      ensures exists j :: 0 <= j < |c.consultations| && c.consultations[j].doctor == doctor && c.consultations[j].id == views[k].id
    {
      var j :| 0 <= j < |c.consultations| && c.consultations[j] == mine[k];
      assert views[k].id == mine[k].id;
    }
  }

  /** Each of the doctor's consultations has an entry in the listing. */
  lemma DoctorsAreListed(c: Clinic, doctor: Id, users: seq<Accounts.User>)
    requires Requests(c, doctor, users).status == 200
    ensures var views := Requests(c, doctor, users).body.value;
      forall j :: 0 <= j < |c.consultations| && c.consultations[j].doctor == doctor ==>
        exists k :: 0 <= k < |views| && views[k].id == c.consultations[j].id
  {
    var mine := Filter(c.consultations, (x: Consultation) => x.doctor == doctor);
    var views := Requests(c, doctor, users).body.value;
    FilterComplete(c.consultations, (x: Consultation) => x.doctor == doctor);
    forall j | 0 <= j < |c.consultations| && c.consultations[j].doctor == doctor
      ensures exists k :: 0 <= k < |views| && views[k].id == c.consultations[j].id
    {
      var k :| 0 <= k < |mine| && mine[k] == c.consultations[j];
      assert views[k].id == mine[k].id;
    }
  }

  /** The listing keeps the store's order. */
  lemma RequestsKeepOrder(c: Clinic, doctor: Id)
    ensures Subsequence(Filter(c.consultations, (x: Consultation) => x.doctor == doctor), c.consultations)
  {
    FilterKeepsOrder(c.consultations, (x: Consultation) => x.doctor == doctor);
  }

  /**
   * What the handler does to the consultation it found: "accept" sets the
   * status to accepted and reserves `newRoom` unless a room is already set;
   * "decline" sets it to declined; any other action changes nothing. The
   * current status is never consulted.
   */
  function Transition(x: Consultation, action: Option<string>, newRoom: string): (y: Consultation)
    ensures y.id == x.id && y.patient == x.patient && y.doctor == x.doctor
    ensures y.symptoms == x.symptoms && y.messages == x.messages && y.createdAt == x.createdAt
    ensures action == Some("accept") ==> y.status == Accepted
    ensures action == Some("accept") && Truthy(x.videoRoomId) ==> y.videoRoomId == x.videoRoomId
    ensures action == Some("accept") && !Truthy(x.videoRoomId) ==> y.videoRoomId == Some(newRoom)
    ensures action == Some("decline") ==> y.status == Declined && y.videoRoomId == x.videoRoomId
    ensures action != Some("accept") && action != Some("decline") ==> y == x
  {
    if action == Some("accept") then
      x.(status := Accepted, videoRoomId := if Truthy(x.videoRoomId) then x.videoRoomId else Some(newRoom))
    else if action == Some("decline") then x.(status := Declined)
    else x
  }

  /** Accepting twice keeps the first room: the second room id is never used. */
  lemma ReacceptKeepsRoom(x: Consultation, first: string, second: string)
    requires first != ""
    ensures var once := Transition(x, Some("accept"), first);
      Transition(once, Some("accept"), second) == once
  {
  }

  /** There is no guard on the current status: a declined or completed request can still be accepted. */
  lemma AnyStatusCanBeAccepted(x: Consultation, room: string)
    requires x.status == Declined || x.status == Completed
    ensures Transition(x, Some("accept"), room).status == Accepted
  {
  }

  /** `Consultation.findOne({ _id: id, doctor })`: the request, only when it is this doctor's. */
  function FindRequest(c: Clinic, id: Id, doctor: Id): (r: Option<nat>)
    ensures r.Some? ==> r.value < |c.consultations| && c.consultations[r.value].id == id && c.consultations[r.value].doctor == doctor
    ensures r.None? <==> forall k :: 0 <= k < |c.consultations| ==> !(c.consultations[k].id == id && c.consultations[k].doctor == doctor)
  {
    FirstIndex(c.consultations, (x: Consultation) => x.id == id && x.doctor == doctor)
  }

  /**
   * `POST /requests/:id`: 404 with nothing changed unless the consultation
   * exists and belongs to the doctor; otherwise it is transformed, saved in
   * place and returned.
   */
  function Respond(c: Clinic, id: Id, doctor: Id, action: Option<string>, newRoom: string): (r: ClinicReply<Consultation>)
    ensures r.status in {200, 404}
    ensures FindRequest(c, id, doctor).None? ==> r == ClinicReply(c, 404, None)
    ensures r.status == 404 <==> FindRequest(c, id, doctor).None?
    ensures r.status == 200 ==>
      var k := FindRequest(c, id, doctor).value;
      && r.body == Some(Transition(c.consultations[k], action, newRoom))
      && r.clinic == c.(consultations := c.consultations[k := r.body.value])
  {
    match FindRequest(c, id, doctor)
    case None => ClinicReply(c, 404, None)
    case Some(k) =>
      var y := Transition(c.consultations[k], action, newRoom);
      ClinicReply(c.(consultations := c.consultations[k := y]), 200, Some(y))
  }

  /** Another doctor's consultation, or a missing one, is never changed. */
  lemma OnlyOwnRequestsChange(c: Clinic, id: Id, doctor: Id, action: Option<string>, newRoom: string, k: nat)
    requires k < |c.consultations| && c.consultations[k].id == id && c.consultations[k].doctor != doctor
    requires ClinicValid(c)
    ensures Respond(c, id, doctor, action, newRoom) == ClinicReply(c, 404, None)
  {
    forall j | 0 <= j < |c.consultations| ensures !(c.consultations[j].id == id && c.consultations[j].doctor == doctor) {
      if j < k {
        assert c.consultations[j].id < c.consultations[k].id;
      } else if j > k {
        assert c.consultations[k].id < c.consultations[j].id;
      }
    }
  }

  lemma RespondKeepsValid(c: Clinic, id: Id, doctor: Id, action: Option<string>, newRoom: string)
    requires ClinicValid(c)
    ensures ClinicValid(Respond(c, id, doctor, action, newRoom).clinic)
  {
    var k := FindRequest(c, id, doctor);
    if k.Some? {
      ReplaceKeepsValid(c, k.value, Transition(c.consultations[k.value], action, newRoom));
    }
  }

  method RegisterDoctor(store: ClinicStore, b: DoctorBody, now: Time) returns (status: nat, doctor: Option<Doctor>)
    requires store.Valid()
    modifies store
    ensures store.Valid()
    ensures ClinicReply(store.State(), status, doctor) == Register(old(store.State()), b, now)
  {
    RegisterKeepsValid(store.State(), b, now);
    if FirstIndex(store.doctors, (d: Doctor) => d.email == Some(b.email)).Some? {
      return 400, None;
    }
    var created := CreateDoctor(store.nextId, Fields(b), store.doctors, now);
    if created.None? {
      return 500, None;
    }
    store.doctors := store.doctors + [created.value];
    store.nextId := store.nextId + 1;
    status, doctor := 201, created;
  }

  /** The accept/decline handler: the found consultation's fields are assigned, then saved. */
  method RespondToRequest(store: ClinicStore, id: Id, doctor: Id, action: Option<string>, newRoom: string)
    returns (status: nat, consultation: Option<Consultation>)
    requires store.Valid()
    modifies store
    ensures store.Valid()
    ensures ClinicReply(store.State(), status, consultation) == Respond(old(store.State()), id, doctor, action, newRoom)
  {
    RespondKeepsValid(store.State(), id, doctor, action, newRoom);
    var found := FindRequest(store.State(), id, doctor);
    if found.None? {
      return 404, None;
    }
    var k := found.value;
    var x := store.consultations[k];
    if action == Some("accept") {
      x := x.(status := Accepted);
      if !Truthy(x.videoRoomId) {
        x := x.(videoRoomId := Some(newRoom));
      }
    } else if action == Some("decline") {
      x := x.(status := Declined);
    }
    store.consultations := store.consultations[k := x];
    status, consultation := 200, Some(x);
  }
}

=== FILE: fallback_parser.dfy ===
/**
 * The fallback extractor `fallbackParseMedicines`: one regular expression run
 * on each trimmed non-blank line, then a first-occurrence-wins de-duplication
 * by lower-cased name.
 *
 * The expression is
 *   ([A-Za-z][A-Za-z0-9\-\s\/]*)\s*(?:\s(\d+\s*(mg|g|ml|tabs|tablets|tablet|pcs)?)\s*)?(?:x?\s*(\d+))?\s*(?:₹\s?(\d+(\.\d+)?))?
 * with the `i` flag and no anchors. It is modelled here as a scanner. The
 * leftmost match starts at the first ASCII letter, and the greedy name group
 * takes the maximal run of letters, digits, `-`, `/` and whitespace. Every
 * later part is optional, so the engine keeps that maximal run. After the
 * run the next character is neither whitespace, nor a digit, nor `x`, so the
 * dosage and quantity groups never take part, and a price is read only when
 * `₹` comes right after the run.
 */
module FallbackParser {
  import opened Wrappers
  import opened Values
  import opened JsText
  import opened Candidates
  import Lookup

  const Rupee: char := '\U{20B9}'

  /** The characters of the name group's repeated class `[A-Za-z0-9\-\s\/]`. */
  predicate InNameClass(c: char) {
    IsAsciiLetter(c) || IsAsciiDigit(c) || c == '-' || c == '/' || IsJsSpace(c)
  }

  predicate AllInNameClass(s: string) {
    forall k :: 0 <= k < |s| ==> InNameClass(s[k])
  }

  /** Where the leftmost match starts: the first ASCII letter of the line. */
  function FirstLetter(l: string): (r: Option<nat>)
    ensures r.None? <==> forall k :: 0 <= k < |l| ==> !IsAsciiLetter(l[k])
    ensures r.Some? ==> r.value < |l| && IsAsciiLetter(l[r.value])
    ensures r.Some? ==> forall k :: 0 <= k < r.value ==> !IsAsciiLetter(l[k])
  {
    if l == [] then None
    else if IsAsciiLetter(l[0]) then Some(0)
    else match FirstLetter(l[1..])
      case None => None
      case Some(k) => Some(k + 1)
  }

  /** The end of the greedy name run starting at `i`. */
  function NameRunEnd(l: string, i: nat): (j: nat)
    requires i <= |l|
    ensures i <= j <= |l|
    ensures forall k :: i <= k < j ==> InNameClass(l[k])
    ensures j == |l| || !InNameClass(l[j])
    decreases |l| - i
  {
    if i < |l| && InNameClass(l[i]) then NameRunEnd(l, i + 1) else i
  }

  /** The end of the greedy `\d+` starting at `i`. */
  function DigitRunEnd(l: string, i: nat): (j: nat)
    requires i <= |l|
    ensures i <= j <= |l|
    ensures AllDigits(l[i..j])
    ensures j == |l| || !IsAsciiDigit(l[j])
    decreases |l| - i
  {
    if i < |l| && IsAsciiDigit(l[i]) then NameRunEndStep(l, i); DigitRunEnd(l, i + 1) else i
  }

  // One step of a run: a digit at `i` followed by digits is a run of digits.
  lemma NameRunEndStep(l: string, i: nat)
    requires i < |l| && IsAsciiDigit(l[i])
    ensures forall j :: i + 1 <= j <= |l| && AllDigits(l[i + 1..j]) ==> AllDigits(l[i..j])
  {
    forall j | i + 1 <= j <= |l| && AllDigits(l[i + 1..j]) ensures AllDigits(l[i..j]) {
      assert forall k :: 1 <= k < j - i ==> l[i..j][k] == l[i + 1..j][k - 1];
    }
  }

  /** `₹`, then at most one whitespace, then a digit: the price group can match at `j`. */
  predicate PriceFollows(l: string, j: nat) {
    && j < |l| && l[j] == Rupee
    && ((j + 1 < |l| && IsAsciiDigit(l[j + 1]))
        || (j + 2 < |l| && IsJsSpace(l[j + 1]) && IsAsciiDigit(l[j + 2])))
  }

  /** `parseFloat` of `whole` or `whole.fraction`, both strings of digits. */
  function DecimalOf(whole: string, fraction: string): Decimal
    requires AllDigits(whole) && AllDigits(fraction)
  {
    Decimal(DigitsValue(whole + fraction), |fraction|)
  }

  /** The price group `(?:₹\s?(\d+(\.\d+)?))?` tried at `j`, read with `parseFloat`. */
  function ScanPrice(l: string, j: nat): (r: Option<Decimal>)
    requires j <= |l|
    ensures r.Some? <==> PriceFollows(l, j)
  {
    if !PriceFollows(l, j) then None
    else
      // `\s?` is greedy, but gives the whitespace back when no digit follows it
      var start := if IsJsSpace(l[j + 1]) then j + 2 else j + 1;
      var e := DigitRunEnd(l, start);
      if e + 1 < |l| && l[e] == '.' && IsAsciiDigit(l[e + 1]) then
        var f := DigitRunEnd(l, e + 1);
        Some(DecimalOf(l[start..e], l[e + 1..f]))
      else
        Some(DecimalOf(l[start..e], ""))
  }

  /** The shape of every fallback item: a name and the constant fields. */
  predicate FallbackShape(c: Candidate) {
    && Truthy(c.name)
    && c.genericName == Some("") && c.category == Some("Unknown") && c.form == Some("")
    && c.quantity == Some(0) && c.expiryDate.None?
  }

  /** A valid name as the scanner produces it: it starts with a letter, stays in the class, ends without whitespace. */
  predicate WellFormedName(n: string) {
    && n != [] && IsAsciiLetter(n[0]) && !IsJsSpace(n[|n| - 1])
    && AllInNameClass(n)
  }

  /**
   * One line through the regular expression: `None` when `exec` finds no
   * match; otherwise the trimmed name group, quantity 0 (group 4 never takes
   * part) and the price that directly follows the name run, if any.
   */
  function ParseLine(l: string): (r: Option<Candidate>)
    ensures r.None? <==> forall k :: 0 <= k < |l| ==> !IsAsciiLetter(l[k])
    ensures r.Some? ==> FallbackShape(r.value) && WellFormedName(r.value.name.value)
    ensures r.Some? ==>
      var i := FirstLetter(l).value;
      && r.value.name == Some(Trim(l[i..NameRunEnd(l, i)]))
      && r.value.price == ScanPrice(l, NameRunEnd(l, i))
  {
    match FirstLetter(l)
    case None => None
    case Some(i) =>
      var j := NameRunEnd(l, i);
      var name := Trim(l[i..j]);
      NameRunWellFormed(l, i);
      Some(Candidate(
        name := Some(name),
        genericName := Some(""),
        category := Some("Unknown"),
        form := Some(""),
        quantity := Some(0),
        price := ScanPrice(l, j),
        expiryDate := None))
  }

  /** The trimmed name run starting at a letter is a well-formed name. */
  lemma NameRunWellFormed(l: string, i: nat)
    requires i < |l| && IsAsciiLetter(l[i])
    ensures WellFormedName(Trim(l[i..NameRunEnd(l, i)]))
  {
    var j := NameRunEnd(l, i);
    var run := l[i..j];
    forall k | 0 <= k < |run| ensures InNameClass(run[k]) {
      assert run[k] == l[i + k];
    }
    TrimmedRunWellFormed(run);
  }

  /** Trimming a name run that starts with a letter gives a well-formed name. */
  lemma TrimmedRunWellFormed(run: string)
    requires run != [] && IsAsciiLetter(run[0])
    requires AllInNameClass(run)
    ensures WellFormedName(Trim(run))
  {
    assert TrimStart(run) == run;
    var t := TrimEnd(run);
    assert Trim(run) == t;
    assert t == run[..|t|];
    assert |t| > 0;
    assert t[0] == run[0];
    forall k | 0 <= k < |t| ensures InNameClass(t[k]) {
      assert t[k] == run[k];
    }
  }

  /** A line made of a name run, a character outside the class, and anything: the run ends at that character. */
  lemma RunEndsAt(run: string, c: char, rest: string)
    requires AllInNameClass(run) && !InNameClass(c)
    ensures NameRunEnd(run + [c] + rest, 0) == |run|
  {
    assert (run + [c] + rest)[|run|] == c;
  }

  /** A well-formed name followed by one space trims back to the name. */
  lemma TrimNameSpace(name: string)
    requires WellFormedName(name)
    ensures AllInNameClass(name + " ") && Trim(name + " ") == name
  {
    var run := name + " ";
    forall k | 0 <= k < |run| ensures InNameClass(run[k]) {
      if k < |name| {
        assert run[k] == name[k];
      }
    }
    assert run[0] == name[0];
    assert TrimStart(run) == run;
    assert run[..|run| - 1] == name;
    assert IsJsSpace(run[|run| - 1]);
    assert TrimEnd(run) == TrimEnd(name);
    assert TrimEnd(name) == name;
  }

  /** Digits `d` at `i`, followed by the end of the line or a non-digit: the greedy `\d+` takes exactly `d`. */
  lemma {:induction false} DigitRunEndAt(l: string, i: nat, d: string)
    requires i + |d| <= |l| && l[i..i + |d|] == d && AllDigits(d)
    requires i + |d| == |l| || !IsAsciiDigit(l[i + |d|])
    ensures DigitRunEnd(l, i) == i + |d|
    decreases |d|
  {
    if d != [] {
      assert l[i] == d[0];
      assert l[i + 1..i + |d|] == d[1..];
      DigitRunEndAt(l, i + 1, d[1..]);
    }
  }

  /** The optional `(\.\d+)` part as it appears in the line. */
  function FractionPart(fraction: string): string {
    if fraction == [] then "" else "." + fraction
  }

  /** What follows the number cannot extend it: no further digit, and no `.digit` after a whole number. */
  predicate EndsNumber(fraction: string, tail: string) {
    && (tail == [] || !IsAsciiDigit(tail[0]))
    && (fraction == [] ==> !(|tail| >= 2 && tail[0] == '.' && IsAsciiDigit(tail[1])))
  }

  /** A suffix of the line that splits as `a + b`: `a` sits at `i`, `b` right after it. */
  lemma Peel(l: string, i: nat, a: string, b: string)
    requires i <= |l| && l[i..] == a + b
    ensures i + |a| <= |l| && l[i..i + |a|] == a && l[i + |a|..] == b
  {
    assert l[i..i + |a|] == (a + b)[..|a|];
    assert l[i + |a|..] == (a + b)[|a|..];
  }

  /** Digits `d` at `i` followed by `rest`, which does not start with a digit. */
  lemma DigitsThen(l: string, i: nat, d: string, rest: string)
    requires i <= |l| && l[i..] == d + rest && AllDigits(d)
    requires rest == [] || !IsAsciiDigit(rest[0])
    ensures DigitRunEnd(l, i) == i + |d| && l[i..i + |d|] == d && l[i + |d|..] == rest
  {
    Peel(l, i, d, rest);
    assert i + |d| < |l| ==> l[i + |d|] == rest[0];
    DigitRunEndAt(l, i, d);
  }

  /**
   * `₹`, at most one whitespace, the digits `whole`, optionally `.` and the
   * digits `fraction`, then text that does not continue the number: the
   * price is `parseFloat` of `whole` or `whole.fraction`.
   */
  lemma PriceOfNumber(l: string, j: nat, space: string, whole: string, fraction: string, tail: string)
    requires j < |l| && l[j] == Rupee
    requires |space| <= 1 && (space != [] ==> IsJsSpace(space[0]))
    requires whole != [] && AllDigits(whole) && AllDigits(fraction)
    requires l[j + 1..] == space + (whole + (FractionPart(fraction) + tail))
    requires EndsNumber(fraction, tail)
    ensures ScanPrice(l, j) == Some(DecimalOf(whole, fraction))
  {
    var s := j + 1 + |space|;
    RupeeThen(l, j, space, whole + (FractionPart(fraction) + tail));
    if fraction == [] {
      assert FractionPart(fraction) + tail == tail;
      PriceOfWhole(l, j, s, whole, tail);
    } else {
      assert FractionPart(fraction) + tail == "." + (fraction + tail);
      PriceOfFraction(l, j, s, whole, fraction, tail);
    }
  }

  /** `₹`, an optional whitespace and a digit: the price group starts after the whitespace. */
  lemma RupeeThen(l: string, j: nat, space: string, mid: string)
    requires j < |l| && l[j] == Rupee
    requires |space| <= 1 && (space != [] ==> IsJsSpace(space[0]))
    requires l[j + 1..] == space + mid && mid != [] && IsAsciiDigit(mid[0])
    ensures PriceFollows(l, j)
    ensures (if IsJsSpace(l[j + 1]) then j + 2 else j + 1) == j + 1 + |space|
    ensures l[j + 1 + |space|..] == mid
  {
    Peel(l, j + 1, space, mid);
    var s := j + 1 + |space|;
    assert l[s] == mid[0];
    assert space != [] ==> l[j + 1] == space[0];
  }

  /** The price when no fraction follows the whole part. */
  lemma PriceOfWhole(l: string, j: nat, s: nat, whole: string, tail: string)
    requires j < |l| && PriceFollows(l, j) && (if IsJsSpace(l[j + 1]) then j + 2 else j + 1) == s
    requires s <= |l| && l[s..] == whole + tail && AllDigits(whole)
    requires EndsNumber([], tail)
    ensures ScanPrice(l, j) == Some(DecimalOf(whole, ""))
  {
    DigitsThen(l, s, whole, tail);
    var e := s + |whole|;
    assert e < |l| ==> l[e] == tail[0];
    assert e + 1 < |l| ==> l[e + 1] == tail[1];
  }

  /** The price when `.fraction` follows the whole part. */
  lemma PriceOfFraction(l: string, j: nat, s: nat, whole: string, fraction: string, tail: string)
    requires j < |l| && PriceFollows(l, j) && (if IsJsSpace(l[j + 1]) then j + 2 else j + 1) == s
    requires s <= |l| && l[s..] == whole + ("." + (fraction + tail))
    requires AllDigits(whole) && fraction != [] && AllDigits(fraction)
    requires tail == [] || !IsAsciiDigit(tail[0])
    ensures ScanPrice(l, j) == Some(DecimalOf(whole, fraction))
  {
    DigitsThen(l, s, whole, "." + (fraction + tail));
    FractionAt(l, s + |whole|, fraction, tail);
    ScanFraction(l, j, s, whole, fraction);
  }

  /** `.` and the digits `fraction` at `e`, then no further digit. */
  lemma FractionAt(l: string, e: nat, fraction: string, tail: string)
    requires e <= |l| && l[e..] == "." + (fraction + tail)
    requires fraction != [] && AllDigits(fraction) && (tail == [] || !IsAsciiDigit(tail[0]))
    ensures e + 1 < |l| && l[e] == '.' && IsAsciiDigit(l[e + 1])
    ensures DigitRunEnd(l, e + 1) == e + 1 + |fraction| && l[e + 1..e + 1 + |fraction|] == fraction
  {
    Peel(l, e, ".", fraction + tail);
    DigitsThen(l, e + 1, fraction, tail);
    assert l[e + 1] == fraction[0];
  }

  /** The scanner's last step when `.fraction` follows the whole part. */
  lemma ScanFraction(l: string, j: nat, s: nat, whole: string, fraction: string)
    requires j < |l| && PriceFollows(l, j) && AllDigits(whole) && AllDigits(fraction)
    requires (if IsJsSpace(l[j + 1]) then j + 2 else j + 1) == s
    requires s <= |l| && DigitRunEnd(l, s) == s + |whole| && l[s..s + |whole|] == whole
    requires var e := s + |whole|;
      && e + 1 < |l| && l[e] == '.' && IsAsciiDigit(l[e + 1])
      && DigitRunEnd(l, e + 1) == e + 1 + |fraction|
      && l[e + 1..e + 1 + |fraction|] == fraction
    ensures ScanPrice(l, j) == Some(DecimalOf(whole, fraction))
  {
  }

  lemma ParacetamolName(name: string)
    requires name == "Paracetamol 500mg x10"
    ensures WellFormedName(name)
  {
    forall k | 0 <= k < |name| ensures InNameClass(name[k]) {}
  }

  lemma TwentyValue(amount: string)
    requires amount == "20"
    ensures AllDigits(amount) && DigitsValue(amount) == 20
  {
    assert amount[..1] == "2" && "2"[..0] == "";
  }

  /** The worked line "Paracetamol 500mg x10 ₹20": the name swallows dose and count, quantity stays 0, price 20. */
  lemma ParacetamolLine(l: string, name: string, amount: string)
    requires name == "Paracetamol 500mg x10" && amount == "20"
    requires l == name + " " + [Rupee] + amount
    ensures ParseLine(l) == Some(Candidate(Some(name), Some(""), Some("Unknown"), Some(""),
                                           Some(0), Some(Decimal(20, 0)), None))
  {
    ParacetamolName(name);
    TrimNameSpace(name);
    TwentyValue(amount);
    var run := name + " ";
    RunEndsAt(run, Rupee, amount);
    assert l[0] == name[0];
    assert FirstLetter(l) == Some(0);
    assert l[0..|run|] == run;
    assert l[|run| + 1..] == amount;
    assert l[|run| + 1..] == "" + (amount + (FractionPart("") + ""));
    PriceOfNumber(l, |run|, "", amount, "", "");
    assert amount + "" == amount;
  }

  function OptionToSeq(o: Option<Candidate>): seq<Candidate> {
    if o.Some? then [o.value] else []
  }

  /**
   * The items the per-line loop collects: every line that matches gives its
   * item, in line order (`ParsedItemsAppend`).
   */
  function ParsedItems(lines: seq<string>): (r: seq<Candidate>)
    ensures |r| <= |lines|
    ensures forall k :: 0 <= k < |r| ==> FallbackShape(r[k])
  {
    if lines == [] then []
    else ParsedItems(lines[..|lines| - 1]) + OptionToSeq(ParseLine(lines[|lines| - 1]))
  }

  /** No matching line is lost: each one's item is among the collected items. */
  lemma {:induction false} ParsedItemsCovers(lines: seq<string>)
    ensures forall k :: 0 <= k < |lines| && ParseLine(lines[k]).Some? ==> ParseLine(lines[k]).value in ParsedItems(lines)
  {
    forall k | 0 <= k < |lines| && ParseLine(lines[k]).Some?
      ensures ParseLine(lines[k]).value in ParsedItems(lines)
    {
      ParsedItemsAt(lines, k);
    }
  }

  // The items split at line `k` into those before it, its own, and those after it.
  lemma ParsedItemsAt(lines: seq<string>, k: nat)
    requires k < |lines|
    ensures ParsedItems(lines) == ParsedItems(lines[..k]) + OptionToSeq(ParseLine(lines[k])) + ParsedItems(lines[k + 1..])
  {
    var before, line, after := lines[..k], [lines[k]], lines[k + 1..];
    SplitAt(lines, k);
    ParsedItemsAppend(before, line + after);
    ParsedItemsAppend(line, after);
    assert line[0] == lines[k];
    var x, y, z := ParsedItems(before), OptionToSeq(ParseLine(lines[k])), ParsedItems(after);
    calc {
      ParsedItems(lines);
      ParsedItems(before + (line + after));
      x + ParsedItems(line + after);
      x + (ParsedItems(line) + z);
      { assert ParsedItems(line) == y; }
      x + (y + z);
      { CandidatesAssoc(x, y, z); }
      x + y + z;
    }
  }

  /** Lines are parsed one at a time and in order: one line gives its item or nothing, and concatenation is kept. */
  lemma {:induction false} ParsedItemsAppend(a: seq<string>, b: seq<string>)
    ensures ParsedItems(a + b) == ParsedItems(a) + ParsedItems(b)
    ensures |b| == 1 ==> ParsedItems(b) == OptionToSeq(ParseLine(b[0]))
    decreases |b|
  {
    if b == [] {
      assert a + b == a;
    } else {
      var init := b[..|b| - 1];
      assert (a + b)[..|a + b| - 1] == a + init;
      assert (a + b)[|a + b| - 1] == b[|b| - 1];
      ParsedItemsAppend(a, init);
      CandidatesAssoc(ParsedItems(a), ParsedItems(init), OptionToSeq(ParseLine(b[|b| - 1])));
      if |b| == 1 {
        assert init == [];
      }
    }
  }

  lemma SplitAt<T>(s: seq<T>, k: nat)
    requires k < |s|
    ensures s == s[..k] + ([s[k]] + s[k + 1..])
  {
  }

  lemma CandidatesAssoc(x: seq<Candidate>, y: seq<Candidate>, z: seq<Candidate>)
    ensures (x + y) + z == x + (y + z)
  {
  }

  /** Lines with no ASCII letter contribute nothing. */
  lemma {:induction false} LetterlessLinesSkipped(lines: seq<string>, extra: string)
    requires forall k :: 0 <= k < |extra| ==> !IsAsciiLetter(extra[k])
    ensures ParsedItems(lines + [extra]) == ParsedItems(lines)
  {
    assert (lines + [extra])[..|lines|] == lines;
  }

  /** The de-duplication key: `it.name.toLowerCase()`. */
  function Key(c: Candidate): string {
    Lower(c.name.GetOr(""))
  }

  /** The dedupe loop from a given `seen` set onwards. */
  function DedupFrom(items: seq<Candidate>, seen: set<string>): (r: seq<Candidate>)
    ensures |r| <= |items|
  {
    if items == [] then []
    else if Key(items[0]) in seen then DedupFrom(items[1..], seen)
    else [items[0]] + DedupFrom(items[1..], seen + {Key(items[0])})
  }

  /** The dedupe pass of lines 124-134. */
  function Dedup(items: seq<Candidate>): seq<Candidate> {
    DedupFrom(items, {})
  }

  lemma {:induction false} DedupFromSubsequence(items: seq<Candidate>, seen: set<string>)
    ensures Lookup.Subsequence(DedupFrom(items, seen), items)
    decreases |items|
  {
    if items != [] {
      var k := Key(items[0]);
      if k in seen {
        DedupFromSubsequence(items[1..], seen);
        Lookup.SubsequenceSkip(DedupFrom(items, seen), items);
      } else {
        DedupFromSubsequence(items[1..], seen + {k});
        var r := DedupFrom(items, seen);
        assert r[0] == items[0] && r[1..] == DedupFrom(items[1..], seen + {k});
      }
    }
  }

  /** Everything the dedupe pass keeps comes from its input. */
  lemma {:induction false} DedupFromMembers(items: seq<Candidate>, seen: set<string>)
    ensures forall c :: c in DedupFrom(items, seen) ==> c in items
    decreases |items|
  {
    if items != [] {
      var k := Key(items[0]);
      var seen' := if k in seen then seen else seen + {k};
      DedupFromMembers(items[1..], seen');
    }
  }

  /** The output of the dedupe pass is a subsequence of its input. */
  lemma DedupIsSubsequence(items: seq<Candidate>)
    ensures Lookup.Subsequence(Dedup(items), items)
  {
    DedupFromSubsequence(items, {});
  }

  /** No kept item has a key that was already seen. */
  lemma {:induction false} DedupFromFresh(items: seq<Candidate>, seen: set<string>)
    ensures forall c :: c in DedupFrom(items, seen) ==> Key(c) !in seen
    decreases |items|
  {
    if items != [] {
      var k := Key(items[0]);
      if k in seen {
        DedupFromFresh(items[1..], seen);
      } else {
        DedupFromFresh(items[1..], seen + {k});
      }
    }
  }

  /** No two items have names that are equal ignoring case. */
  predicate DistinctKeys(r: seq<Candidate>) {
    forall i, j :: 0 <= i < j < |r| ==> Key(r[i]) != Key(r[j])
  }

  lemma {:induction false} DedupFromDistinct(items: seq<Candidate>, seen: set<string>)
    ensures DistinctKeys(DedupFrom(items, seen))
    decreases |items|
  {
    if items != [] {
      var k := Key(items[0]);
      if k in seen {
        DedupFromDistinct(items[1..], seen);
        assert DedupFrom(items, seen) == DedupFrom(items[1..], seen);
      } else {
        var rest := DedupFrom(items[1..], seen + {k});
        DedupFromDistinct(items[1..], seen + {k});
        DedupFromFresh(items[1..], seen + {k});
        var r := DedupFrom(items, seen);
        assert r == [items[0]] + rest;
        forall i, j | 0 <= i < j < |r| ensures Key(r[i]) != Key(r[j]) {
          assert r[j] == rest[j - 1] && rest[j - 1] in rest;
          if i == 0 {
            assert Key(r[i]) == k && Key(rest[j - 1]) !in seen + {k};
          } else {
            assert r[i] == rest[i - 1];
          }
        }
      }
    }
  }

  /** The output of the dedupe pass has no two names equal ignoring case. */
  lemma DedupDistinct(items: seq<Candidate>)
    ensures DistinctKeys(Dedup(items))
  {
    DedupFromDistinct(items, {});
  }

  /** The keys kept so far together with the keys of the output cover every input key. */
  lemma {:induction false} DedupFromCovers(items: seq<Candidate>, seen: set<string>)
    ensures forall x :: x in items ==> Key(x) in seen || exists c :: c in DedupFrom(items, seen) && Key(c) == Key(x)
    decreases |items|
  {
    if items != [] {
      var k := Key(items[0]);
      var seen' := if k in seen then seen else seen + {k};
      DedupFromCovers(items[1..], seen');
      var r := DedupFrom(items, seen);
      forall x | x in items && Key(x) !in seen ensures exists c :: c in r && Key(c) == Key(x) {
        if Key(x) == k {
          assert r[0] == items[0];
        } else {
          assert x == items[0] || x in items[1..];
          if x != items[0] {
            var c :| c in DedupFrom(items[1..], seen') && Key(c) == Key(x);
            assert c in r;
          }
        }
      }
    }
  }

  /** Every input name (ignoring case) is represented in the output. */
  lemma DedupCovers(items: seq<Candidate>)
    ensures forall x :: x in items ==> exists c :: c in Dedup(items) && Key(c) == Key(x)
  {
    DedupFromCovers(items, {});
  }

  /** The first item of `items` with key `k`, if any. */
  function FirstWithKey(items: seq<Candidate>, k: string): Option<Candidate> {
    if items == [] then None
    else if Key(items[0]) == k then Some(items[0])
    else FirstWithKey(items[1..], k)
  }

  lemma {:induction false} DedupFromKeepsFirst(items: seq<Candidate>, seen: set<string>)
    ensures forall c :: c in DedupFrom(items, seen) ==> FirstWithKey(items, Key(c)) == Some(c)
    decreases |items|
  {
    if items != [] {
      var k := Key(items[0]);
      if k in seen {
        DedupFromKeepsFirst(items[1..], seen);
        DedupFromFresh(items[1..], seen);
      } else {
        DedupFromKeepsFirst(items[1..], seen + {k});
        DedupFromFresh(items[1..], seen + {k});
      }
    }
  }

  /** First occurrence wins: each kept item is the first input item with its lower-cased name. */
  lemma DedupKeepsFirst(items: seq<Candidate>)
    ensures forall c :: c in Dedup(items) ==> FirstWithKey(items, Key(c)) == Some(c)
  {
    DedupFromKeepsFirst(items, {});
  }

  /** Every item the fallback extractor returns has the fallback shape. */
  lemma FallbackItemsShape(lines: seq<string>)
    ensures forall c :: c in Dedup(ParsedItems(lines)) ==> FallbackShape(c)
  {
    DedupFromMembers(ParsedItems(lines), {});
  }

  /** The per-line loop of `fallbackParseMedicines`: every line that matches adds one item. */
  method ParseLines(lines: seq<string>) returns (items: seq<Candidate>)
    ensures items == ParsedItems(lines)
  {
    items := [];
    for i := 0 to |lines|
      invariant items == ParsedItems(lines[..i])
    {
      assert lines[..i + 1][..i] == lines[..i];
      var m := ParseLine(lines[i]);
      if m.Some? {
        items := items + [m.value];
      }
    }
    assert lines[..|lines|] == lines;
  }

  /** The dedupe loop of `fallbackParseMedicines`: a `seen` set of lower-cased names. */
  method DedupByName(items: seq<Candidate>) returns (dedup: seq<Candidate>)
    ensures dedup == Dedup(items)
  {
    dedup := [];
    var seen: set<string> := {};
    for i := 0 to |items|
      invariant dedup + DedupFrom(items[i..], seen) == Dedup(items)
    {
      assert items[i..][0] == items[i] && items[i..][1..] == items[i + 1..];
      var n := Key(items[i]);
      if n !in seen {
        dedup := dedup + [items[i]];
        seen := seen + {n};
      }
    }
    assert items[|items|..] == [];
  }

  /** `fallbackParseMedicines(text)` */
  method FallbackParseMedicines(text: string) returns (dedup: seq<Candidate>)
    ensures dedup == Dedup(ParsedItems(NonBlankLines(text)))
  {
    var items := ParseLines(NonBlankLines(text));
    dedup := DedupByName(items);
  }
}

=== FILE: js_text.dfy ===
/**
 * The JavaScript string operations the handlers rely on: the `\s` class and
 * `trim`, `split(/\r?\n/)`, `toLowerCase`, `includes`, `indexOf`/`lastIndexOf`,
 * truthiness of an optional string, and decimal digit strings.
 *
 * Case conversion is ASCII only: full Unicode `toLowerCase` is not modelled.
 */
module JsText {
  import opened Wrappers

  /** JavaScript's WhiteSpace and LineTerminator characters: what `\s` matches and what `trim` removes. */
  predicate IsJsSpace(c: char) {
    || c == '\t' || c == '\n' || c == '\U{000B}' || c == '\U{000C}' || c == '\r' || c == ' '
    || c == '\U{00A0}' || c == '\U{1680}' || ('\U{2000}' <= c <= '\U{200A}')
    || c == '\U{2028}' || c == '\U{2029}' || c == '\U{202F}' || c == '\U{205F}'
    || c == '\U{3000}' || c == '\U{FEFF}'
  }

  predicate IsAsciiUpper(c: char) { 'A' <= c <= 'Z' }

  predicate IsAsciiLower(c: char) { 'a' <= c <= 'z' }

  predicate IsAsciiLetter(c: char) { IsAsciiUpper(c) || IsAsciiLower(c) }

  /** `\d` in a JavaScript regular expression: ASCII digits only. */
  predicate IsAsciiDigit(c: char) { '0' <= c <= '9' }

  function AsciiLower(c: char): (r: char)
    ensures !IsAsciiUpper(r)
    ensures IsAsciiLetter(c) <==> IsAsciiLetter(r)
    ensures !IsAsciiUpper(c) ==> r == c
  {
    if IsAsciiUpper(c) then (c as int + 32) as char else c
  }

  /** `s.toLowerCase()`, restricted to ASCII letters. */
  function Lower(s: string): (r: string)
    ensures |r| == |s|
    ensures forall i :: 0 <= i < |s| ==> r[i] == AsciiLower(s[i])
  {
    seq(|s|, i requires 0 <= i < |s| => AsciiLower(s[i]))
  }

  /** Case-insensitive equality of two strings (ASCII case folding). */
  predicate EqualsIgnoreCase(a: string, b: string) {
    Lower(a) == Lower(b)
  }

  /** `(s || "").trimStart()` */
  function TrimStart(s: string): (r: string)
    ensures |r| <= |s| && r == s[|s| - |r|..]
    ensures forall i :: 0 <= i < |s| - |r| ==> IsJsSpace(s[i])
    ensures r == [] || !IsJsSpace(r[0])
  {
    if s != [] && IsJsSpace(s[0]) then TrimStart(s[1..]) else s
  }

  function TrimEnd(s: string): (r: string)
    ensures |r| <= |s| && r == s[..|r|]
    ensures forall i :: |r| <= i < |s| ==> IsJsSpace(s[i])
    ensures r == [] || !IsJsSpace(r[|r| - 1])
  {
    if s != [] && IsJsSpace(s[|s| - 1]) then TrimEnd(s[..|s| - 1]) else s
  }

  /** `s.trim()`: the longest factor of `s` that neither starts nor ends with whitespace. */
  function Trim(s: string): (r: string)
    ensures r == [] || (!IsJsSpace(r[0]) && !IsJsSpace(r[|r| - 1]))
    ensures (forall i :: 0 <= i < |s| ==> IsJsSpace(s[i])) <==> r == []
  {
    TrimEnd(TrimStart(s))
  }

  /** `s.indexOf(c)`, with `None` for -1. */
  function IndexOfChar(s: string, c: char): (r: Option<nat>)
    ensures r.None? <==> c !in s
    ensures r.Some? ==> r.value < |s| && s[r.value] == c && c !in s[..r.value]
  {
    if s == [] then None
    else if s[0] == c then Some(0)
    else match IndexOfChar(s[1..], c)
      case None => None
      case Some(k) => Some(k + 1)
  }

  /** `s.lastIndexOf(c)`, with `None` for -1. */
  function LastIndexOfChar(s: string, c: char): (r: Option<nat>)
    ensures r.None? <==> c !in s
    ensures r.Some? ==> r.value < |s| && s[r.value] == c && c !in s[r.value + 1..]
  {
    if s == [] then None
    else if s[|s| - 1] == c then Some(|s| - 1)
    else LastIndexOfChar(s[..|s| - 1], c)
  }

  /** The text before a line break, without the `\r` of a `\r\n` pair. */
  function DropCarriageReturn(s: string): string {
    if s != [] && s[|s| - 1] == '\r' then s[..|s| - 1] else s
  }

  /** `s.split(/\r?\n/)`: the pieces between line breaks, always at least one. */
  function SplitLines(s: string): (r: seq<string>)
    ensures |r| >= 1
    ensures forall k :: 0 <= k < |r| ==> '\n' !in r[k]
    decreases |s|
  {
    match IndexOfChar(s, '\n')
    case None => [s]
    case Some(k) => [DropCarriageReturn(s[..k])] + SplitLines(s[k + 1..])
  }

  /** Without carriage returns, joining the pieces with line feeds gives the text back. */
  lemma {:induction false} SplitLinesJoin(s: string)
    requires '\r' !in s
    ensures Join(SplitLines(s), "\n") == s
    decreases |s|
  {
    match IndexOfChar(s, '\n')
    case None =>
    case Some(k) =>
      assert '\r' !in s[..k] && '\r' !in s[k + 1..] by {
        assert forall i :: 0 <= i < k ==> s[..k][i] == s[i];
        assert forall i :: k < i < |s| ==> s[k + 1..][i - k - 1] == s[i];
      }
      if s[..k] != [] {
        assert s[..k][k - 1] == s[k - 1];
      }
      SplitLinesJoin(s[k + 1..]);
      var rest := SplitLines(s[k + 1..]);
      assert ([s[..k]] + rest)[1..] == rest;
      assert s == s[..k] + "\n" + s[k + 1..];
  }

  /** Every character of `s` is whitespace. */
  predicate Blank(s: string) {
    forall i :: 0 <= i < |s| ==> IsJsSpace(s[i])
  }

  /** Every piece trims to nothing. */
  predicate AllBlank(pieces: seq<string>) {
    forall k :: 0 <= k < |pieces| ==> Trim(pieces[k]) == []
  }

  /** A text is all whitespace exactly when every piece between its line breaks trims to nothing. */
  lemma {:induction false} SplitLinesBlank(s: string)
    ensures Blank(s) <==> AllBlank(SplitLines(s))
    decreases |s|
  {
    match IndexOfChar(s, '\n')
    case None =>
      assert SplitLines(s) == [s];
      assert AllBlank([s]) <==> Trim(s) == [] by {
        assert [s][0] == s;
      }
    case Some(k) =>
      var head, tail := s[..k], s[k + 1..];
      var d, rest := DropCarriageReturn(head), SplitLines(tail);
      assert SplitLines(s) == [d] + rest;
      SplitLinesBlank(tail);
      DropCarriageReturnBlank(head);
      BlankAround(s, k);
      AllBlankCons(d, rest);
  }

  // Dropping a trailing carriage return keeps a line blank or non-blank.
  lemma DropCarriageReturnBlank(h: string)
    ensures Blank(h) <==> Trim(DropCarriageReturn(h)) == []
  {
    var d := DropCarriageReturn(h);
    assert forall i :: 0 <= i < |d| ==> d[i] == h[i];
  }

  // A text around a line feed is blank exactly when both sides are.
  lemma BlankAround(s: string, k: nat)
    requires k < |s| && s[k] == '\n'
    ensures Blank(s) <==> Blank(s[..k]) && Blank(s[k + 1..])
  {
    assert forall i :: 0 <= i < k ==> s[..k][i] == s[i];
    assert forall i :: k < i < |s| ==> s[k + 1..][i - k - 1] == s[i];
  }

  lemma AllBlankCons(x: string, rest: seq<string>)
    ensures AllBlank([x] + rest) <==> Trim(x) == [] && AllBlank(rest)
  {
    var pieces := [x] + rest;
    assert pieces[0] == x;
    if Trim(x) == [] && AllBlank(rest) {
      forall k | 1 <= k < |pieces|
        ensures Trim(pieces[k]) == []
      {
        assert pieces[k] == rest[k - 1];
      }
    }
    if AllBlank(pieces) {
      forall k | 0 <= k < |rest|
        ensures Trim(rest[k]) == []
      {
        assert rest[k] == pieces[k + 1];
      }
    }
  }

  /**
   * `.map((l) => l.trim()).filter(Boolean)`: every piece that is not blank
   * is kept, trimmed (`TrimmedNonBlankCovers`); `TrimmedNonBlankAppend`
   * pins the order.
   */
  function TrimmedNonBlank(pieces: seq<string>): (r: seq<string>)
    ensures |r| <= |pieces|
    ensures forall k :: 0 <= k < |r| ==> r[k] != [] && Trim(r[k]) == r[k]
  {
    if pieces == [] then []
    else
      var t := Trim(pieces[0]);
      assert t == [] || (!IsJsSpace(t[0]) && !IsJsSpace(t[|t| - 1]));
      (if t == [] then [] else [t]) + TrimmedNonBlank(pieces[1..])
  }

  /** No piece that is not blank is lost: its trimmed text is among the kept lines. */
  lemma {:induction false} TrimmedNonBlankCovers(pieces: seq<string>)
    ensures forall k :: 0 <= k < |pieces| && Trim(pieces[k]) != [] ==> Trim(pieces[k]) in TrimmedNonBlank(pieces)
  {
    if pieces != [] {
      TrimmedNonBlankCovers(pieces[1..]);
      TailIndex(pieces);
    }
  }

  lemma TailIndex<T>(s: seq<T>)
    ensures forall k :: 1 <= k < |s| ==> s[k] == s[1..][k - 1]
  {
  }

  /** The filter works piece by piece, in order: one piece gives its trimmed text or nothing, and concatenation is kept. */
  lemma {:induction false} TrimmedNonBlankAppend(p: seq<string>, q: seq<string>)
    ensures TrimmedNonBlank(p + q) == TrimmedNonBlank(p) + TrimmedNonBlank(q)
    ensures |p| == 1 ==> TrimmedNonBlank(p) == (if Trim(p[0]) == [] then [] else [Trim(p[0])])
    decreases |p|
  {
    if p == [] {
      assert p + q == q;
    } else {
      var kept := if Trim(p[0]) == [] then [] else [Trim(p[0])];
      assert (p + q)[0] == p[0] && (p + q)[1..] == p[1..] + q;
      TrimmedNonBlankAppend(p[1..], q);
      AppendAssoc(kept, TrimmedNonBlank(p[1..]), TrimmedNonBlank(q));
    }
  }

  lemma AppendAssoc<T>(a: seq<T>, b: seq<T>, c: seq<T>)
    ensures a + (b + c) == (a + b) + c
  {
  }

  /** Nothing is kept exactly when every piece is blank. */
  lemma TrimmedNonBlankEmpty(pieces: seq<string>)
    ensures TrimmedNonBlank(pieces) == [] <==> AllBlank(pieces)
  {
    TrimmedNonBlankCovers(pieces);
    if AllBlank(pieces) {
      AllBlankKeepsNothing(pieces);
    }
  }

  lemma {:induction false} AllBlankKeepsNothing(pieces: seq<string>)
    requires AllBlank(pieces)
    ensures TrimmedNonBlank(pieces) == []
  {
    if pieces != [] {
      assert Trim(pieces[0]) == [];
      assert forall k :: 0 <= k < |pieces| - 1 ==> pieces[1..][k] == pieces[k + 1];
      AllBlankKeepsNothing(pieces[1..]);
    }
  }

  /** `text.split(/\r?\n/).map((l) => l.trim()).filter(Boolean)` */
  function NonBlankLines(text: string): (r: seq<string>)
    ensures forall k :: 0 <= k < |r| ==> r[k] != [] && Trim(r[k]) == r[k]
    ensures forall k :: 0 <= k < |SplitLines(text)| && Trim(SplitLines(text)[k]) != [] ==> Trim(SplitLines(text)[k]) in r
  {
    TrimmedNonBlankCovers(SplitLines(text));
    TrimmedNonBlank(SplitLines(text))
  }

  /** A text has no non-blank line exactly when it is all whitespace. */
  lemma NonBlankLinesEmpty(text: string)
    ensures NonBlankLines(text) == [] <==> Blank(text)
  {
    TrimmedNonBlankEmpty(SplitLines(text));
    SplitLinesBlank(text);
  }

  /** `parts.join(sep)` */
  function Join(parts: seq<string>, sep: string): (r: string)
    ensures parts != [] ==> |parts[0]| <= |r| && r[..|parts[0]|] == parts[0]
  {
    if parts == [] then ""
    else if |parts| == 1 then parts[0]
    else parts[0] + sep + Join(parts[1..], sep)
  }

  /** `s.includes(sub)` */
  predicate Contains(s: string, sub: string)
    decreases |s|
  {
    |sub| <= |s| && (s[..|sub|] == sub || (s != [] && Contains(s[1..], sub)))
  }

  lemma ContainsEmpty(s: string)
    ensures Contains(s, "")
  {
  }

  /** JavaScript truthiness of an optional string: present and not `""`. */
  predicate Truthy(o: Option<string>) {
    o.Some? && o.value != ""
  }

  /** `o || fallback` for an optional string. */
  function OrElse(o: Option<string>, fallback: string): (r: string)
    ensures Truthy(o) ==> r == o.value
    ensures !Truthy(o) ==> r == fallback
  {
    if Truthy(o) then o.value else fallback
  }

  function DigitValue(c: char): (r: nat)
    requires IsAsciiDigit(c)
    ensures r < 10
  {
    c as int - '0' as int
  }

  function DigitChar(d: nat): (c: char)
    requires d < 10
    ensures IsAsciiDigit(c) && DigitValue(c) == d
  {
    ('0' as int + d) as char
  }

  predicate AllDigits(s: string) {
    forall i :: 0 <= i < |s| ==> IsAsciiDigit(s[i])
  }

  /** The value of a string of decimal digits, as `parseInt` reads it. */
  function DigitsValue(s: string): nat
    requires AllDigits(s)
  {
    if s == [] then 0 else DigitsValue(s[..|s| - 1]) * 10 + DigitValue(s[|s| - 1])
  }

  /** `n.toString()` for a non-negative integer. */
  function DecimalString(n: nat): (r: string)
    ensures r != [] && AllDigits(r)
  {
    if n < 10 then [DigitChar(n)] else DecimalString(n / 10) + [DigitChar(n % 10)]
  }

  /** Reading back what `toString` wrote gives the number again. */
  lemma {:induction false} DecimalStringRoundTrip(n: nat)
    ensures DigitsValue(DecimalString(n)) == n
  {
    if n >= 10 {
      DecimalStringRoundTrip(n / 10);
      var s := DecimalString(n);
      assert s[..|s| - 1] == DecimalString(n / 10);
    }
  }

  /** A number with `k + 1` digits prints as `k + 1` characters. */
  lemma {:induction false} DecimalStringLength(n: nat, k: nat)
    requires Pow10(k) <= n < Pow10(k + 1)
    ensures |DecimalString(n)| == k + 1
  {
    if k > 0 {
      DecimalStringLength(n / 10, k - 1);
    }
  }

  function Pow10(k: nat): (r: nat)
    ensures r >= 1
  {
    if k == 0 then 1 else 10 * Pow10(k - 1)
  }
}

=== FILE: lookup.dfy ===
/** The two query shapes the route handlers use on a collection: `findOne` and `find`. */
module Lookup {
  import opened Wrappers

  /** `findOne(filter)`: the position of the first document the filter matches. */
  function FirstIndex<T>(s: seq<T>, p: T -> bool): (r: Option<nat>)
    ensures r.None? <==> forall k :: 0 <= k < |s| ==> !p(s[k])
    ensures r.Some? ==> r.value < |s| && p(s[r.value])
    ensures r.Some? ==> forall k :: 0 <= k < r.value ==> !p(s[k])
  {
    if s == [] then None
    else if p(s[0]) then Some(0)
    else
      var rest := FirstIndex(s[1..], p);
      if rest.None? then
        assert forall k :: 1 <= k < |s| ==> s[k] == s[1..][k - 1];
        None
      else
        assert forall k :: 1 <= k <= rest.value + 1 ==> s[k] == s[1..][k - 1];
        Some(rest.value + 1)
  }

  /** `find(filter)`: the matching documents, in store order. */
  function Filter<T>(s: seq<T>, p: T -> bool): (r: seq<T>)
    ensures |r| <= |s|
    ensures forall k :: 0 <= k < |r| ==> p(r[k])
  {
    if s == [] then []
    else
      var rest := Filter(s[1..], p);
      if p(s[0]) then [s[0]] + rest else rest
  }

  /** Everything `find` returns is in the collection. */
  lemma {:induction false} FilterSound<T>(s: seq<T>, p: T -> bool)
    ensures forall k :: 0 <= k < |Filter(s, p)| ==> Filter(s, p)[k] in s
  {
    if s != [] {
      FilterSound(s[1..], p);
      assert forall x :: x in s[1..] ==> x in s;
    }
  }

  /** Everything in the collection that matches is returned. */
  lemma {:induction false} FilterComplete<T>(s: seq<T>, p: T -> bool)
    ensures forall j :: 0 <= j < |s| && p(s[j]) ==> s[j] in Filter(s, p)
  {
    if s != [] {
      FilterComplete(s[1..], p);
      assert forall j :: 1 <= j < |s| ==> s[j] == s[1..][j - 1];
    }
  }

  /** Filtering keeps the order: `r` is `s` with some elements left out. */
  predicate Subsequence<T(==)>(r: seq<T>, s: seq<T>)
    decreases |s|
  {
    if r == [] then true
    else if s == [] then false
    else if r[0] == s[0] then Subsequence(r[1..], s[1..])
    else Subsequence(r, s[1..])
  }

  lemma {:induction false} FilterKeepsOrder<T>(s: seq<T>, p: T -> bool)
    ensures Subsequence(Filter(s, p), s)
  {
    if s != [] {
      FilterKeepsOrder(s[1..], p);
      var rest := Filter(s[1..], p);
      if p(s[0]) {
        assert Filter(s, p) == [s[0]] + rest;
        assert ([s[0]] + rest)[1..] == rest;
      } else {
        assert Filter(s, p) == rest;
        SubsequenceSkip(rest, s);
      }
    }
  }

  // Whatever is a subsequence of the tail is one of the whole sequence.
  lemma SubsequenceSkip<T>(r: seq<T>, s: seq<T>)
    requires s != [] && Subsequence(r, s[1..])
    ensures Subsequence(r, s)
    decreases |s|, 0
  {
    if r != [] && r[0] == s[0] {
      SubsequenceDrop(r, s[1..]);
    }
  }

  // Dropping the head of `r` keeps it a subsequence.
  lemma {:induction false} SubsequenceDrop<T>(r: seq<T>, s: seq<T>)
    requires r != [] && Subsequence(r, s)
    ensures Subsequence(r[1..], s)
    decreases |s|, 1
  {
    if s != [] {
      if r[0] == s[0] {
        if r[1..] != [] {
          SubsequenceDrop(r[1..], s[1..]);
          SubsequenceSkip(r[1..], s);
        }
      } else {
        SubsequenceDrop(r, s[1..]);
        if r[1..] != [] {
          SubsequenceSkip(r[1..], s);
        }
      }
    }
  }
}

=== FILE: medicine_model.dfy ===
/** The inventory record of models/Medicine.js: its fields, the required name and the defaults. */
module MedicineModel {
  import opened Wrappers
  import opened Values
  import opened JsText

  datatype Medicine = Medicine(
    id: Id,
    name: string,
    genericName: string,
    category: string,
    form: string,
    quantity: int,
    price: Option<Decimal>,
    expiryDate: Option<DateValue>,
    pharmacy: Option<string>,     // human-readable pharmacy name
    pharmacyId: Option<Id>,       // reference to a Pharmacy
    sourceBill: Option<Id>,       // reference to the Bill that created the record
    location: string,
    createdAt: Time,
    updatedAt: Time)

  /** The object handed to `Medicine.create`; `None` is a field left undefined. */
  datatype MedicineFields = MedicineFields(
    name: Option<string>,
    genericName: Option<string>,
    category: Option<string>,
    form: Option<string>,
    quantity: Option<int>,
    price: Option<Decimal>,
    expiryDate: Option<DateValue>,
    pharmacy: Option<string>,
    pharmacyId: Option<Id>,
    sourceBill: Option<Id>,
    location: Option<string>)

  /**
   * `Medicine.create(fields)`: `None` is the validation error raised when the
   * required name is missing or empty; otherwise every given field is stored
   * as given and every omitted one takes its default. Neither quantity nor
   * price is checked for sign.
   */
  function CreateMedicine(id: Id, f: MedicineFields, now: Time): (r: Option<Medicine>)
    ensures r.Some? <==> Truthy(f.name)
    ensures r.Some? ==>
      && r.value.id == id && r.value.name == f.name.value
      && r.value.genericName == f.genericName.GetOr("") && r.value.category == f.category.GetOr("Unknown")
      && r.value.form == f.form.GetOr("") && r.value.quantity == f.quantity.GetOr(0)
      && r.value.location == f.location.GetOr("")
      && r.value.price == f.price && r.value.expiryDate == f.expiryDate
      && r.value.pharmacy == f.pharmacy && r.value.pharmacyId == f.pharmacyId
      && r.value.sourceBill == f.sourceBill
      && r.value.createdAt == now && r.value.updatedAt == now
  {
    if !Truthy(f.name) then None
    else Some(Medicine(
      id := id,
      name := f.name.value,
      genericName := f.genericName.GetOr(""),
      category := f.category.GetOr("Unknown"),
      form := f.form.GetOr(""),
      quantity := f.quantity.GetOr(0),
      price := f.price,
      expiryDate := f.expiryDate,
      pharmacy := f.pharmacy,
      pharmacyId := f.pharmacyId,
      sourceBill := f.sourceBill,
      location := f.location.GetOr(""),
      createdAt := now,
      updatedAt := now))
  }

  /** The fields object that sets nothing but the name. */
  function NameOnly(name: string): MedicineFields {
    MedicineFields(Some(name), None, None, None, None, None, None, None, None, None, None)
  }

  /** Omitted fields take the schema defaults; price and expiry date stay unset. */
  lemma DefaultsWhenOmitted(id: Id, name: string, now: Time)
    requires name != ""
    ensures CreateMedicine(id, NameOnly(name), now).Some?
    ensures var m := CreateMedicine(id, NameOnly(name), now).value;
      && m.genericName == "" && m.category == "Unknown" && m.form == ""
      && m.quantity == 0 && m.location == ""
      && m.price.None? && m.expiryDate.None?
      && m.pharmacyId.None? && m.sourceBill.None?
  {
  }
}

=== FILE: pharmacy_detection.dfy ===
/**
 * The authenticity gate of the upload handler: who issued the bill (AI
 * answer first, the first lines of the OCR text otherwise), the name
 * normalisation, and the containment test against the logged-in pharmacy.
 */
module PharmacyDetection {
  import opened Wrappers
  import opened JsText

  predicate IsLowerAlnum(c: char) { IsAsciiLower(c) || IsAsciiDigit(c) }

  predicate AllLowerAlnum(s: string) {
    forall i :: 0 <= i < |s| ==> IsLowerAlnum(s[i])
  }

  /** `s.toLowerCase().replace(/[^a-z0-9]/g, "")` */
  function Normalize(s: string): (r: string)
    ensures |r| <= |s|
    ensures AllLowerAlnum(r)
  {
    if s == [] then []
    else
      var c := AsciiLower(s[0]);
      (if IsLowerAlnum(c) then [c] else []) + Normalize(s[1..])
  }

  /** `normalizeName(name)`: a missing name normalises like "". */
  function NormalizeName(name: Option<string>): (r: string)
    ensures AllLowerAlnum(r)
    ensures name.None? ==> r == ""
  {
    Normalize(name.GetOr(""))
  }

  /** A string already made of `[a-z0-9]` is left as it is. */
  lemma {:induction false} NormalizeFixesLowerAlnum(s: string)
    requires AllLowerAlnum(s)
    ensures Normalize(s) == s
  {
    if s != [] {
      NormalizeFixesLowerAlnum(s[1..]);
    }
  }

  /** Normalising twice is normalising once. */
  lemma NormalizeIdempotent(s: string)
    ensures Normalize(Normalize(s)) == Normalize(s)
  {
    NormalizeFixesLowerAlnum(Normalize(s));
  }

  /** One character: an ASCII letter or digit stays, lower-cased; anything else is removed. */
  lemma NormalizeChar(c: char)
    ensures Normalize([c]) == if IsAsciiLetter(c) || IsAsciiDigit(c) then [AsciiLower(c)] else []
  {
    assert [c][1..] == [];
  }

  /** A string without ASCII letters or digits normalises to "". */
  lemma {:induction false} NormalizeDropsAll(s: string)
    requires forall i :: 0 <= i < |s| ==> !IsAsciiLetter(s[i]) && !IsAsciiDigit(s[i])
    ensures Normalize(s) == ""
  {
    if s != [] {
      assert s == [s[0]] + s[1..];
      NormalizeAppend([s[0]], s[1..]);
      NormalizeChar(s[0]);
      NormalizeDropsAll(s[1..]);
    }
  }

  /** Whitespace normalises to "". */
  lemma NormalizeSpaces(s: string)
    requires forall i :: 0 <= i < |s| ==> IsJsSpace(s[i])
    ensures Normalize(s) == ""
  {
    forall i | 0 <= i < |s| ensures !IsAsciiLetter(s[i]) && !IsAsciiDigit(s[i]) {
      assert IsJsSpace(s[i]);
    }
    NormalizeDropsAll(s);
  }

  /** Leading whitespace does not reach the normal form. */
  lemma NormalizeTrimStart(s: string)
    ensures Normalize(TrimStart(s)) == Normalize(s)
  {
    var t := TrimStart(s);
    var k := |s| - |t|;
    assert s == s[..k] + t;
    NormalizeAppend(s[..k], t);
    NormalizeSpaces(s[..k]);
  }

  /** Trailing whitespace does not reach the normal form. */
  lemma NormalizeTrimEnd(t: string)
    ensures Normalize(TrimEnd(t)) == Normalize(t)
  {
    var u := TrimEnd(t);
    assert t == u + t[|u|..];
    NormalizeAppend(u, t[|u|..]);
    NormalizeSpaces(t[|u|..]);
  }

  /** Surrounding whitespace does not reach the normal form. */
  lemma NormalizeTrim(s: string)
    ensures Normalize(Trim(s)) == Normalize(s)
  {
    NormalizeTrimStart(s);
    NormalizeTrimEnd(TrimStart(s));
  }

  /** Upper- and lower-case spellings normalise alike. */
  lemma {:induction false} NormalizeIgnoresCase(s: string)
    ensures Normalize(Lower(s)) == Normalize(s)
  {
    if s != [] {
      assert Lower(s)[1..] == Lower(s[1..]);
      NormalizeIgnoresCase(s[1..]);
    }
  }

  /**
   * The gate of the upload handler: the upload is rejected when a name was
   * detected whose normalised form is non-empty and neither normalised name
   * contains the other.
   */
  predicate Rejects(detected: Option<string>, own: Option<string>)
    ensures Rejects(detected, own) ==>
      detected.Some? && NormalizeName(own) != "" && NormalizeName(detected) != NormalizeName(own)
  {
    var d := NormalizeName(detected);
    var o := NormalizeName(own);
    d != "" && !(Contains(d, o) || Contains(o, d))
  }

  /** Absence of evidence is not a mismatch: no detected name, or an own name without letters or digits, passes. */
  lemma GatePassesWithoutEvidence(detected: Option<string>, own: Option<string>)
    requires detected.None? || NormalizeName(detected) == "" || NormalizeName(own) == ""
    ensures !Rejects(detected, own)
  {
    ContainsEmpty(NormalizeName(detected));
  }

  /** `s` contains itself followed by anything. */
  lemma PrefixContained(pre: string, rest: string)
    ensures Contains(pre + rest, pre)
  {
    assert (pre + rest)[..|pre|] == pre;
  }

  /** Normalisation works character by character, so it distributes over concatenation. */
  lemma {:induction false} NormalizeAppend(a: string, b: string)
    ensures Normalize(a + b) == Normalize(a) + Normalize(b)
  {
    if a != [] {
      var c := AsciiLower(a[0]);
      var h := if IsLowerAlnum(c) then [c] else [];
      assert (a + b)[0] == a[0];
      assert (a + b)[1..] == a[1..] + b;
      assert Normalize(a + b) == h + Normalize(a[1..] + b);
      NormalizeAppend(a[1..], b);
    } else {
      assert a + b == b;
    }
  }

  /** A word and the single space after it: the space is dropped, the letters lower-cased. */
  lemma NormalizeWordSpace(w: string, lw: string)
    requires Lower(w) == lw && AllLowerAlnum(lw)
    ensures Normalize(w + " ") == lw
  {
    NormalizeAppend(w, " ");
    NormalizeIgnoresCase(w);
    NormalizeFixesLowerAlnum(lw);
  }

  lemma NormalizeWord(w: string, lw: string)
    requires Lower(w) == lw && AllLowerAlnum(lw)
    ensures Normalize(w) == lw
  {
    NormalizeIgnoresCase(w);
    NormalizeFixesLowerAlnum(lw);
  }

  // The worked examples below take their strings as parameters fixed by
  // `requires`: a literal argument would make the verifier unfold Normalize
  // character by character.

  /** "Apollo Pharmacy Pvt Ltd" logged in, "apollo pharmacy" detected: accepted by containment. */
  lemma ApolloAccepted(detected: string, own: string)
    requires detected == "apollo pharmacy" && own == "Apollo Pharmacy Pvt Ltd"
    ensures !Rejects(Some(detected), Some(own))
  {
    assert own == "Apollo Pharmacy" + " Pvt Ltd";
    assert Lower("Apollo Pharmacy") == detected;
    NormalizeIgnoresCase("Apollo Pharmacy");
    NormalizeAppend("Apollo Pharmacy", " Pvt Ltd");
    PrefixContained(Normalize(detected), Normalize(" Pvt Ltd"));
  }

  /** Two words separated by a space normalise to their lower-case spellings run together. */
  lemma NormalizeTwoWords(w1: string, w2: string, l1: string, l2: string)
    requires Lower(w1) == l1 && AllLowerAlnum(l1) && Lower(w2) == l2 && AllLowerAlnum(l2)
    ensures Normalize(w1 + " " + w2) == l1 + l2
  {
    NormalizeWordSpace(w1, l1);
    NormalizeWord(w2, l2);
    NormalizeAppend(w1 + " ", w2);
  }

  lemma NormalizeXyzMart(x: string)
    requires x == "XYZ Mart"
    ensures Normalize(x) == "xyzmart"
  {
    var w1, w2, l1, l2 := "XYZ", "Mart", "xyz", "mart";
    assert x == w1 + " " + w2;
    NormalizeTwoWords(w1, w2, l1, l2);
    assert l1 + l2 == "xyzmart";
  }

  /** "Apollo" logged in, "XYZ Mart" detected: rejected. */
  lemma ForeignBillRejected(detected: string, own: string)
    requires detected == "XYZ Mart" && own == "Apollo"
    ensures Rejects(Some(detected), Some(own))
  {
    NormalizeXyzMart(detected);
    NormalizeWord(own, "apollo");
    var d, o := "xyzmart", "apollo";
    assert !Contains(o, d);
    assert d[..6][0] != o[0];
    assert d[1..][..6][0] != o[0];
    assert !Contains(d[1..][1..], o);
  }

  /**
   * The AI detector's post-processing of the model's answer `content` (`None`
   * when the call failed or returned no content): trimmed, lower-cased, and
   * discarded when empty or "unknown"; no answer at all without an API key.
   */
  function DetectWithAI(keySet: bool, content: Option<string>): (r: Option<string>)
    ensures r.None? <==>
      !keySet || content.None? || Trim(content.value) == "" || Lower(Trim(content.value)) == "unknown"
    ensures r.Some? ==> r.value != "" && r.value != "unknown" && Lower(r.value) == r.value
    ensures r.Some? ==> r.value == Lower(Trim(content.value))
  {
    if !keySet || content.None? then None
    else
      var output := Trim(content.value);
      if output == "" || Lower(output) == "unknown" then None
      else
        assert Lower(Lower(output)) == Lower(output);
        Some(Lower(output))
  }

  /** The gate sees the AI's name exactly as it would see the raw reply: trimming and lower-casing do not change the normal form. */
  lemma DetectedNormalizesLikeReply(keySet: bool, content: Option<string>)
    ensures var r := DetectWithAI(keySet, content);
      r.Some? ==> Normalize(r.value) == Normalize(content.value)
  {
    if DetectWithAI(keySet, content).Some? {
      NormalizeIgnoresCase(Trim(content.value));
      NormalizeTrim(content.value);
    }
  }

  function Min(a: nat, b: nat): nat { if a < b then a else b }

  /** `extractPharmacyNameFallback(text)`: the first (up to) three non-blank trimmed lines, joined by single spaces, lower-cased. */
  function ExtractPharmacyNameFallback(text: string): (r: Option<string>)
    ensures r.None? <==> NonBlankLines(text) == []
    ensures r.Some? ==>
      var lines := NonBlankLines(text);
      && r.value == Lower(Join(lines[..Min(3, |lines|)], " "))
      && |lines[0]| <= |r.value| && r.value[..|lines[0]|] == Lower(lines[0])
  {
    var lines := NonBlankLines(text);
    if lines == [] then None
    else
      var first := lines[..Min(3, |lines|)];
      var joined := Join(first, " ");
      assert first[0] == lines[0];
      LowerPrefix(joined, |lines[0]|);
      Some(Lower(joined))
  }

  // Lower-casing commutes with taking a prefix.
  lemma LowerPrefix(s: string, n: nat)
    requires n <= |s|
    ensures Lower(s)[..n] == Lower(s[..n])
  {
  }

  /** `detectPharmacyName(text)`: the AI answer when there is one, the first lines of the text otherwise. */
  function DetectPharmacyName(keySet: bool, content: Option<string>, text: string): (r: Option<string>)
    ensures DetectWithAI(keySet, content).Some? ==> r == DetectWithAI(keySet, content)
    ensures DetectWithAI(keySet, content).None? ==> r == ExtractPharmacyNameFallback(text)
    ensures r.None? <==> DetectWithAI(keySet, content).None? && NonBlankLines(text) == []
  {
    var name := DetectWithAI(keySet, content);
    if name.None? then ExtractPharmacyNameFallback(text) else name
  }
}

=== FILE: reconciliation.dfy ===
/**
 * The upsert-by-name loop of the upload handler, as a function of the
 * medicine store: each item with a non-empty trimmed name either updates the
 * pharmacy's record of that name (found with the escaped, anchored,
 * case-insensitive pattern) or creates a new record owned by the bill; the
 * id of the record touched is appended to the list the bill will keep.
 * Also the cascade of the delete handler, `Medicine.deleteMany({ sourceBill })`.
 */
module Reconciliation {
  import opened Wrappers
  import opened Values
  import opened JsText
  import opened Candidates
  import opened MedicineModel
  import opened RegexEscape

  /** The logged-in pharmacy as the handler sees it: `_id`, `name`, `address`. */
  datatype Owner = Owner(id: Id, name: Option<string>, address: Option<string>)

  /** What one upload run works for: the caller, the bill just created, the clock. */
  datatype Batch = Batch(owner: Owner, billId: Id, now: Time)

  /** The medicine collection and the next fresh id. */
  datatype Store = Store(meds: seq<Medicine>, nextId: Id)

  /** The store after some items, and `createdIds` so far. */
  datatype Outcome = Outcome(store: Store, ids: seq<Id>)

  /** `(item.name || "").trim()` */
  function ItemName(c: Candidate): string {
    Trim(c.name.GetOr(""))
  }

  /** `m` belongs to pharmacy `pid` and is named `name`, ignoring case. */
  predicate SameNameFor(m: Medicine, pid: Id, name: string) {
    m.pharmacyId == Some(pid) && EqualsIgnoreCase(m.name, name)
  }

  /** The pharmacy has a record named `name`, ignoring case. */
  predicate HasRecord(meds: seq<Medicine>, pid: Id, name: string) {
    exists k :: 0 <= k < |meds| && SameNameFor(meds[k], pid, name)
  }

  /**
   * `Medicine.findOne({ name: new RegExp("^" + escapeRegExp(name) + "$", "i"), pharmacyId })`:
   * the position of the first record of the pharmacy whose name matches the
   * escaped pattern, which is the first one equal to `name` ignoring case.
   */
  function FindExisting(meds: seq<Medicine>, pid: Id, name: string): (r: Option<nat>)
    ensures r.Some? ==> r.value < |meds| && SameNameFor(meds[r.value], pid, name)
    ensures r.Some? ==> forall j :: 0 <= j < r.value ==> !SameNameFor(meds[j], pid, name)
    ensures r.None? <==> !HasRecord(meds, pid, name)
  {
    if meds == [] then None
    else
      EscapedPatternMatchesIgnoringCase(name, meds[0].name);
      if meds[0].pharmacyId == Some(pid) && MatchesAnchoredCI(EscapeRegExp(name), meds[0].name) then Some(0)
      else
        match FindExisting(meds[1..], pid, name)
        case None =>
          assert forall k :: 1 <= k < |meds| ==> meds[k] == meds[1..][k - 1];
          None
        case Some(k) =>
          assert forall j :: 0 <= j <= k ==> meds[j + 1] == meds[1..][j];
          Some(k + 1)
  }

  /** `r` is `m` with at most quantity, price, expiry date and `updatedAt` changed. */
  predicate UpdatedFrom(m: Medicine, r: Medicine) {
    r == m.(quantity := r.quantity, price := r.price, expiryDate := r.expiryDate, updatedAt := r.updatedAt)
  }

  /**
   * `findByIdAndUpdate(existing._id, update)`: quantity and price are
   * overwritten when the item has a number, the expiry date when the item's
   * is truthy; `updatedAt` is always set; nothing else changes.
   */
  function ApplyUpdate(m: Medicine, c: Candidate, now: Time): (r: Medicine)
    ensures UpdatedFrom(m, r) && r.updatedAt == now
    ensures r.quantity == (if c.quantity.Some? then c.quantity.value else m.quantity)
    ensures r.price == (if c.price.Some? then c.price else m.price)
    ensures r.expiryDate == (if Truthy(c.expiryDate) then Some(DateOf(c.expiryDate.value)) else m.expiryDate)
  {
    m.(quantity := c.quantity.GetOr(m.quantity),
       price := if c.price.Some? then c.price else m.price,
       expiryDate := if Truthy(c.expiryDate) then Some(DateOf(c.expiryDate.value)) else m.expiryDate,
       updatedAt := now)
  }

  /** The object handed to `Medicine.create` for an item with no existing record. */
  function NewRecordFields(c: Candidate, b: Batch, name: string): MedicineFields {
    MedicineFields(
      name := Some(name),
      genericName := Some(OrElse(c.genericName, "")),
      category := Some(OrElse(c.category, "Unknown")),
      form := Some(OrElse(c.form, "")),
      quantity := Some(c.quantity.GetOr(0)),
      price := c.price,
      expiryDate := if Truthy(c.expiryDate) then Some(DateOf(c.expiryDate.value)) else None,
      pharmacy := Some(OrElse(b.owner.name, "")),
      pharmacyId := Some(b.owner.id),
      sourceBill := Some(b.billId),
      location := Some(OrElse(b.owner.address, "")))
  }

  /** A record this batch created: owned by the caller, traced to the bill. */
  predicate FromBatch(m: Medicine, b: Batch) {
    && m.sourceBill == Some(b.billId) && m.pharmacyId == Some(b.owner.id)
    && m.pharmacy == Some(OrElse(b.owner.name, "")) && m.location == OrElse(b.owner.address, "")
  }

  /** The record `Medicine.create` builds for a new item. */
  function NewRecord(c: Candidate, b: Batch, id: Id): (m: Medicine)
    requires ItemName(c) != ""
    ensures m.id == id && m.name == ItemName(c) && FromBatch(m, b)
    ensures m.quantity == c.quantity.GetOr(0) && m.price == c.price
    ensures m.category == OrElse(c.category, "Unknown") && m.createdAt == b.now
  {
    CreateMedicine(id, NewRecordFields(c, b, ItemName(c)), b.now).value
  }

  /** One pass of the loop body for item `c`. */
  function Step(o: Outcome, b: Batch, c: Candidate): Outcome {
    var name := ItemName(c);
    if name == "" then o
    else match FindExisting(o.store.meds, b.owner.id, name)
      case Some(k) =>
        var m := ApplyUpdate(o.store.meds[k], c, b.now);
        Outcome(Store(o.store.meds[k := m], o.store.nextId), o.ids + [m.id])
      case None =>
        var m := NewRecord(c, b, o.store.nextId);
        Outcome(Store(o.store.meds + [m], o.store.nextId + 1), o.ids + [m.id])
  }

  /** The loop over `items`, in order. */
  function Reconcile(o: Outcome, b: Batch, items: seq<Candidate>): Outcome {
    if items == [] then o
    else Step(Reconcile(o, b, items[..|items| - 1]), b, items[|items| - 1])
  }

  /** How many items have a non-empty trimmed name. */
  function NamedCount(items: seq<Candidate>): (n: nat)
    ensures n <= |items|
  {
    if items == [] then 0
    else NamedCount(items[..|items| - 1]) + (if ItemName(items[|items| - 1]) == "" then 0 else 1)
  }

  /** Ids are below the counter and pairwise distinct. */
  predicate ValidStore(st: Store) {
    && (forall k :: 0 <= k < |st.meds| ==> st.meds[k].id < st.nextId)
    && (forall j, k :: 0 <= j < k < |st.meds| ==> st.meds[j].id != st.meds[k].id)
  }

  /** Every record of `o` is still at its place in `r`, at most updated. */
  predicate OldUpdated(o: seq<Medicine>, r: seq<Medicine>) {
    |o| <= |r| && forall k :: 0 <= k < |o| ==> UpdatedFrom(o[k], r[k])
  }

  /** The store grew by one record per fresh id, and ids were only appended. */
  predicate SizeGrows(o: Outcome, r: Outcome) {
    && |o.store.meds| <= |r.store.meds| && o.store.nextId <= r.store.nextId
    && |r.store.meds| - |o.store.meds| == r.store.nextId - o.store.nextId
    && |o.ids| <= |r.ids| && r.ids[..|o.ids|] == o.ids
  }

  /** Every record added after `o` comes from batch `b` with a fresh id. */
  predicate NewFromBatch(o: Outcome, r: Outcome, b: Batch)
    requires |o.store.meds| <= |r.store.meds|
  {
    forall k :: |o.store.meds| <= k < |r.store.meds| ==>
      FromBatch(r.store.meds[k], b) && o.store.nextId <= r.store.meds[k].id < r.store.nextId
  }

  /** No record added after `o` repeats the name of an earlier record of the caller. */
  predicate NoNewDuplicate(o: Outcome, r: Outcome, b: Batch) {
    forall j, k :: 0 <= j < k < |r.store.meds| && |o.store.meds| <= k ==>
      !SameNameFor(r.store.meds[j], b.owner.id, r.store.meds[k].name)
  }

  /** What every step keeps: old records only updated, new records from this batch, no new duplicate names. */
  predicate Grows(o: Outcome, r: Outcome, b: Batch) {
    && SizeGrows(o, r) && OldUpdated(o.store.meds, r.store.meds)
    && NewFromBatch(o, r, b) && NoNewDuplicate(o, r, b)
  }

  lemma StepGrows(o: Outcome, b: Batch, c: Candidate)
    ensures Grows(o, Step(o, b, c), b)
    ensures |Step(o, b, c).ids| == |o.ids| + (if ItemName(c) == "" then 0 else 1)
  {
    var r := Step(o, b, c);
    var meds := o.store.meds;
    var name := ItemName(c);
    if name != "" {
      match FindExisting(meds, b.owner.id, name)
      case Some(i) =>
        assert r.store.meds == meds[i := ApplyUpdate(meds[i], c, b.now)];
        assert r.ids[..|o.ids|] == o.ids;
      case None =>
        var m := NewRecord(c, b, o.store.nextId);
        assert r.store.meds == meds + [m];
        assert r.ids[..|o.ids|] == o.ids;
        forall j | 0 <= j < |meds| ensures !SameNameFor(r.store.meds[j], b.owner.id, m.name) {
          assert r.store.meds[j] == meds[j];
        }
    } else {
      assert o.ids[..|o.ids|] == o.ids;
    }
  }

  lemma StepValid(o: Outcome, b: Batch, c: Candidate)
    requires ValidStore(o.store)
    ensures ValidStore(Step(o, b, c).store)
  {
    var r := Step(o, b, c);
    var meds := o.store.meds;
    var name := ItemName(c);
    if name != "" {
      match FindExisting(meds, b.owner.id, name)
      case Some(i) =>
        var m := ApplyUpdate(meds[i], c, b.now);
        assert r.store == Store(meds[i := m], o.store.nextId);
        assert UpdatedFrom(meds[i], m);
        assert forall k :: 0 <= k < |meds| ==> r.store.meds[k].id == meds[k].id;
        KeptIdsValid(o.store, r.store);
      case None =>
        var m := NewRecord(c, b, o.store.nextId);
        assert r.store == Store(meds + [m], o.store.nextId + 1);
        assert forall k :: 0 <= k < |meds| ==> r.store.meds[k].id == meds[k].id;
        KeptIdsValid(o.store, r.store);
    }
  }

  /** Keeping the old ids in place and adding at most one record under the counter keeps a store valid. */
  lemma KeptIdsValid(o: Store, r: Store)
    requires ValidStore(o)
    requires |o.meds| <= |r.meds| <= |o.meds| + 1 && o.nextId <= r.nextId
    requires forall k :: 0 <= k < |o.meds| ==> r.meds[k].id == o.meds[k].id
    requires |o.meds| < |r.meds| ==> r.meds[|o.meds|].id == o.nextId < r.nextId
    ensures ValidStore(r)
  {
    forall j, k | 0 <= j < k < |r.meds| ensures r.meds[j].id != r.meds[k].id {
      if k == |o.meds| {
        assert r.meds[j].id == o.meds[j].id < o.nextId;
      }
    }
  }

  lemma GrowsTrans(o: Outcome, p: Outcome, r: Outcome, b: Batch)
    requires Grows(o, p, b) && Grows(p, r, b)
    ensures Grows(o, r, b)
  {
    assert r.ids[..|o.ids|] == r.ids[..|p.ids|][..|o.ids|];
    forall j, k | 0 <= j < k < |r.store.meds| && |o.store.meds| <= k
      ensures !SameNameFor(r.store.meds[j], b.owner.id, r.store.meds[k].name)
    {
      if k < |p.store.meds| {
        assert UpdatedFrom(p.store.meds[j], r.store.meds[j]);
        assert UpdatedFrom(p.store.meds[k], r.store.meds[k]);
        assert !SameNameFor(p.store.meds[j], b.owner.id, p.store.meds[k].name);
      }
    }
  }

  /**
   * The whole loop: old records are only updated (name, owner, provenance
   * untouched), every new record comes from this bill and the caller with a
   * fresh id, no new record repeats a name the pharmacy already had (ignoring
   * case), and one id is appended per item with a non-empty name.
   */
  lemma {:induction false} ReconcileGrows(o: Outcome, b: Batch, items: seq<Candidate>)
    ensures Grows(o, Reconcile(o, b, items), b)
    ensures |Reconcile(o, b, items).ids| == |o.ids| + NamedCount(items)
  {
    if items != [] {
      var init := items[..|items| - 1];
      var p := Reconcile(o, b, init);
      ReconcileGrows(o, b, init);
      StepGrows(p, b, items[|items| - 1]);
      GrowsTrans(o, p, Reconcile(o, b, items), b);
    } else {
      assert o.ids[..|o.ids|] == o.ids;
    }
  }

  /** The loop collects exactly one id per named item. */
  lemma ReconcileIdCount(o: Outcome, b: Batch, items: seq<Candidate>)
    ensures |Reconcile(o, b, items).ids| == |o.ids| + NamedCount(items)
  {
    ReconcileGrows(o, b, items);
  }

  /** The id counter never goes back. */
  lemma ReconcileCounterGrows(o: Outcome, b: Batch, items: seq<Candidate>)
    ensures o.store.nextId <= Reconcile(o, b, items).store.nextId
  {
    ReconcileGrows(o, b, items);
  }

  /** The store stays valid: the counter stays above every id and ids stay distinct. */
  lemma {:induction false} ReconcileValid(o: Outcome, b: Batch, items: seq<Candidate>)
    requires ValidStore(o.store)
    ensures ValidStore(Reconcile(o, b, items).store)
  {
    if items != [] {
      ReconcileValid(o, b, items[..|items| - 1]);
      StepValid(Reconcile(o, b, items[..|items| - 1]), b, items[|items| - 1]);
    }
  }

  lemma ReconcileOldUpdated(o: Outcome, b: Batch, items: seq<Candidate>)
    ensures OldUpdated(o.store.meds, Reconcile(o, b, items).store.meds)
    ensures SizeGrows(o, Reconcile(o, b, items))
  {
    ReconcileGrows(o, b, items);
  }

  lemma ReconcileNewFromBatch(o: Outcome, b: Batch, items: seq<Candidate>)
    ensures |o.store.meds| <= |Reconcile(o, b, items).store.meds|
    ensures NewFromBatch(o, Reconcile(o, b, items), b)
  {
    ReconcileGrows(o, b, items);
  }

  /** A pharmacy never has two records whose names are equal ignoring case. */
  predicate UniqueFor(meds: seq<Medicine>, pid: Id) {
    forall j, k :: 0 <= j < k < |meds| && meds[k].pharmacyId == Some(pid) ==> !SameNameFor(meds[j], pid, meds[k].name)
  }

  /** A run keeps the pharmacy's names unique. */
  lemma ReconcileKeepsUnique(o: Outcome, b: Batch, items: seq<Candidate>)
    requires UniqueFor(o.store.meds, b.owner.id)
    ensures UniqueFor(Reconcile(o, b, items).store.meds, b.owner.id)
  {
    ReconcileGrows(o, b, items);
    var r := Reconcile(o, b, items).store.meds;
    var old_ := o.store.meds;
    forall j, k | 0 <= j < k < |r| && r[k].pharmacyId == Some(b.owner.id)
      ensures !SameNameFor(r[j], b.owner.id, r[k].name)
    {
      if k < |old_| {
        assert UpdatedFrom(old_[j], r[j]) && UpdatedFrom(old_[k], r[k]);
      }
    }
  }

  /** Records keep their pharmacy and name when updated, so a pharmacy that had a name still has it. */
  lemma HasRecordKept(o: seq<Medicine>, r: seq<Medicine>, pid: Id, name: string)
    requires OldUpdated(o, r) && HasRecord(o, pid, name)
    ensures HasRecord(r, pid, name)
  {
    var k :| 0 <= k < |o| && SameNameFor(o[k], pid, name);
    assert UpdatedFrom(o[k], r[k]);
    assert SameNameFor(r[k], pid, name);
  }

  /** After a step, the item's name has a record of the caller's pharmacy. */
  lemma StepCovers(o: Outcome, b: Batch, c: Candidate)
    requires ItemName(c) != ""
    ensures HasRecord(Step(o, b, c).store.meds, b.owner.id, ItemName(c))
  {
    var r := Step(o, b, c).store.meds;
    var name := ItemName(c);
    match FindExisting(o.store.meds, b.owner.id, name)
    case Some(i) =>
      assert UpdatedFrom(o.store.meds[i], r[i]);
      assert SameNameFor(r[i], b.owner.id, name);
    case None =>
      assert r[|r| - 1].name == name && r[|r| - 1].pharmacyId == Some(b.owner.id);
      assert SameNameFor(r[|r| - 1], b.owner.id, name);
  }

  /** Every processed name ends up with a record of the caller's pharmacy. */
  lemma {:induction false} ReconcileCovers(o: Outcome, b: Batch, items: seq<Candidate>)
    ensures forall i :: 0 <= i < |items| && ItemName(items[i]) != "" ==>
      HasRecord(Reconcile(o, b, items).store.meds, b.owner.id, ItemName(items[i]))
  {
    if items != [] {
      var init := items[..|items| - 1];
      var p := Reconcile(o, b, init);
      var c := items[|items| - 1];
      ReconcileCovers(o, b, init);
      StepGrows(p, b, c);
      forall i | 0 <= i < |items| && ItemName(items[i]) != ""
        ensures HasRecord(Reconcile(o, b, items).store.meds, b.owner.id, ItemName(items[i]))
      {
        if i < |items| - 1 {
          assert items[i] == init[i];
          HasRecordKept(p.store.meds, Step(p, b, c).store.meds, b.owner.id, ItemName(items[i]));
        } else {
          StepCovers(p, b, c);
        }
      }
    }
  }

  /** Items whose names the pharmacy already has create no record: the store does not grow. */
  lemma {:induction false} KnownItemsCreateNothing(o: Outcome, b: Batch, items: seq<Candidate>)
    requires forall i :: 0 <= i < |items| && ItemName(items[i]) != "" ==> HasRecord(o.store.meds, b.owner.id, ItemName(items[i]))
    ensures |Reconcile(o, b, items).store.meds| == |o.store.meds|
    ensures Reconcile(o, b, items).store.nextId == o.store.nextId
  {
    if items != [] {
      var init := items[..|items| - 1];
      var p := Reconcile(o, b, init);
      var c := items[|items| - 1];
      assert forall i :: 0 <= i < |init| ==> init[i] == items[i];
      KnownItemsCreateNothing(o, b, init);
      ReconcileOldUpdated(o, b, init);
      if ItemName(c) != "" {
        HasRecordKept(o.store.meds, p.store.meds, b.owner.id, ItemName(c));
      }
    }
  }

  /** Re-running the same items, for any later bill, creates nothing new. */
  lemma RerunCreatesNothing(o: Outcome, b: Batch, b2: Batch, items: seq<Candidate>)
    requires b2.owner.id == b.owner.id
    ensures var r1 := Reconcile(o, b, items);
      |Reconcile(Outcome(r1.store, []), b2, items).store.meds| == |r1.store.meds|
  {
    var r1 := Reconcile(o, b, items);
    ReconcileCovers(o, b, items);
    KnownItemsCreateNothing(Outcome(r1.store, []), b2, items);
  }

  /** Records created by an earlier bill keep that bill as their source when a later bill lists them again. */
  lemma ProvenanceSurvivesRerun(o: Outcome, b: Batch, items: seq<Candidate>, r1: Outcome,
                                 o2: Outcome, b2: Batch, items2: seq<Candidate>, r2: Outcome)
    requires r1 == Reconcile(o, b, items) && o2.store == r1.store && r2 == Reconcile(o2, b2, items2)
    ensures |r1.store.meds| <= |r2.store.meds|
    ensures forall k :: |o.store.meds| <= k < |r1.store.meds| ==> r2.store.meds[k].sourceBill == Some(b.billId)
  {
    CreatedCarryBill(o, b, items, r1);
    ReconcileOldUpdated(o2, b2, items2);
    UpdatesKeepProvenance(r1.store.meds, r2.store.meds, |o.store.meds|, b.billId);
  }

  lemma CreatedCarryBill(o: Outcome, b: Batch, items: seq<Candidate>, r: Outcome)
    requires r == Reconcile(o, b, items)
    ensures forall k :: |o.store.meds| <= k < |r.store.meds| ==> r.store.meds[k].sourceBill == Some(b.billId)
  {
    ReconcileNewFromBatch(o, b, items);
  }

  lemma UpdatesKeepProvenance(r1: seq<Medicine>, r2: seq<Medicine>, from: nat, billId: Id)
    requires OldUpdated(r1, r2)
    requires forall k :: from <= k < |r1| ==> r1[k].sourceBill == Some(billId)
    ensures forall k :: from <= k < |r1| ==> r2[k].sourceBill == Some(billId)
  {
    forall k | from <= k < |r1| ensures r2[k].sourceBill == Some(billId) {
      assert UpdatedFrom(r1[k], r2[k]);
    }
  }

  /** Every id appended in the run names a record of the caller's pharmacy. */
  predicate IdsResolve(meds: seq<Medicine>, ids: seq<Id>, pid: Id) {
    forall i :: 0 <= i < |ids| ==> exists k :: 0 <= k < |meds| && meds[k].id == ids[i] && meds[k].pharmacyId == Some(pid)
  }

  lemma StepIds(p: Outcome, b: Batch, c: Candidate)
    ensures OldUpdated(p.store.meds, Step(p, b, c).store.meds)
    ensures |p.ids| <= |Step(p, b, c).ids| && Step(p, b, c).ids[..|p.ids|] == p.ids
  {
    StepGrows(p, b, c);
  }

  /** Ids keep resolving when records keep their ids and owners and more may follow. */
  lemma IdsResolveKept(meds: seq<Medicine>, meds': seq<Medicine>, ids: seq<Id>, pid: Id)
    requires IdsResolve(meds, ids, pid) && OldUpdated(meds, meds')
    ensures IdsResolve(meds', ids, pid)
  {
    forall i | 0 <= i < |ids|
      ensures exists k :: 0 <= k < |meds'| && meds'[k].id == ids[i] && meds'[k].pharmacyId == Some(pid)
    {
      var k :| 0 <= k < |meds| && meds[k].id == ids[i] && meds[k].pharmacyId == Some(pid);
      assert UpdatedFrom(meds[k], meds'[k]);
    }
    assert forall i :: 0 <= i < |ids| ==> exists k :: 0 <= k < |meds'| && meds'[k].id == ids[i] && meds'[k].pharmacyId == Some(pid);
  }

  /** An id that names a record of the pharmacy can be appended. */
  lemma IdsResolveAppend(meds: seq<Medicine>, ids: seq<Id>, pid: Id, k: nat)
    requires IdsResolve(meds, ids, pid)
    requires k < |meds| && meds[k].pharmacyId == Some(pid)
    ensures IdsResolve(meds, ids + [meds[k].id], pid)
  {
    var ids' := ids + [meds[k].id];
    forall i | 0 <= i < |ids'|
      ensures exists j :: 0 <= j < |meds| && meds[j].id == ids'[i] && meds[j].pharmacyId == Some(pid)
    {
      if i < |ids| {
        assert ids'[i] == ids[i];
      } else {
        assert meds[k].id == ids'[i];
      }
    }
    assert forall i :: 0 <= i < |ids'| ==> exists j :: 0 <= j < |meds| && meds[j].id == ids'[i] && meds[j].pharmacyId == Some(pid);
  }

  /** One step keeps every collected id naming a record of the caller, and its own id does too. */
  lemma StepIdsResolve(p: Outcome, b: Batch, c: Candidate)
    requires IdsResolve(p.store.meds, p.ids, b.owner.id)
    ensures IdsResolve(Step(p, b, c).store.meds, Step(p, b, c).ids, b.owner.id)
  {
    var r := Step(p, b, c);
    var name := ItemName(c);
    if name != "" {
      StepIds(p, b, c);
      IdsResolveKept(p.store.meds, r.store.meds, p.ids, b.owner.id);
      match FindExisting(p.store.meds, b.owner.id, name)
      case Some(j) =>
        assert UpdatedFrom(p.store.meds[j], r.store.meds[j]);
        IdsResolveAppend(r.store.meds, p.ids, b.owner.id, j);
      case None =>
        IdsResolveAppend(r.store.meds, p.ids, b.owner.id, |p.store.meds|);
    }
  }

  lemma {:induction false} ReconcileIdsResolve(o: Outcome, b: Batch, items: seq<Candidate>)
    requires IdsResolve(o.store.meds, o.ids, b.owner.id)
    ensures IdsResolve(Reconcile(o, b, items).store.meds, Reconcile(o, b, items).ids, b.owner.id)
  {
    if items != [] {
      var init := items[..|items| - 1];
      ReconcileIdsResolve(o, b, init);
      StepIdsResolve(Reconcile(o, b, init), b, items[|items| - 1]);
    }
  }

  /** `Medicine.deleteMany({ sourceBill: billId })`: what remains, in order. */
  function WithoutBill(meds: seq<Medicine>, billId: Id): (r: seq<Medicine>)
    ensures |r| <= |meds|
    ensures forall k :: 0 <= k < |r| ==> r[k].sourceBill != Some(billId)
  {
    if meds == [] then []
    else
      var last := meds[|meds| - 1];
      var rest := WithoutBill(meds[..|meds| - 1], billId);
      if last.sourceBill == Some(billId) then rest else rest + [last]
  }

  /** Exactly the records of other bills (or of none) survive the delete. */
  lemma {:induction false} WithoutBillMembers(meds: seq<Medicine>, billId: Id)
    ensures forall m :: m in WithoutBill(meds, billId) <==> m in meds && m.sourceBill != Some(billId)
  {
    if meds != [] {
      var init := meds[..|meds| - 1];
      WithoutBillMembers(init, billId);
      assert meds == init + [meds[|meds| - 1]];
    }
  }

  lemma {:induction false} WithoutBillAppend(a: seq<Medicine>, c: seq<Medicine>, billId: Id)
    ensures WithoutBill(a + c, billId) == WithoutBill(a, billId) + WithoutBill(c, billId)
    decreases |c|
  {
    if c == [] {
      assert a + c == a;
    } else {
      var init := c[..|c| - 1];
      WithoutBillAppend(a, init, billId);
      assert (a + c)[..|a + c| - 1] == a + init;
    }
  }

  lemma {:induction false} WithoutBillKeepsAll(a: seq<Medicine>, billId: Id)
    requires forall k :: 0 <= k < |a| ==> a[k].sourceBill != Some(billId)
    ensures WithoutBill(a, billId) == a
  {
    if a != [] {
      var init := a[..|a| - 1];
      assert forall k :: 0 <= k < |init| ==> init[k] == a[k];
      WithoutBillKeepsAll(init, billId);
      assert a == init + [a[|a| - 1]];
    }
  }

  lemma {:induction false} WithoutBillDropsAll(a: seq<Medicine>, billId: Id)
    requires forall k :: 0 <= k < |a| ==> a[k].sourceBill == Some(billId)
    ensures WithoutBill(a, billId) == []
  {
    if a != [] {
      var init := a[..|a| - 1];
      assert forall k :: 0 <= k < |init| ==> init[k] == a[k];
      WithoutBillDropsAll(init, billId);
    }
  }

  /**
   * Deleting a bill right after its run removes exactly the records it
   * created; the records it only updated stay, with their updates.
   */
  lemma DeleteRemovesCreatedOnly(o: Outcome, b: Batch, items: seq<Candidate>)
    requires forall k :: 0 <= k < |o.store.meds| ==> o.store.meds[k].sourceBill != Some(b.billId)
    ensures var r := Reconcile(o, b, items).store.meds;
      |o.store.meds| <= |r| && WithoutBill(r, b.billId) == r[..|o.store.meds|]
  {
    ReconcileOldUpdated(o, b, items);
    ReconcileNewFromBatch(o, b, items);
    var r := Reconcile(o, b, items).store.meds;
    var n := |o.store.meds|;
    forall k | 0 <= k < n ensures r[k].sourceBill != Some(b.billId) {
      assert UpdatedFrom(o.store.meds[k], r[k]);
    }
    forall k | n <= k < |r| ensures r[k].sourceBill == Some(b.billId) {
      assert FromBatch(r[k], b);
    }
    WithoutBillSplit(r, n, b.billId);
  }

  /** Records before `n` are kept, records from `n` on are the bill's: deleting the bill cuts the store at `n`. */
  lemma WithoutBillSplit(r: seq<Medicine>, n: nat, billId: Id)
    requires n <= |r|
    requires forall k :: 0 <= k < n ==> r[k].sourceBill != Some(billId)
    requires forall k :: n <= k < |r| ==> r[k].sourceBill == Some(billId)
    ensures WithoutBill(r, billId) == r[..n]
  {
    var head, tail := r[..n], r[n..];
    forall k | 0 <= k < |tail| ensures tail[k].sourceBill == Some(billId) {
      assert tail[k] == r[n + k];
    }
    WithoutBillKeepsAll(head, billId);
    WithoutBillDropsAll(tail, billId);
    WithoutBillAppend(head, tail, billId);
    assert r == head + tail;
  }
}

=== FILE: regex_escape.dfy ===
/**
 * `escapeRegExp` and the lookup it serves: the upload handler finds an
 * existing medicine with the pattern `^<escaped name>$` and the `i` flag.
 * A pattern made only of ordinary characters and escaped special characters
 * matches, anchored at both ends, exactly the strings that spell it out
 * character by character; case is folded on ASCII letters only.
 */
module RegexEscape {
  import opened Wrappers
  import opened JsText

  /** The characters of the class `[.*+?^${}()|[\]\\]`. */
  predicate IsRegexSpecial(c: char) {
    c in ".*+?^${}()|[]\\"
  }

  /** `string.replace(/[.*+?^${}()|[\]\\]/g, "\\$&")` */
  function EscapeRegExp(s: string): (r: string)
    ensures |s| <= |r| <= 2 * |s|
  {
    if s == [] then []
    else (if IsRegexSpecial(s[0]) then ['\\', s[0]] else [s[0]]) + EscapeRegExp(s[1..])
  }

  /** The pattern reads as a sequence of literal atoms: ordinary characters, or `\` followed by a special character. */
  function ReadLiteral(p: string): (r: Option<string>)
    ensures r.Some? ==> |r.value| <= |p|
  {
    if p == [] then Some([])
    else if p[0] == '\\' then
      if |p| >= 2 && IsRegexSpecial(p[1]) then
        match ReadLiteral(p[2..])
        case None => None
        case Some(rest) => Some([p[1]] + rest)
      else None
    else if IsRegexSpecial(p[0]) then None
    else
      match ReadLiteral(p[1..])
      case None => None
      case Some(rest) => Some([p[0]] + rest)
  }

  /** Escaping leaves no special character unescaped, and reading the pattern back gives the original text. */
  lemma {:induction false} EscapeRoundTrip(s: string)
    ensures ReadLiteral(EscapeRegExp(s)) == Some(s)
  {
    if s != [] {
      EscapeRoundTrip(s[1..]);
      var p := EscapeRegExp(s);
      if IsRegexSpecial(s[0]) {
        assert p[2..] == EscapeRegExp(s[1..]);
      } else {
        assert p[0] == s[0] && s[0] != '\\';
        assert p[1..] == EscapeRegExp(s[1..]);
      }
      assert [s[0]] + s[1..] == s;
    }
  }

  /**
   * `new RegExp("^" + p + "$", "i").test(s)` for a pattern of literal atoms:
   * each atom consumes one character of `s` equal to it ignoring case, and
   * `s` must be used up exactly.
   */
  predicate MatchesAnchoredCI(p: string, s: string)
    ensures MatchesAnchoredCI(p, s) ==> |s| <= |p| && (s == [] <==> p == [])
    decreases |p|
  {
    if p == [] then s == []
    else if p[0] == '\\' && |p| >= 2 then
      s != [] && AsciiLower(s[0]) == AsciiLower(p[1]) && MatchesAnchoredCI(p[2..], s[1..])
    else
      s != [] && AsciiLower(s[0]) == AsciiLower(p[0]) && MatchesAnchoredCI(p[1..], s[1..])
  }

  /** The escaped lookup pattern for `name` matches `s` exactly when the two are equal ignoring case. */
  lemma {:induction false} EscapedPatternMatchesIgnoringCase(name: string, s: string)
    ensures MatchesAnchoredCI(EscapeRegExp(name), s) <==> EqualsIgnoreCase(name, s)
  {
    var p := EscapeRegExp(name);
    if name == [] {
    } else if s == [] {
    } else {
      EscapedPatternMatchesIgnoringCase(name[1..], s[1..]);
      if IsRegexSpecial(name[0]) {
        assert p[1] == name[0] && p[2..] == EscapeRegExp(name[1..]);
      } else {
        assert p[0] == name[0] && p[0] != '\\' && p[1..] == EscapeRegExp(name[1..]);
      }
      LowerCons(name);
      LowerCons(s);
    }
  }

  // Lower-casing works character by character.
  lemma LowerCons(s: string)
    requires s != []
    ensures Lower(s) == [AsciiLower(s[0])] + Lower(s[1..])
  {
  }

  /** Without escaping, `.` would match any character: the escape is what makes "a.b" miss "axb". */
  lemma DotIsEscaped(name: string, other: string)
    requires name == "a.b" && other == "axb"
    ensures !MatchesAnchoredCI(EscapeRegExp(name), other)
  {
    EscapedPatternMatchesIgnoringCase(name, other);
    assert Lower(name)[1] != Lower(other)[1];
  }
}

=== FILE: user_controller.dfy ===
/**
 * controllers/userController.js, an unmounted copy of the user controller.
 * Its registration checks only email and password, so a missing name gets
 * as far as `User.create`, whose schema refuses it (500); its Google sign-in
 * refuses a request without a token (400) before verifying anything. The
 * code requests are the same as in the mounted controller.
 */
module UserController {
  import opened Wrappers
  import opened JsText
  import opened Values
  import opened Accounts
  import AuthController

  /** The fields `registerUser` reads from the request body. */
  datatype RegisterBody = RegisterBody(
    fullName: Option<string>,
    email: Option<string>,
    password: Option<string>,
    phone: Option<string>,
    role: Option<string>,
    preferredLanguage: Option<string>,
    village: Option<string>)

  function Fields(b: RegisterBody): UserFields {
    UserFields(b.fullName, b.email, b.password, None, b.phone, b.role, b.preferredLanguage, b.village)
  }

  /**
   * `registerUser`: 400 unless email and password are non-empty, then the
   * duplicate-email check and `User.create`, which throws (500) on a missing
   * name or a clashing phone.
   */
  function RegisterRequest(a: Accounts, b: RegisterBody): (r: AccountsResult)
    ensures !Truthy(b.email) || !Truthy(b.password) ==> r == Refused(a, 400)
    ensures r.status in {201, 400, 500}
    ensures r.status != 201 ==> r == Refused(a, r.status)
    ensures Truthy(b.email) && Truthy(b.password) && !Taken(a.users, Email, b.email.value) && !Truthy(b.fullName)
      ==> r.status == 500
    ensures Truthy(b.email) && Truthy(b.password) && Taken(a.users, Email, b.email.value) ==> r == Refused(a, 400)
    ensures r.status == 201 <==>
      && Truthy(b.email) && Truthy(b.password) && !Taken(a.users, Email, b.email.value) && Truthy(b.fullName)
      && !(b.phone.Some? && Taken(a.users, Phone, b.phone.value))
    ensures r.status == 201 ==>
      && r.user.Some? && r.accounts.users == a.users + [r.user.value] && r.user.value.email == b.email
      && r.user.value.role == b.role.GetOr("patient")
      && r.user.value.village == b.village && r.user.value.preferredLanguage == b.preferredLanguage
    ensures Truthy(b.email) && Truthy(b.password) ==> r == Register(a, Fields(b))
  {
    if !Truthy(b.email) || !Truthy(b.password) then Refused(a, 400)
    else Register(a, Fields(b))
  }

  /**
   * The two controllers answer a nameless registration differently: the
   * mounted one refuses it up front (400), this one fails in the schema (500).
   */
  lemma NamelessRegistration(a: Accounts, email: string, password: string)
    requires email != "" && password != "" && !Taken(a.users, Email, email)
    ensures RegisterRequest(a, RegisterBody(None, Some(email), Some(password), None, None, None, None)).status == 500
    ensures AuthController.RegisterRequest(a, None, Some(email), Some(password), None).status == 400
  {
  }

  /** `googleSignIn`: 400 without a token, 500 when its verification throws, then the shared linking. */
  function GoogleRequest(a: Accounts, idToken: Option<string>, ticket: Option<GooglePayload>): (r: AccountsResult)
    ensures !Truthy(idToken) ==> r == Refused(a, 400)
    ensures Truthy(idToken) && ticket.None? ==> r == Refused(a, 500)
    ensures Truthy(idToken) && ticket.Some? ==> r == GoogleSignIn(a, ticket.value)
  {
    if !Truthy(idToken) then Refused(a, 400)
    else if ticket.None? then Refused(a, 500)
    else GoogleSignIn(a, ticket.value)
  }

  method RegisterUser(store: AccountStore, b: RegisterBody) returns (status: nat, user: Option<User>)
    requires store.Valid()
    modifies store
    ensures store.Valid()
    ensures AccountsResult(store.State(), status, user) == RegisterRequest(old(store.State()), b)
  {
    if !Truthy(b.email) || !Truthy(b.password) {
      return 400, None;
    }
    status, user := store.RegisterUser(Fields(b));
  }

  method GoogleSignInHandler(store: AccountStore, idToken: Option<string>, ticket: Option<GooglePayload>)
    returns (status: nat, user: Option<User>)
    requires store.Valid()
    modifies store
    ensures store.Valid()
    ensures AccountsResult(store.State(), status, user) == GoogleRequest(old(store.State()), idToken, ticket)
  {
    if !Truthy(idToken) {
      return 400, None;
    }
    if ticket.None? {
      return 500, None;
    }
    status, user := store.SignInWithGoogle(ticket.value);
  }

  /** `sendOtp` with the mock provider. */
  method SendOtp(store: AccountStore, phone: Option<string>, draw: nat, now: Time) returns (status: nat)
    requires store.Valid() && draw < 900000
    modifies store
    ensures store.Valid()
    ensures AccountsResult(store.State(), status, None) == SendOtpRequest(old(store.State()), phone, draw, now)
  {
    if !Truthy(phone) {
      return 400;
    }
    store.IssueMockCode(phone.value, draw, now);
    status := 200;
  }

  /** `verifyOtp` with the mock provider. */
  method VerifyOtp(store: AccountStore, phone: Option<string>, code: Option<string>, now: Time)
    returns (status: nat, user: Option<User>)
    requires store.Valid()
    modifies store
    ensures store.Valid()
    ensures AccountsResult(store.State(), status, user) == VerifyOtpRequest(old(store.State()), phone, code, now)
  {
    if !Truthy(phone) || !Truthy(code) {
      return 400, None;
    }
    status, user := store.CheckMockCode(phone.value, code.value, now);
  }
}

=== FILE: values.dfy ===
/** Scalar values shared by the records of the store. */
module Values {

  /** A store identifier (a Mongo ObjectId); fresh ones come from a counter. */
  type Id = nat

  /** A point in time, in milliseconds since the epoch (what `Date.now()` gives). */
  type Time = int

  /** A decimal number `units * 10^-scale`: `parseFloat("20.50")` is `Decimal(2050, 2)`. */
  datatype Decimal = Decimal(units: int, scale: nat)

  /** A date built by `new Date(text)`; its calendar meaning is not modelled. */
  datatype DateValue = DateOf(text: string)
}

=== FILE: wrappers.dfy ===
/** Optional values: the model's stand-in for JavaScript's `undefined` / `null`. */
module Wrappers {

  datatype Option<+T> = None | Some(value: T) {

    /** The wrapped value, or `default` when there is none. */
    function GetOr(default: T): T {
      match this
      case Some(v) => v
      case None => default
    }
  }
}
